=== FILE: README.md ===
# uframe-api: a verified model of the catalog, request and grouping logic

This project models the pure logic of a small Python 2 client for the OOI
UFrame data service. It leaves out the HTTP calls. The model covers five
pieces:

- **The catalog client** (`UFrame`). It holds a base URL, a port and the
  service URL derived from them. `fetch_toc` turns the decoded
  table-of-contents records into a map keyed by reference designator. It
  also builds four sorted index lists: instruments, arrays, parameters and
  streams. The client answers substring searches over that catalog.
  `instrument_to_query` builds one asynchronous data-request URL per valid
  instrument and matching stream, over a time window. The window comes
  from a relative delta, from explicit bounds, or from the stream's own
  bounds.
- **The reference-designator validator.** It is an unanchored regular
  expression search for `\w{8,}-\w{5,}-\w{2,}-\w{9,}`, with ASCII `\w`.
- **The request-URL parser** (`send_async_request` with `debug=True`). It
  captures the path between `/sensor/inv/` and the last `?`, and splits it
  into five tokens. It derives the designator, the stream key and the
  instrument fields from them. The parser is proved to invert the URL
  builder.
- **The endpoint printer** (`print_async_endpoints.py`). It runs a cascade
  of shape checks on each decoded response. It keeps the URLs that do not
  mention `thredds`, and in short mode rewrites each one under a root
  directory.
- **The request-list sender** (`send_async_requests.py`). It strips lines
  and skips comments. It extracts `scheme://host` with a regular expression
  that needs a dotted host, and reuses one client while the base URL stays
  the same.
- **Deployment grouping** (`group_instrument_deployment_events_by_subsite`).
  It keeps events with a fully qualified designator and groups them by
  subsite in first-appearance order. Each event becomes a child record.

Modules:

| module | role |
|---|---|
| `Text` | Python string built-ins: `find`, `split`, `join`, `strip`, `startswith`, and `'{:d}'` formatting |
| `Order` | string order, `list.sort()`, and the "append unless present" loop |
| `Json` | decoded JSON values |
| `Designator` | `validate_reference_designator` |
| `Catalog` | the client state, the setters, `fetch_toc` and the searches |
| `Query` | `instrument_to_query` |
| `AsyncRequest` | the response record and the URL parser |
| `RoundTrip` | parsing a URL built by `instrument_to_query` |
| `AsyncEndpoints` | `print_async_endpoints.main` |
| `RequestList` | `send_async_requests.main`, up to the request |
| `Events` | grouping deployments by subsite |

Several things outside the model become parameters:

- **Timestamps** are integers. `dateutil.parser.parse`, `relativedelta`
  subtraction and `strftime` are fields of a `Clock` value.
- **Events formatting:** the events module receives its formatter of whole
  seconds as a function.
- **Outcomes of I/O and network calls:** the `base_url` probe, the `/toc`
  request, the list file, `os.path.isdir` and `os.path.realpath` are all
  passed in.

The model follows the code as written. The quirks below are modelled and
stated as properties rather than fixed:

- the end bound is parsed from `begin_ts`;
- the URL timestamps are formatted before the `time_check` clamp;
- the start clamp never assigns;
- the first stream name is appended twice to the stream index.

## Model

| member | source | states |
|---|---|---|
| Designator.ValidateReferenceDesignator | UFrame/__init__.py:189-197 | The validator returns true exactly when some window of the string matches `\w{8,}-\w{5,}-\w{2,}-\w{9,}`. The regular expression is stated declaratively as hyphen positions with word-character runs between them. |
| Designator.ValidHasFourTokens | UFrame/__init__.py:192-197 | A designator that passes validation splits on `-` into at least four tokens, so the indexing of `r_tokens[0..3]` at line 398 cannot fail. |
| Designator.FourTokenValidation | UFrame/__init__.py:189-197 | `a-b-c-d` passes validation when the four tokens are word characters of lengths at least 8, 5, 2 and 9. |
| Designator.UnanchoredSearch | UFrame/__init__.py:192 | The search is unanchored: any text before or after a valid designator keeps it valid. |
| Designator.Designator4Tokens | UFrame/__init__.py:398 | Splitting `a-b-c-d` on `-` gives back exactly the four hyphen-free tokens. |
| Order.DedupFirstAppearance | UFrame/__init__.py:159-169 | Removing repeats keeps first-appearance order: of two kept values, the earlier one first occurs earlier in the input. |
| Catalog.NewClient | UFrame/__init__.py:36-54 | A new client has an empty catalog. The `UFRAME_BASE_URL` fallback applies only when the argument is empty. The base and service URLs are set only if that URL is non-empty and the optional probe succeeds. |
| Catalog.SetBaseUrl | UFrame/__init__.py:60-84 | An empty URL, or a failed probe with validation on, leaves the client unchanged. Otherwise only the base URL and `base:port/sensor/inv` change. The catalog invariant is kept. |
| Catalog.SetPort | UFrame/__init__.py:89-92 | The port setter stores the port and rebuilds the service URL from the stored base. Nothing else changes. |
| Catalog.TocMap | UFrame/__init__.py:151 | The TOC map's keys are exactly the designators of the records. Each entry carries its own key, and the last record with a designator wins. |
| Catalog.FetchToc | UFrame/__init__.py:125-187 | The port and URL are overwritten with the default port and `/toc` even when the fetch fails. A failure leaves the catalog and every index unchanged. A decoded response gives the map of the records and a strictly sorted instrument list holding exactly its keys. |
| Catalog.FetchTocArrays | UFrame/__init__.py:185-187 | After a decoded fetch, `arrays` is strictly sorted and holds exactly the first `-` tokens of the designators. |
| Catalog.FetchTocParameters | UFrame/__init__.py:159-179 | After a decoded fetch, `parameters` is strictly sorted and holds exactly the `particleKey`s of every record. |
| Catalog.FetchTocStreams | UFrame/__init__.py:171-180 | After a decoded fetch, `streams` is sorted and holds every stream name. The first-seen name occurs twice and every other name once. |
| Catalog.FetchTocPreservesValid | UFrame/__init__.py:125-187 | A fetch, failed or decoded, keeps the client invariant: `instruments` and `arrays` are exactly the catalog's designators and their first tokens, strictly sorted; `parameters` stays strictly sorted and `streams` sorted. What those two lists hold after a decoded fetch is stated by Catalog.FetchTocParameters and Catalog.FetchTocStreams. |
| Catalog.CollectParametersIsDedup | UFrame/__init__.py:159-169 | The parameter loop keeps the first occurrence of each key, in response order. |
| Catalog.CollectStreamNamesRepeatsFirst | UFrame/__init__.py:171-177 | The stream loop as written yields the first name, then every distinct name once, in response order. |
| Catalog.InstrumentIndex | UFrame/__init__.py:154-156 | The instrument list is strictly sorted and holds exactly the designators present in the records. |
| Catalog.ArrayIndex | UFrame/__init__.py:185-187 | The array list is strictly sorted and holds exactly the first `-` tokens of the designators. |
| Catalog.ParameterIndex | UFrame/__init__.py:159-179 | The parameter list is strictly sorted and holds exactly the parameter keys of the records. |
| Catalog.StreamIndex | UFrame/__init__.py:171-180 | The stream list is sorted, holds exactly the stream names, and has multiplicity 2 for the first name and 1 for the others. |
| Catalog.SearchInstruments | UFrame/__init__.py:199-216 | An empty catalog gives `[]`. Otherwise the result is exactly the instruments containing the target. On a valid client it is also strictly sorted. |
| Catalog.SearchEmptyTargetListsAll | UFrame/__init__.py:208-216 | The empty target matches every instrument. |
| Catalog.SearchInstrumentRecords | UFrame/__init__.py:213-214 | With `metadata=True`, the result holds the catalog records of the matching designators, in the same order. |
| Catalog.SearchArrays | UFrame/__init__.py:250-263 | An empty catalog gives `[]`. Otherwise the result is exactly the arrays containing the target, strictly sorted. |
| Catalog.SearchArraysKeepsCatalogOrder | UFrame/__init__.py:250-263 | The re-sort changes nothing: the result is the filtered array list in catalog order. |
| Catalog.StreamToInstrument | UFrame/__init__.py:265-288 | The result is strictly sorted and duplicate-free. It holds exactly the `sensor` fields of the catalog streams whose name contains the target. |
| Catalog.StreamToInstrumentOrderIndependent | UFrame/__init__.py:279-288 | The result does not depend on the dictionary iteration order of the catalog. |
| Catalog.InstrumentToStreams | UFrame/__init__.py:290-311 | The result holds exactly the streams of the instruments that the search finds. Its length is the sum of those instruments' stream counts, so no stream is lost or repeated. |
| Catalog.ConcatStreamsAppend | UFrame/__init__.py:305-309 | Concatenating the streams of `a + b` gives the streams of `a` followed by those of `b`. |
| Catalog.InstrumentToStreamsBlock | UFrame/__init__.py:300-311 | The streams of the `i`-th found instrument appear as one contiguous block, in their catalog order, right after the streams of the instruments found before it. |
| Catalog.GetInstrumentMetadata | UFrame/__init__.py:313-331 | The result is the catalog restricted to the designators containing the target. An empty catalog gives an empty map. |
| Query.ParseBounds | UFrame/__init__.py:366-382 | The explicit bounds parse exactly when no parse is needed or `begin_ts` parses. The begin bound is the parse of `begin_ts`. A given `end_ts` also takes the parse of `begin_ts`. |
| Query.TimeCheck | UFrame/__init__.py:434-445 | The start is left as it was. An end past the stream end is pulled back to it, and an end within it is kept. |
| Query.TargetsOfOrdered | UFrame/__init__.py:384-410 | Over a sorted instrument list, the visited targets come grouped by designator in sorted order. |
| Query.StreamTargets | UFrame/__init__.py:400-405 | One target per stream entry that passes the telemetry test, in the order of the instrument's stream list, repeats included. |
| Query.InstrumentTargets | UFrame/__init__.py:384-405 | An instrument whose designator fails validation contributes nothing. Otherwise it contributes one target per stream entry that passes the telemetry test, in stream-list order. |
| Query.TargetsOfAppend | UFrame/__init__.py:384-405 | The targets of two runs of instruments are those of the first run followed by those of the second. |
| Query.TargetsOfBlock | UFrame/__init__.py:384-405 | Instrument `i` contributes its own targets as one block, between the targets of the instruments before it and those after it. |
| Query.QueryTargets | UFrame/__init__.py:353-410 | The visited targets are exactly the streams of the found instruments where the designator passes validation and the method contains the telemetry filter. Their designators come in sorted order. |
| Query.QueryTargetsBlock | UFrame/__init__.py:352-410 | The query's targets are, found instrument by found instrument, each instrument's own block. A block holds one target per passing stream entry, in stream-list order, so instrument order comes first and stream order second. |
| Query.InstrumentToQuery | UFrame/__init__.py:333-471 | No match, a bad delta unit, or an unparseable bound each give `[]`. The port is set to the default once something matches. Otherwise the result is one URL per target, in visiting order. |
| Query.SameWindowsSameUrls | UFrame/__init__.py:414-461 | Two option sets that agree on the request and yield the same window give the same URLs. |
| Query.DeltaOverridesExplicitBounds | UFrame/__init__.py:414-420 | With a relative delta requested, the explicit bounds matter only through whether they parse. |
| Query.EndTextIgnored | UFrame/__init__.py:376-382 | The text of a given `end_ts` never influences the URLs, because the end is parsed from `begin_ts`. |
| Query.PassOf | UFrame/__init__.py:414-445 | The formatted window is the request window. The checked window keeps its start. Its end is pulled back to the stream end exactly when `time_check` is on and the end is past it. |
| Query.ClampedEndNotFormatted | UFrame/__init__.py:429-445 | When the clamp fires, the checked end is the stream end, yet the URL still carries the unclamped end. |
| Query.TimeCheckIgnored | UFrame/__init__.py:429-445 | `time_check` never changes the URLs, because they are formatted before the clamp. |
| Query.ExplicitWindowCollapses | UFrame/__init__.py:376-430 | Without a delta, explicit `begin_ts` and `end_ts` give every URL `beginDT == endDT`. |
| AsyncRequest.InitialResponse | requests/send_async_requests.py:100-108 | The initial record: the stripped URL, `status` false, `status_code` -1, and no response, reason, stream, designator or instrument. |
| AsyncRequest.CapturedPath | requests/send_async_requests.py:111-112 | The expression matches exactly when some `https?://…/sensor/inv/…?` layout exists on the first line. The capture is the one of the greatest match: the last `/sensor/inv/` before the last `?`. |
| AsyncRequest.CaptureOfLayout | requests/send_async_requests.py:111-112 | For a URL laid out as `pre/sensor/inv/path?query`, where `path` and `query` have no `?` and `query` has no line break, the capture is `path`. |
| AsyncRequest.ParseRequest | requests/send_async_requests.py:97-135 | `reason` is `Badly Formatted Request` exactly when there is no match or the capture does not split into five tokens. Otherwise the designator, stream and instrument fields are the joins and tokens. `status` stays false and `status_code` stays -1. |
| AsyncRequest.SchemeRequired | requests/send_async_requests.py:111-117 | A URL without an `http://` or `https://` prefix is always rejected. |
| RoundTrip.QueryUrlParses | UFrame/__init__.py:448-461 | A URL built from an `http(s)` base, four designator tokens, a method and a stream name parses back without a reason. The designator is the join of the tokens, and the instrument fields are the tokens, method and stream. |
| RoundTrip.TargetUrlParses | UFrame/__init__.py:448-469 | Each URL `instrument_to_query` emits for a four-token designator parses back to that designator, with the target's method as telemetry and its stream name as stream. |
| AsyncEndpoints.AsyncUrls | requests/print_async_endpoints.py:62 | The kept URLs are exactly the entries that do not contain `thredds`. |
| AsyncEndpoints.AsyncUrlsAppend | requests/print_async_endpoints.py:62 | The filter works entry by entry and keeps the order. |
| AsyncEndpoints.StringEntriesAllKept | requests/print_async_endpoints.py:62 | A string `allURLs` is walked character by character, and every character survives the filter. |
| AsyncEndpoints.Classify | requests/print_async_endpoints.py:38-65 | The checks run in order, and the first failure decides the skip reason: unreadable, not an object, no `status`, no `response` object, no `allURLs`, no async URL. A file is announced exactly when all checks pass, with its filtered URLs. |
| AsyncEndpoints.StatusValueIgnored | requests/print_async_endpoints.py:50-53 | Only the presence of `status` is checked, never its value. |
| AsyncEndpoints.PathJoin | requests/print_async_endpoints.py:72 | An absolute second argument replaces the first. Otherwise the two are joined with at most one added `/`. |
| AsyncEndpoints.LastTwoTokensSuffix | requests/print_async_endpoints.py:71-72 | The last two `/` tokens form a suffix of the URL that contains at most one `/`. |
| AsyncEndpoints.ShortEndpointUnderRoot | requests/print_async_endpoints.py:71-72 | A short endpoint with a relative tail lies under the root. |
| AsyncEndpoints.CollectLines | requests/print_async_endpoints.py:37-73 | Without short mode, no printed line contains `thredds`. |
| AsyncEndpoints.CollectLinesAppend | requests/print_async_endpoints.py:37-73 | The files contribute their lines one after another, in argument order. |
| AsyncEndpoints.ShortModeRewritesEachLine | requests/print_async_endpoints.py:67-73 | Short mode yields as many lines as plain mode, and each one is the rewrite of the corresponding plain line. |
| AsyncEndpoints.PrintEndpoints | requests/print_async_endpoints.py:11-78 | Exit code 1 with no output happens exactly when no file is named or the prefix is not a directory. Otherwise the exit code is 0 and the output is the collected lines, whatever files were skipped. |
| RequestList.Scheme | send_async_requests.py:41 | The scheme group matches exactly when the line starts with `http://`, `ftp://` or `https://`. |
| RequestList.HostAtLongest | send_async_requests.py:41 | The greedy host match is the longest: no host match starting at the same place runs past it. |
| RequestList.BaseUrl | send_async_requests.py:41-59 | The extracted base URL is a prefix of the line. It is the scheme, `://` and a dotted host. |
| RequestList.BaseUrlNoneExactly | send_async_requests.py:41-56 | The expression fails exactly when there is no scheme or no dotted host after it. |
| RequestList.BaseUrlStopsAtHost | send_async_requests.py:41-59 | The base URL ends where the host ends, so port and path are dropped. |
| RequestList.ReadLine | send_async_requests.py:47-59 | The line is stripped. It is a comment exactly when the stripped text starts with `#`. It is unparsed exactly when it is not a comment and has no base URL. Otherwise it is a request with that base URL. |
| RequestList.StepOf | send_async_requests.py:49-65 | Only request lines are sent. A new client is created exactly when the current client's base URL differs, or there is none. |
| RequestList.RunLinesSteps | send_async_requests.py:43-65 | Each line is handled with the client the earlier lines left behind. |
| RequestList.SameBaseOneClient | send_async_requests.py:63-65 | When every request names the same base URL, starting without a client, exactly one client is created. |
| RequestList.RequestUrls | send_async_requests.py:15-26 | The positional URLs are used when given. Otherwise the list file is read when named, and a missing or unreadable file is an error. |
| RequestList.SendRequests | send_async_requests.py:11-65 | Exit code 1 with nothing sent happens exactly when the list cannot be read, is empty, or the destination is not a directory. Otherwise the steps are the loop over the read lines from no client. |
| RequestList.PositionalFirst | send_async_requests.py:15-16 | With positional URLs the list file is never looked at. |
| Events.Timestamp | UFrame/Events/__init__.py:44-52 | A date field renders to null exactly when it is null or 0. Otherwise it renders to the formatter applied to the floored seconds. |
| Events.ToChild | UFrame/Events/__init__.py:12-52 | A child copies the dates and deployment number and sets `refdes` to `subsite-node-sensor`. Its `instrument` is the vocabulary's entry or `No Description`. Its class is the first five characters of the second `-` token of the sensor, so it has at most five characters and no `-`. |
| Events.ChildOfTwoPartSensor | UFrame/Events/__init__.py:31-42 | For a sensor `p-q` the class is the first five characters of `q`. The designator splits back into its four tokens. |
| Events.GroupedIsReference | UFrame/Events/__init__.py:19-56 | The loop equals the reference grouping. There is one group per distinct subsite in first-appearance order, with `array` the first two characters. Each group holds that subsite's children in input order. |
| Events.EveryEventPlaced | UFrame/Events/__init__.py:19-56 | Every kept event becomes exactly one child. |
| Events.GroupBySubsiteShape | UFrame/Events/__init__.py:6-56 | The group names are distinct and are exactly the subsites of fully qualified events. The child count equals the number of those events. |

## Left out

- **HTTP calls.** The `requests.get` calls are left out: the `base_url` probe, the `/toc` fetch and the network tail of `send_async_request` after the `debug` return. The probe's verdict and the decoded `/toc` records are inputs. A network error, a non-200 status and a non-JSON body are one `FetchFailed` outcome, because all three leave the catalog unchanged.
- **Calendar arithmetic.** `dateutil.parser.parse`, `relativedelta` subtraction, `strftime` and `time.gmtime` are library code. They are abstract functions over integer timestamps, and calendar arithmetic is not modelled.
- **File and console I/O.** Reading and writing files and standard streams is not modelled: the JSON loading, the `utcnow`-based file names, and the writes of responses and failure logs. Standard output is a returned list of lines.
- **Command-line wrappers.** The scripts that wrap the client (`build_instrument_requests.py`, `search_*.py`, `group_instrument_deployments_by_subsite.py`) are argument parsing and printing only.
- **Undefined methods.** `fetch_events`, `search_events_by_type`, `search_instrument_deployments`, `search_deployment_events_by_instrument` and `send_async_requests` are called but not defined in the client class, so they are not part of this model. The request-list loop treats `uframe.send_async_requests(url)` as a foreign call that returns normally and whose response handling lets the loop reach the next line. As the client class stands, the first request line would raise `AttributeError` there, so RequestList.RunLinesSteps and RequestList.SameBaseOneClient describe the loop under that assumption.
- **Methods that always fail.** `search_parameters` indexes strings as dictionaries, and `search_streams` names an undefined variable. Both fail on every call.
- **Unused argument.** The `annotations` argument of `instrument_to_query` is never used.
- **The timeout property.** It is a plain field store, kept as a field of the client.
- Catalog.FetchToc, Catalog.SetBaseUrl and Catalog.NewClient do not model the crash of a non-200 response. Both `fetch_toc` and the validating `base_url` setter format `r.message` in that branch, and a `requests` response has no such attribute, so they raise `AttributeError` instead of returning. The model gives this branch the effect of the early return, `FetchFailed` or a failed probe. That matches the state the object is left in, but not the raised exception. When the constructor validates, the exception also escapes it, and no client is created.
- **Python exceptions as preconditions.** The uncaught exceptions below are excluded by a precondition rather than modelled as a crash. The non-200 `AttributeError` above is the one exception handled differently:
  - Query.InstrumentToQuery requires `WellFormed` (no `parser.parse(None)` when `end_ts` is given without `begin_ts`) and `StreamTimesParse` (the catalog's stream times parse).
  - Catalog.SetPort and Catalog.FetchToc require a stored base URL; without one the source raises `AttributeError`.
  - AsyncEndpoints.Classify and AsyncEndpoints.PrintEndpoints require `WellTyped` files: `allURLs` is a list of strings or a string. A string is modelled, with each character kept as a one-character URL. An object `allURLs` is also iterated without error, over its keys, but Python 2 gives no order for dictionary keys, so it is excluded. Numbers, null and booleans raise `TypeError`, and a list holding a non-string raises `AttributeError` on `find`. A `ValueError` from a non-JSON file, which the source does not catch, is not modelled.
  - Events.ToChild requires `Convertible`: the sensor contains `-`, and a truthy vocabulary has an `instrument` entry. Without these the source raises `IndexError` or `KeyError`.
- **Field types.** Decoded JSON numbers are integers, and floats are not modelled. In the events module the vocabulary is a map from strings to strings.
- RequestList.StepOf: the client is represented by its base URL. The constructor's effect on the catalog is stated separately by Catalog.NewClient.
- RoundTrip.TargetUrlParses and RoundTrip.QueryUrlParses require extra conditions on the URL's pieces:
  - the application type and the formatted timestamps contain no `?` and no line break;
  - the base contains no line break;
  - the designator tokens, the method and the stream name contain no `/` and no line break;
  - `user` and `email` contain no `?` and no line break.
  The source's URL does not constrain these strings, and without these conditions the greedy capture may stop elsewhere.

=== FILE: AsyncEndpoints.dfy ===
/**
 `print_async_endpoints.py`: reads saved responses to asynchronous data
 requests and lists the result locations they announce.

 Each decoded response is checked in a fixed order (an object, with a
 `status` key, with a `response` object, holding `allURLs`); the first check
 that fails skips the file. The surviving URLs are those without `thredds`,
 written verbatim or, in short mode, as the last two path tokens under a root
 directory. Reading files, `os.path.isdir` and `os.path.realpath` are the
 caller's: they arrive as decoded values and as functions.
 */
module AsyncEndpoints {
  import opened Text
  import opened Order
  import opened Json

  /** What opening and decoding one file produced; an `IOError` is
      reported and the file skipped. */
  datatype Loaded = Unreadable | Decoded(value: Json)

  /** Why a file contributes nothing, in the order the checks run. */
  datatype Skip =
    | ReadFailed
    | NotAnObject
    | MissingStatus
    | MissingResponseObject
    | MissingAllUrls
    | NoAsyncUrls

  datatype FileOutcome = Skipped(why: Skip) | Announced(urls: seq<string>)

  /** The file reaches the `allURLs` entry: every check of the cascade passes. */
  predicate ReachesUrls(l: Loaded) {
    && l.Decoded? && l.value.JObject?
    && "status" in l.value.fields
    && "response" in l.value.fields && l.value.fields["response"].JObject?
    && "allURLs" in l.value.fields["response"].fields
  }

  /** The `allURLs` entry of a file that reaches it. */
  function AllUrls(l: Loaded): Json
    requires ReachesUrls(l)
  {
    l.value.fields["response"].fields["allURLs"]
  }

  /** An `allURLs` value the comprehension can walk: a list whose entries
      are strings (`find` is called on each), or a string, whose characters
      it walks one by one. */
  predicate UrlList(j: Json) {
    || (j.JArray? && forall k :: 0 <= k < |j.items| ==> j.items[k].JString?)
    || j.JString?
  }

  /** The entries the comprehension walks: the strings of a list, or each
      character of a string as a one-character string. */
  function UrlStrings(j: Json): (r: seq<string>)
    requires UrlList(j)
    ensures j.JArray? ==> |r| == |j.items| && forall k :: 0 <= k < |r| ==> j.items[k] == JString(r[k])
    ensures j.JString? ==> |r| == |j.s| && forall k :: 0 <= k < |r| ==> r[k] == [j.s[k]]
  {
    if j.JString? then seq(|j.s|, k requires 0 <= k < |j.s| => [j.s[k]])
    else seq(|j.items|, k requires 0 <= k < |j.items| => j.items[k].s)
  }

  /** `url.find('thredds') == -1`. */
  predicate NotThredds(url: string) {
    Find(url, "thredds") == -1
  }

  /** `[url for url in urls if url.find('thredds') == -1]`. */
  function AsyncUrls(urls: seq<string>): (r: seq<string>)
    ensures forall u :: u in r <==> u in urls && !Contains(u, "thredds")
    ensures |r| <= |urls|
  {
    FilterSubset(urls, NotThredds);
    Filter(urls, NotThredds)
  }

  /** A string too short to hold `thredds` never contains it. */
  lemma ShortNeverThredds(u: string)
    requires |u| < 7
    ensures !Contains(u, "thredds")
  {
  }

  /** An `allURLs` string is walked character by character, and no single
      character contains `thredds`: every character is announced. */
  lemma {:induction false} StringEntriesAllKept(text: string)
    ensures AsyncUrls(UrlStrings(JString(text))) == UrlStrings(JString(text))
  {
    var urls := UrlStrings(JString(text));
    forall k | 0 <= k < |urls| ensures NotThredds(urls[k]) {
      ShortNeverThredds(urls[k]);
    }
    FilterKeepsAll(urls, NotThredds);
  }

  /** The comprehension works entry by entry: it keeps the order of the
      list, and the URLs of two consecutive lists are the URLs of each. */
  lemma {:induction false} AsyncUrlsAppend(a: seq<string>, b: seq<string>)
    ensures AsyncUrls(a + b) == AsyncUrls(a) + AsyncUrls(b)
    decreases |a|
  {
    if |a| > 0 {
      assert (a + b)[1..] == a[1..] + b;
      AsyncUrlsAppend(a[1..], b);
    } else {
      assert a + b == b;
    }
  }

  /** One file's outcome. A file that reaches `allURLs` must hold a list of
      strings or a string there; see `UrlList`. */
  function Classify(l: Loaded): (r: FileOutcome)
    requires ReachesUrls(l) ==> UrlList(AllUrls(l))
    ensures r == Skipped(ReadFailed) <==> l.Unreadable?
    ensures r == Skipped(NotAnObject) <==> l.Decoded? && !l.value.JObject?
    ensures r == Skipped(MissingStatus) <==> l.Decoded? && l.value.JObject? && "status" !in l.value.fields
    ensures r == Skipped(MissingResponseObject) <==>
      && l.Decoded? && l.value.JObject? && "status" in l.value.fields
      && !("response" in l.value.fields && l.value.fields["response"].JObject?)
    ensures r == Skipped(MissingAllUrls) <==>
      && l.Decoded? && l.value.JObject? && "status" in l.value.fields
      && "response" in l.value.fields && l.value.fields["response"].JObject?
      && "allURLs" !in l.value.fields["response"].fields
    ensures r == Skipped(NoAsyncUrls) <==> ReachesUrls(l) && AsyncUrls(UrlStrings(AllUrls(l))) == []
    ensures r.Announced? <==> ReachesUrls(l) && AsyncUrls(UrlStrings(AllUrls(l))) != []
    ensures r.Announced? ==> r.urls == AsyncUrls(UrlStrings(AllUrls(l)))
  {
    match l
    case Unreadable => Skipped(ReadFailed)
    case Decoded(v) =>
      if !v.JObject? then Skipped(NotAnObject)
      else if "status" !in v.fields then Skipped(MissingStatus)
      else if "response" !in v.fields || !v.fields["response"].JObject? then Skipped(MissingResponseObject)
      else if "allURLs" !in v.fields["response"].fields then Skipped(MissingAllUrls)
      else
        var urls := AsyncUrls(UrlStrings(AllUrls(l)));
        if urls == [] then Skipped(NoAsyncUrls) else Announced(urls)
  }

  /** Only the presence of `status` is checked, never its value. */
  lemma StatusValueIgnored(fields: map<string, Json>, v: Json)
    requires "status" in fields
    requires ReachesUrls(Decoded(JObject(fields))) ==> UrlList(AllUrls(Decoded(JObject(fields))))
    ensures Classify(Decoded(JObject(fields[ "status" := v ]))) == Classify(Decoded(JObject(fields)))
  {
    var l, l' := Decoded(JObject(fields)), Decoded(JObject(fields["status" := v]));
    if "response" in fields {
      assert l'.value.fields["response"] == fields["response"] by {
        assert "response" != "status";
      }
    }
    if ReachesUrls(l) {
      assert AllUrls(l') == AllUrls(l);
    }
  }

  // ---------------------------------------------------------------------------
  // Short mode: `os.path.join(root, '/'.join(url.split('/')[-2:]))`
  // ---------------------------------------------------------------------------

  /** `'/'.join(url.split('/')[-2:])`: the last two `/` tokens, or the whole
      URL when it has no `/`. */
  function LastTwoTokens(url: string): string {
    var ts := Split(url, '/');
    if |ts| < 2 then Join(ts, "/") else Join(ts[|ts| - 2..], "/")
  }

  /** Python 2 `posixpath.join(a, b)`: an absolute `b` replaces `a`;
      otherwise a `/` is put between them unless `a` is empty or already
      ends with one. */
  function PathJoin(a: string, b: string): (r: string)
    ensures StartsWith(b, "/") ==> r == b
    ensures !StartsWith(b, "/") ==> exists d :: (d == "" || d == "/") && r == a + d + b
  {
    if StartsWith(b, "/") then b
    else if a == "" || a[|a| - 1] == '/' then
      assert a + "" + b == a + b;
      a + b
    else a + "/" + b
  }

  /** The short form of one URL under `root`. */
  function ShortEndpoint(root: string, url: string): string {
    PathJoin(root, LastTwoTokens(url))
  }

  /** `Join` over two non-empty runs of tokens puts one separator between
      their joins. */
  lemma {:induction false} JoinAppend(a: seq<string>, b: seq<string>, sep: string)
    requires |a| >= 1 && |b| >= 1
    ensures Join(a + b, sep) == Join(a, sep) + sep + Join(b, sep)
    decreases |a|
  {
    if |a| == 1 {
      assert (a + b)[1..] == b;
    } else {
      assert (a + b)[1..] == a[1..] + b;
      JoinAppend(a[1..], b, sep);
    }
  }

  /** Number of `/` in a join of `/`-free tokens. */
  lemma {:induction false} JoinSlashCount(ts: seq<string>)
    requires |ts| >= 1 && forall k :: 0 <= k < |ts| ==> '/' !in ts[k]
    ensures CountChar(Join(ts, "/"), '/') == |ts| - 1
    decreases |ts|
  {
    if |ts| > 1 {
      JoinSlashCount(ts[1..]);
      CountCharAppend(ts[0] + "/", Join(ts[1..], "/"), '/');
      CountCharAppend(ts[0], "/", '/');
      CountCharZero(ts[0], '/');
    } else {
      CountCharZero(ts[0], '/');
    }
  }

  lemma {:induction false} CountCharAppend(a: string, b: string, c: char)
    ensures CountChar(a + b, c) == CountChar(a, c) + CountChar(b, c)
    decreases |a|
  {
    if |a| > 0 {
      assert (a + b)[1..] == a[1..] + b;
      CountCharAppend(a[1..], b, c);
    } else {
      assert a + b == b;
    }
  }

  /** The last two tokens are the suffix of the URL after its second-to-last
      `/`: a suffix holding one `/` (none when the URL has none), preceded by
      a `/` unless it is the whole URL. */
  lemma LastTwoTokensSuffix(url: string)
    ensures var r := LastTwoTokens(url);
      && |r| <= |url| && url[|url| - |r|..] == r
      && CountChar(r, '/') == (if CountChar(url, '/') == 0 then 0 else 1)
      && (|r| == |url| || url[|url| - |r| - 1] == '/')
  {
    var ts := Split(url, '/');
    var r := LastTwoTokens(url);
    JoinSplit(url, '/');
    SplitCount(url, '/');
    assert Join(ts, "/") == url;
    if |ts| < 2 {
      JoinSlashCount(ts);
    } else {
      var tail := ts[|ts| - 2..];
      assert forall k :: 0 <= k < |tail| ==> '/' !in tail[k];
      JoinSlashCount(tail);
      if |ts| > 2 {
        var head := ts[..|ts| - 2];
        assert ts == head + tail;
        JoinAppend(head, tail, "/");
        assert url == Join(head, "/") + "/" + r;
        assert url[|url| - |r|..] == r;
        assert url[|url| - |r| - 1] == '/';
      } else {
        assert tail == ts;
      }
    }
  }

  /** A root-relative short form lands under the root. */
  lemma ShortEndpointUnderRoot(root: string, url: string)
    requires !StartsWith(LastTwoTokens(url), "/")
    ensures StartsWith(ShortEndpoint(root, url), root)
  {
    var b := LastTwoTokens(url);
    var d :| (d == "" || d == "/") && ShortEndpoint(root, url) == root + d + b;
    assert (root + d + b)[..|root|] == root;
  }

  // ---------------------------------------------------------------------------
  // `main`
  // ---------------------------------------------------------------------------

  /** The command line: the decoded files in argument order, `-s` and `-p`. */
  datatype Arguments = Arguments(files: seq<Loaded>, short: bool, prefix: string)

  /** The exit code and the lines written to standard output. */
  datatype Run = Run(exitCode: int, lines: seq<string>)

  /** Every file that reaches `allURLs` holds a list of strings or a string there. */
  predicate WellTyped(files: seq<Loaded>) {
    forall k :: 0 <= k < |files| && ReachesUrls(files[k]) ==> UrlList(AllUrls(files[k]))
  }

  /** The lines one file adds. */
  function FileLines(l: Loaded, short: bool, root: string): (r: seq<string>)
    requires ReachesUrls(l) ==> UrlList(AllUrls(l))
    ensures Classify(l).Skipped? ==> r == []
    ensures Classify(l).Announced? ==> |r| == |Classify(l).urls|
    ensures Classify(l).Announced? ==> forall k :: 0 <= k < |r| ==>
      r[k] == (if short then ShortEndpoint(root, Classify(l).urls[k]) else Classify(l).urls[k])
  {
    match Classify(l)
    case Skipped(_) => []
    case Announced(urls) =>
      if short then seq(|urls|, k requires 0 <= k < |urls| => ShortEndpoint(root, urls[k]))
      else urls
  }

  /** The loop over the files: each file's lines, in argument order. */
  function CollectLines(files: seq<Loaded>, short: bool, root: string): (r: seq<string>)
    requires WellTyped(files)
    ensures !short ==> forall u :: u in r ==> !Contains(u, "thredds")
    decreases |files|
  {
    if |files| == 0 then []
    else
      assert ReachesUrls(files[0]) ==> UrlList(AllUrls(files[0]));
      var first := FileLines(files[0], short, root);
      assert !short ==> forall u :: u in first ==> !Contains(u, "thredds");
      first + CollectLines(files[1..], short, root)
  }

  /** `main(args)`: exit code 1 with no output when no file is named or the
      prefix is not a directory; otherwise 0, whatever the files hold.
      `isDir` and `realPath` stand for `os.path.isdir` and
      `os.path.realpath`. */
  function PrintEndpoints(args: Arguments, isDir: string -> bool, realPath: string -> string): (r: Run)
    requires WellTyped(args.files)
    ensures r.exitCode == 1 <==> |args.files| == 0 || (args.prefix != "" && !isDir(args.prefix))
    ensures r.exitCode != 1 ==> r.exitCode == 0
    ensures r.exitCode == 1 ==> r.lines == []
    ensures r.exitCode == 0 ==>
      r.lines == CollectLines(args.files, args.short, realPath(if args.prefix != "" then args.prefix else ""))
  {
    if |args.files| == 0 then Run(1, [])
    else if args.prefix != "" && !isDir(args.prefix) then Run(1, [])
    else
      var root := realPath(if args.prefix != "" then args.prefix else "");
      Run(0, CollectLines(args.files, args.short, root))
  }

  /** The files are processed one after another: the lines for two runs of
      files are the lines of each. */
  lemma {:induction false} CollectLinesAppend(a: seq<Loaded>, b: seq<Loaded>, short: bool, root: string)
    requires WellTyped(a) && WellTyped(b)
    ensures WellTyped(a + b)
    ensures CollectLines(a + b, short, root) == CollectLines(a, short, root) + CollectLines(b, short, root)
    decreases |a|
  {
    assert forall k :: 0 <= k < |a + b| ==> (a + b)[k] == if k < |a| then a[k] else b[k - |a|];
    if |a| > 0 {
      assert (a + b)[1..] == a[1..] + b;
      assert WellTyped(a[1..]) by {
        forall k | 0 <= k < |a[1..]| ensures a[1..][k] == a[k + 1] { }
      }
      CollectLinesAppend(a[1..], b, short, root);
    } else {
      assert a + b == b;
    }
  }

  /** Short mode rewrites the verbatim lines one by one. */
  lemma {:induction false} ShortModeRewritesEachLine(files: seq<Loaded>, root: string)
    requires WellTyped(files)
    ensures var plain, short := CollectLines(files, false, root), CollectLines(files, true, root);
      && |short| == |plain|
      && forall k :: 0 <= k < |plain| ==> short[k] == ShortEndpoint(root, plain[k])
    decreases |files|
  {
    if |files| > 0 {
      assert WellTyped(files[1..]) by {
        forall k | 0 <= k < |files[1..]| ensures files[1..][k] == files[k + 1] { }
      }
      ShortModeRewritesEachLine(files[1..], root);
      assert ReachesUrls(files[0]) ==> UrlList(AllUrls(files[0]));
      var p0, s0 := FileLines(files[0], false, root), FileLines(files[0], true, root);
      var p1, s1 := CollectLines(files[1..], false, root), CollectLines(files[1..], true, root);
      assert CollectLines(files, false, root) == p0 + p1;
      assert CollectLines(files, true, root) == s0 + s1;
    }
  }
}

=== FILE: AsyncRequest.dfy ===
/**
 `send_async_request` up to its `debug` return: the response record it starts
 from, the regular expression that cuts the stream path out of a request URL,
 and the fields derived from the path's five tokens.
 */
module AsyncRequest {
  import opened Text
  import opened Json

  const BadRequest: string := "Badly Formatted Request"

  /** The literal the path capture starts after. */
  const SensorInv: string := "/sensor/inv/"

  /** The `instrument` entry: the five path tokens by name. */
  datatype InstrumentFields = InstrumentFields(subsite: string, node: string, sensor: string, telemetry: string, stream: string)

  /** The response dictionary. `stream` is `None` while it still holds the
      initial `{}`; `instrument` is `None` while the key is absent. */
  datatype AsyncResponse = AsyncResponse(
    requestUrl: string,
    status: bool,
    statusCode: int,
    response: Option<Json>,
    reason: Option<string>,
    stream: Option<string>,
    referenceDesignator: Option<string>,
    instrument: Option<InstrumentFields>)

  /** The record before any parsing: not sent, no status, nothing derived. */
  function InitialResponse(url: string): (r: AsyncResponse)
    ensures r.requestUrl == Strip(url)
    ensures !r.status && r.statusCode == -1 && r.response.None? && r.reason.None?
    ensures r.stream.None? && r.referenceDesignator.None? && r.instrument.None?
  {
    AsyncResponse(Strip(url), false, -1, None, None, None, None, None)
  }

  // ---------------------------------------------------------------------------
  // `re.compile('^https?:\/\/.*\/sensor\/inv\/(.*)\?').match(url)`
  // ---------------------------------------------------------------------------

  /** Length of the `https?://` prefix of `s`, or 0 when there is none. */
  function SchemeLength(s: string): (n: nat)
    ensures n == 0 <==> !StartsWith(s, "http://") && !StartsWith(s, "https://")
    ensures n > 0 ==> n <= |s| && (n == 7 || n == 8)
  {
    if StartsWith(s, "https://") then 8
    else if StartsWith(s, "http://") then 7
    else 0
  }

  /** The regular expression matches with `/sensor/inv/` at `p` and the final
      `?` at `q`: `.` does not match a line break, so none may sit between the
      scheme and `q`. */
  ghost predicate PathMatch(s: string, p: int, q: int) {
    && SchemeLength(s) > 0
    && SchemeLength(s) <= p && p + |SensorInv| <= q < |s|
    && OccursAt(s, SensorInv, p) && s[q] == '?'
    && forall k :: SchemeLength(s) <= k < q ==> s[k] != '\n'
  }

  /** The match with the latest start and the latest end: the one greedy
      backtracking settles on. */
  ghost predicate GreatestMatch(s: string, p: int, q: int) {
    PathMatch(s, p, q) && forall p', q' :: PathMatch(s, p', q') ==> p' <= p && q' <= q
  }

  /** The first line break at or after `i`, or the end of `s`. */
  function LineEnd(s: string, i: nat): (e: nat)
    requires i <= |s|
    ensures i <= e <= |s| && (e == |s| || s[e] == '\n')
    ensures forall k :: i <= k < e ==> s[k] != '\n'
    decreases |s| - i
  {
    if i == |s| || s[i] == '\n' then i else LineEnd(s, i + 1)
  }

  /** The last index in `[lo, hi)` holding `c`. */
  function LastIndexOf(s: string, c: char, lo: nat, hi: nat): (r: Option<nat>)
    requires lo <= hi <= |s|
    ensures r.None? <==> forall k :: lo <= k < hi ==> s[k] != c
    ensures r.Some? ==> lo <= r.value < hi && s[r.value] == c && forall k :: r.value < k < hi ==> s[k] != c
    decreases hi - lo
  {
    if lo == hi then None
    else if s[hi - 1] == c then Some(hi - 1)
    else LastIndexOf(s, c, lo, hi - 1)
  }

  /** The last position `p >= lo` where `pat` occurs and ends by `hi`. */
  function LastOccurrence(s: string, pat: string, lo: nat, hi: nat): (r: Option<nat>)
    requires lo <= hi <= |s|
    ensures r.None? <==> forall p :: lo <= p && p + |pat| <= hi ==> !OccursAt(s, pat, p)
    ensures r.Some? ==> lo <= r.value && r.value + |pat| <= hi && OccursAt(s, pat, r.value)
    ensures r.Some? ==> forall p :: r.value < p && p + |pat| <= hi ==> !OccursAt(s, pat, p)
    decreases hi - lo
  {
    if hi < lo + |pat| then None
    else if OccursAt(s, pat, hi - |pat|) then Some(hi - |pat|)
    else
      var r := LastOccurrence(s, pat, lo, hi - 1);
      LastOccurrenceStep(s, pat, lo, hi);
      r
  }

  /** Dropping the last window, where `pat` does not occur, changes no
      occurrence between `lo` and `hi`. */
  lemma LastOccurrenceStep(s: string, pat: string, lo: nat, hi: nat)
    requires lo + |pat| <= hi <= |s| && !OccursAt(s, pat, hi - |pat|)
    ensures forall p :: lo <= p && p + |pat| <= hi ==> (OccursAt(s, pat, p) <==> p + |pat| <= hi - 1 && OccursAt(s, pat, p))
  {
  }

  /** A match ends before the first line break after the scheme. */
  lemma MatchWithinLine(s: string, p: int, q: int)
    requires PathMatch(s, p, q)
    ensures q < LineEnd(s, SchemeLength(s))
  {
  }

  /** Every match ends at or before the last `?` of the first line and
      starts at or before the last `/sensor/inv/` in front of it. */
  lemma MatchBounded(s: string, p: int, q: int, lastQ: nat)
    requires PathMatch(s, p, q)
    requires SchemeLength(s) <= lastQ < LineEnd(s, SchemeLength(s)) <= |s|
    requires forall k :: lastQ < k < LineEnd(s, SchemeLength(s)) ==> s[k] != '?'
    ensures q <= lastQ
  {
    MatchWithinLine(s, p, q);
  }

  /** The captured group. The regular expression backtracks from the right,
      so the capture starts after the last `/sensor/inv/` that still has a
      `?` after it and ends at the last `?` of the first line. */
  function CapturedPath(s: string): (r: Option<string>)
    ensures r.Some? <==> exists p, q :: PathMatch(s, p, q)
    ensures r.Some? ==> exists p, q :: GreatestMatch(s, p, q) && r.value == s[p + |SensorInv|..q]
  {
    var n := SchemeLength(s);
    if n == 0 then None
    else
      var e := LineEnd(s, n);
      match LastIndexOf(s, '?', n, e)
      case None =>
        assert forall p, q :: !PathMatch(s, p, q) by {
          forall p, q | PathMatch(s, p, q) ensures false {
            MatchWithinLine(s, p, q);
          }
        }
        None
      case Some(q) =>
        match LastOccurrence(s, SensorInv, n, q)
        case None =>
          assert forall p', q' :: !PathMatch(s, p', q') by {
            forall p', q' | PathMatch(s, p', q') ensures false {
              MatchBounded(s, p', q', q);
            }
          }
          None
        case Some(p) =>
          assert PathMatch(s, p, q);
          assert forall p', q' :: PathMatch(s, p', q') ==> p' <= p && q' <= q by {
            forall p', q' | PathMatch(s, p', q') ensures p' <= p && q' <= q {
              MatchBounded(s, p', q', q);
            }
          }
          assert GreatestMatch(s, p, q);
          Some(s[p + |SensorInv|..q])
  }

  /** `send_async_request(url, debug=True)`: the record after parsing. A URL
      the expression rejects, or whose path is not exactly five `/` tokens,
      is reported as badly formatted; otherwise the designator is the first
      three tokens and the stream key all five, joined with `-`. */
  function ParseRequest(url: string): (r: AsyncResponse)
    ensures r.requestUrl == Strip(url) && !r.status && r.statusCode == -1 && r.response.None?
    ensures r.reason.None? <==> CapturedPath(url).Some? && |Split(CapturedPath(url).value, '/')| == 5
    ensures r.reason.Some? ==> r == InitialResponse(url).(reason := Some(BadRequest))
    ensures r.reason.None? ==>
      var ts := Split(CapturedPath(url).value, '/');
      && r.referenceDesignator == Some(Join(ts[..3], "-"))
      && r.stream == Some(Join(ts, "-"))
      && r.instrument == Some(InstrumentFields(ts[0], ts[1], ts[2], ts[3], ts[4]))
  {
    var r := InitialResponse(url);
    match CapturedPath(url)
    case None => r.(reason := Some(BadRequest))
    case Some(path) =>
      var ts := Split(path, '/');
      if |ts| != 5 then r.(reason := Some(BadRequest))
      else
        r.(referenceDesignator := Some(Join(ts[..3], "-")),
           stream := Some(Join(ts, "-")),
           instrument := Some(InstrumentFields(ts[0], ts[1], ts[2], ts[3], ts[4])))
  }

  /** A URL without the `http://` or `https://` prefix is always rejected. */
  lemma SchemeRequired(url: string)
    requires !StartsWith(url, "http://") && !StartsWith(url, "https://")
    ensures ParseRequest(url).reason == Some(BadRequest)
  {
  }

  // ---------------------------------------------------------------------------
  // Captures of URLs laid out as `pre/sensor/inv/path?query`
  // ---------------------------------------------------------------------------

  /** A string with neither a `?` nor a line break. */
  predicate Plain(x: string) {
    '?' !in x && '\n' !in x
  }

  lemma PlainConcat(a: string, b: string)
    requires Plain(a) && Plain(b)
    ensures Plain(a + b)
  {
  }

  /** `'{:d}'` renders only a sign and digits. */
  lemma IntTextPlain(i: int)
    ensures Plain(IntToString(i))
  {
    IntToStringShape(i, i);
    var n := IntToString(i);
    forall k | 0 <= k < |n| ensures n[k] != '?' && n[k] != '\n' {
      assert n[k] == '-' || IsDigit(n[k]);
    }
  }

  /** After the `/sensor/inv/` at `at`, the next occurrence can only start
      inside the text that follows it. */
  lemma NoLaterSensorInv(s: string, at: nat, q: nat)
    requires at + |SensorInv| <= q <= |s| && s[at..at + |SensorInv|] == SensorInv
    requires !Contains("/" + s[at + |SensorInv|..q], SensorInv)
    ensures forall p :: at < p && p + |SensorInv| <= q ==> !OccursAt(s, SensorInv, p)
  {
    var t := s[at + |SensorInv| - 1..q];
    assert s[at + |SensorInv| - 1] == SensorInv[|SensorInv| - 1] == '/';
    assert t == "/" + s[at + |SensorInv|..q];
    forall p | at < p && p + |SensorInv| <= q ensures !OccursAt(s, SensorInv, p) {
      if p >= at + |SensorInv| - 1 {
        var i := p - (at + |SensorInv| - 1);
        assert t[i..i + |SensorInv|] == s[p..p + |SensorInv|];
        assert !OccursAt(t, SensorInv, i);
      } else {
        // Inside the known occurrence only offset 7 holds a `/`, and the
        // character after it is `i`, not `s`.
        var d := p - at;
        assert s[p] == SensorInv[d] by { assert s[p] == s[at..at + |SensorInv|][d]; }
        assert s[p + 1] == SensorInv[d + 1] by { assert s[p + 1] == s[at..at + |SensorInv|][d + 1]; }
        assert SensorInv[d] != '/' || SensorInv[d + 1] != 's';
        assert s[p..p + |SensorInv|][0] == s[p] && s[p..p + |SensorInv|][1] == s[p + 1];
      }
    }
  }

  /** A match that dominates every other match is the one captured. */
  lemma CaptureOfGreatestMatch(s: string, p: int, q: int)
    requires GreatestMatch(s, p, q)
    ensures CapturedPath(s) == Some(s[p + |SensorInv|..q])
  {
    var r := CapturedPath(s);
    var p0, q0 :| GreatestMatch(s, p0, q0) && r.value == s[p0 + |SensorInv|..q0];
    GreatestMatchUnique(s, p, q, p0, q0);
  }

  /** There is at most one greatest match. */
  lemma GreatestMatchUnique(s: string, p: int, q: int, p0: int, q0: int)
    requires GreatestMatch(s, p, q) && GreatestMatch(s, p0, q0)
    ensures p == p0 && q == q0
  {
    assert p <= p0 && q <= q0;
    assert p0 <= p && q0 <= q;
  }

  /** The pieces of `pre/sensor/inv/path?query`, found again by position. */
  lemma LayoutPositions(pre: string, path: string, query: string)
    requires StartsWith(pre, "http://") || StartsWith(pre, "https://")
    requires '\n' !in pre && '\n' !in path && Plain(query)
    ensures var s := pre + SensorInv + path + "?" + query;
      var q := |pre| + |SensorInv| + |path|;
      && 0 < SchemeLength(s) <= |pre|
      && (forall k :: 0 <= k < |s| ==> s[k] != '\n')
      && s[q] == '?' && (forall k :: q < k < |s| ==> s[k] != '?')
      && s[|pre|..|pre| + |SensorInv|] == SensorInv
      && s[|pre| + |SensorInv|..q] == path
  {
    var s := pre + SensorInv + path + "?" + query;
    var q := |pre| + |SensorInv| + |path|;
    assert s[..|pre|] == pre;
    if StartsWith(pre, "https://") {
      assert s[..8] == pre[..8];
    } else {
      assert s[..7] == pre[..7];
      assert s[4] == pre[4] == ':';
    }
    forall k | 0 <= k < |s| ensures s[k] != '\n' {
      if k < |pre| {
        assert s[k] == pre[k];
      } else if k < |pre| + |SensorInv| {
        assert s[k] == SensorInv[k - |pre|];
      } else if k < q {
        assert s[k] == path[k - |pre| - |SensorInv|];
      } else if k > q {
        assert s[k] == query[k - q - 1];
      }
    }
    forall k | q < k < |s| ensures s[k] != '?' {
      assert s[k] == query[k - q - 1];
    }
    assert s[|pre|..|pre| + |SensorInv|] == SensorInv;
    assert s[|pre| + |SensorInv|..q] == path;
  }

  /** The capture of a URL laid out as `pre/sensor/inv/path?query`, where
      `pre` carries the scheme and nothing in the URL is a line break, is
      `path`, provided `/path` holds no further `/sensor/inv/` and the query
      holds no `?`. */
  lemma CaptureOfLayout(pre: string, path: string, query: string)
    requires StartsWith(pre, "http://") || StartsWith(pre, "https://")
    requires '\n' !in pre && '\n' !in path && Plain(query)
    requires !Contains("/" + path, SensorInv)
    ensures CapturedPath(pre + SensorInv + path + "?" + query) == Some(path)
  {
    var s := pre + SensorInv + path + "?" + query;
    var at := |pre|;
    var q := |pre| + |SensorInv| + |path|;
    LayoutPositions(pre, path, query);
    NoLaterSensorInv(s, at, q);
    assert GreatestMatch(s, at, q);
    CaptureOfGreatestMatch(s, at, q);
  }
}

=== FILE: Catalog.dfy ===
/**
 The state of a `UFrame` client object and the operations on its table of
 contents: the `base_url` and `port` setters, what `fetch_toc` does with the
 decoded response, and the substring searches over the catalog.
 */
module Catalog {
  import opened Text
  import opened Order

  /** One entry of an instrument's `streams` list. */
  datatype Stream = Stream(stream: string, methodName: string, sensor: string, beginTime: string, endTime: string)

  /** One entry of an instrument's `instrument_parameters` list (only the key read here). */
  datatype Parameter = Parameter(particleKey: string)

  /** One record of the decoded `/sensor/inv/toc` response list. */
  datatype Instrument = Instrument(referenceDesignator: string, parameters: seq<Parameter>, streams: seq<Stream>)

  /** The port `fetch_toc` and `instrument_to_query` force before building a URL. */
  const DefaultPort: int := 12576

  /** A `UFrame` object. `baseUrl` is `None` while `_base_url` has never been
      assigned; `toc` is empty both before the first fetch (the source's `[]`)
      and after fetching an empty list. */
  datatype Client = Client(
    baseUrl: Option<string>,
    port: int,
    url: Option<string>,
    timeout: int,
    validate: bool,
    toc: map<string, Instrument>,
    arrays: seq<string>,
    instruments: seq<string>,
    parameters: seq<string>,
    streams: seq<string>)

  /** `'{:s}:{:d}/sensor/inv'.format(base, port)` */
  function ServiceUrl(base: string, port: int): string {
    base + ":" + IntToString(port) + "/sensor/inv"
  }

  /** The array name of a designator: `designator.split('-')[0]`. */
  function FirstToken(designator: string): string {
    Split(designator, '-')[0]
  }

  /** What every reachable client satisfies: `instruments` and `arrays` are
      the strictly sorted designators and first tokens of the catalog, each
      catalog entry is filed under its own designator, and a non-empty
      catalog was fetched from a base URL. `parameters` is only kept strictly
      sorted and `streams` sorted: both are built from the whole response,
      including records the catalog overwrote, so they are not a function of
      the catalog (what a fetch puts in them is stated by `FetchTocParameters`
      and `FetchTocStreams`). */
  ghost predicate Valid(c: Client) {
    && (|c.toc| > 0 ==> c.baseUrl.Some?)
    && (forall k :: k in c.toc ==> c.toc[k].referenceDesignator == k)
    && StrictlySorted(c.instruments)
    && (forall k :: k in c.instruments <==> k in c.toc)
    && StrictlySorted(c.arrays)
    && (forall a :: a in c.arrays <==> exists k :: k in c.toc && FirstToken(k) == a)
    && StrictlySorted(c.parameters)
    && Sorted(c.streams)
  }

  // ---------------------------------------------------------------------------
  // Construction and the `base_url` / `port` setters
  // ---------------------------------------------------------------------------

  /** The `base_url` setter. An empty URL, or a failed probe of the instance
      when `validate` is set (`probeOk` is the probe's verdict), leaves the
      object untouched (a non-200 probe raises rather than returning, with the
      same effect on the object); otherwise the base URL and the service URL change and
      nothing else does. */
  function SetBaseUrl(c: Client, url: string, probeOk: bool): (c': Client)
    ensures url == "" || (c.validate && !probeOk) ==> c' == c
    ensures url != "" && (!c.validate || probeOk) ==>
      && c'.baseUrl == Some(url)
      && c'.url == Some(ServiceUrl(url, c.port))
      && c' == c.(baseUrl := c'.baseUrl, url := c'.url)
    ensures Valid(c) ==> Valid(c')
  {
    if url == "" then c
    else if c.validate && !probeOk then c
    else c.(baseUrl := Some(url), url := Some(ServiceUrl(url, c.port)))
  }

  /** The `port` setter: the service URL is rebuilt from the stored base URL
      (the source fails if no base URL was ever stored). */
  function SetPort(c: Client, port: int): (c': Client)
    requires c.baseUrl.Some?
    ensures c'.port == port && c'.url == Some(ServiceUrl(c.baseUrl.value, port))
    ensures c' == c.(port := c'.port, url := c'.url)
    ensures Valid(c) ==> Valid(c')
  {
    c.(port := port, url := Some(ServiceUrl(c.baseUrl.value, port)))
  }

  /** `UFrame(base_url, port, timeout, validate)`: an empty argument falls back
      to the `UFRAME_BASE_URL` environment value `env`. */
  function NewClient(baseUrl: string, env: string, port: int, timeout: int, validate: bool, probeOk: bool): (c: Client)
    ensures Valid(c) && |c.toc| == 0
    ensures c.instruments == [] && c.arrays == [] && c.parameters == [] && c.streams == []
    ensures c.port == port && c.timeout == timeout && c.validate == validate
    ensures var base := if baseUrl != "" then baseUrl else env;
      if base != "" && (!validate || probeOk)
      then c.baseUrl == Some(base) && c.url == Some(ServiceUrl(base, port))
      else c.baseUrl == None && c.url == None
  {
    var base := if baseUrl != "" then baseUrl else env;
    var empty := Client(None, port, None, timeout, validate, map[], [], [], [], []);
    SetBaseUrl(empty, base, probeOk)
  }

  // ---------------------------------------------------------------------------
  // `fetch_toc` after the response has been decoded
  // ---------------------------------------------------------------------------

  /** Outcome of the `/toc` request. A network error and a body that is not
      JSON return early; a non-200 status raises while formatting its error
      message. All three leave the catalog as it was, and that shared state is
      what `FetchFailed` stands for. */
  datatype TocResponse = FetchFailed | Decoded(records: seq<Instrument>)

  /** The record at `i` is the last one carrying its designator. */
  predicate LastWithDesignator(rs: seq<Instrument>, i: int)
    requires 0 <= i < |rs|
  {
    forall j :: i < j < |rs| ==> rs[j].referenceDesignator != rs[i].referenceDesignator
  }

  /** `{i['reference_designator']: i for i in toc_response}`: later records
      overwrite earlier ones with the same designator. */
  function TocMap(rs: seq<Instrument>): (m: map<string, Instrument>)
    ensures forall k :: k in m <==> exists i :: 0 <= i < |rs| && rs[i].referenceDesignator == k
    ensures forall k :: k in m ==> m[k].referenceDesignator == k
    ensures forall i :: 0 <= i < |rs| && LastWithDesignator(rs, i) ==> m[rs[i].referenceDesignator] == rs[i]
    decreases |rs|
  {
    if |rs| == 0 then map[]
    else
      var init, last := rs[..|rs| - 1], rs[|rs| - 1];
      assert rs == init + [last];
      var m := TocMap(init);
      TocMapExtend(init, last, m);
      m[last.referenceDesignator := last]
  }

  /** One more record: the map of the earlier records, updated with the new
      record under its designator, is the map of all records. */
  lemma TocMapExtend(init: seq<Instrument>, last: Instrument, m: map<string, Instrument>)
    requires forall k :: k in m <==> exists i :: 0 <= i < |init| && init[i].referenceDesignator == k
    requires forall k :: k in m ==> m[k].referenceDesignator == k
    requires forall i :: 0 <= i < |init| && LastWithDesignator(init, i) ==> m[init[i].referenceDesignator] == init[i]
    ensures var rs, m' := init + [last], m[last.referenceDesignator := last];
      && (forall k :: k in m' <==> exists i :: 0 <= i < |rs| && rs[i].referenceDesignator == k)
      && (forall k :: k in m' ==> m'[k].referenceDesignator == k)
      && (forall i :: 0 <= i < |rs| && LastWithDesignator(rs, i) ==> m'[rs[i].referenceDesignator] == rs[i])
  {
    var rs := init + [last];
    var m' := m[last.referenceDesignator := last];
    forall k ensures k in m' <==> exists i :: 0 <= i < |rs| && rs[i].referenceDesignator == k {
      if exists i :: 0 <= i < |rs| && rs[i].referenceDesignator == k {
        var i :| 0 <= i < |rs| && rs[i].referenceDesignator == k;
        if i < |init| {
          assert init[i] == rs[i];
        }
      }
      if k in m && k != last.referenceDesignator {
        var i :| 0 <= i < |init| && init[i].referenceDesignator == k;
        assert rs[i] == init[i];
      }
    }
    forall i | 0 <= i < |rs| && LastWithDesignator(rs, i)
      ensures m'[rs[i].referenceDesignator] == rs[i]
    {
      if i < |init| {
        assert rs[i] == init[i];
        assert rs[|init|] == last;
        assert LastWithDesignator(init, i) by {
          forall j | i < j < |init| ensures init[j].referenceDesignator != init[i].referenceDesignator {
            assert rs[j] == init[j];
          }
        }
      }
    }
  }

  function Designators(rs: seq<Instrument>): (ds: seq<string>)
    ensures |ds| == |rs| && forall i :: 0 <= i < |rs| ==> ds[i] == rs[i].referenceDesignator
  {
    seq(|rs|, i requires 0 <= i < |rs| => rs[i].referenceDesignator)
  }

  /** Every `particleKey`, record by record, in response order. */
  function ParameterKeys(rs: seq<Instrument>): seq<string>
    decreases |rs|
  {
    if |rs| == 0 then []
    else
      var here := seq(|rs[0].parameters|, j requires 0 <= j < |rs[0].parameters| => rs[0].parameters[j].particleKey);
      here + ParameterKeys(rs[1..])
  }

  /** Every stream name, record by record, in response order. */
  function StreamNames(rs: seq<Instrument>): seq<string>
    decreases |rs|
  {
    if |rs| == 0 then []
    else
      var here := seq(|rs[0].streams|, j requires 0 <= j < |rs[0].streams| => rs[0].streams[j].stream);
      here + StreamNames(rs[1..])
  }

  /** One step of the parameter loop: the first key is appended, later keys
      only when not yet present. */
  function AddParameter(acc: seq<string>, key: string): seq<string> {
    if |acc| == 0 then [key]
    else if key in acc then acc
    else acc + [key]
  }

  /** One step of the stream loop as written: when the list is empty the name
      is appended by the first branch and then again by the fall-through. */
  function AddStreamName(acc: seq<string>, name: string): seq<string> {
    if |acc| == 0 then [name, name]
    else if name in acc then acc
    else acc + [name]
  }

  function CollectParameters(keys: seq<string>): seq<string>
    decreases |keys|
  {
    if |keys| == 0 then [] else AddParameter(CollectParameters(keys[..|keys| - 1]), keys[|keys| - 1])
  }

  function CollectStreamNames(names: seq<string>): seq<string>
    decreases |names|
  {
    if |names| == 0 then [] else AddStreamName(CollectStreamNames(names[..|names| - 1]), names[|names| - 1])
  }

  /** The parameter loop keeps the first occurrence of every key. */
  lemma {:induction false} CollectParametersIsDedup(keys: seq<string>)
    ensures CollectParameters(keys) == Dedup(keys)
    decreases |keys|
  {
    if |keys| > 0 {
      CollectParametersIsDedup(keys[..|keys| - 1]);
    }
  }

  /** The stream loop keeps the first occurrence of every name and repeats
      the very first name once more. */
  lemma {:induction false} CollectStreamNamesRepeatsFirst(names: seq<string>)
    ensures |names| == 0 ==> CollectStreamNames(names) == []
    ensures |names| > 0 ==> CollectStreamNames(names) == [names[0]] + Dedup(names)
    decreases |names|
  {
    if |names| > 1 {
      var init := names[..|names| - 1];
      CollectStreamNamesRepeatsFirst(init);
      assert init[0] == names[0];
      assert names[0] in Dedup(init);
      var last := names[|names| - 1];
      if last !in Dedup(init) {
        assert [names[0]] + Dedup(init) + [last] == [names[0]] + (Dedup(init) + [last]);
      }
    }
  }

  /** True when some record of `rs` carries designator `k`. */
  ghost predicate Listed(rs: seq<Instrument>, k: string) {
    exists i :: 0 <= i < |rs| && rs[i].referenceDesignator == k
  }

  lemma ParameterKeysMembership(rs: seq<Instrument>, k: string)
    ensures k in ParameterKeys(rs) <==>
      exists i, j :: 0 <= i < |rs| && 0 <= j < |rs[i].parameters| && rs[i].parameters[j].particleKey == k
    decreases |rs|
  {
    if |rs| > 0 {
      ParameterKeysMembership(rs[1..], k);
      var here := seq(|rs[0].parameters|, j requires 0 <= j < |rs[0].parameters| => rs[0].parameters[j].particleKey);
      if k in ParameterKeys(rs[1..]) {
        var i, j :| 0 <= i < |rs[1..]| && 0 <= j < |rs[1..][i].parameters| && rs[1..][i].parameters[j].particleKey == k;
        assert rs[i + 1].parameters[j].particleKey == k;
      }
      if exists i, j :: 0 <= i < |rs| && 0 <= j < |rs[i].parameters| && rs[i].parameters[j].particleKey == k {
        var i, j :| 0 <= i < |rs| && 0 <= j < |rs[i].parameters| && rs[i].parameters[j].particleKey == k;
        if i == 0 {
          assert here[j] == k;
        } else {
          assert rs[1..][i - 1].parameters[j].particleKey == k;
        }
      }
    }
  }

  lemma StreamNamesMembership(rs: seq<Instrument>, n: string)
    ensures n in StreamNames(rs) <==>
      exists i, j :: 0 <= i < |rs| && 0 <= j < |rs[i].streams| && rs[i].streams[j].stream == n
    decreases |rs|
  {
    if |rs| > 0 {
      StreamNamesMembership(rs[1..], n);
      var here := seq(|rs[0].streams|, j requires 0 <= j < |rs[0].streams| => rs[0].streams[j].stream);
      if n in StreamNames(rs[1..]) {
        var i, j :| 0 <= i < |rs[1..]| && 0 <= j < |rs[1..][i].streams| && rs[1..][i].streams[j].stream == n;
        assert rs[i + 1].streams[j].stream == n;
      }
      if exists i, j :: 0 <= i < |rs| && 0 <= j < |rs[i].streams| && rs[i].streams[j].stream == n {
        var i, j :| 0 <= i < |rs| && 0 <= j < |rs[i].streams| && rs[i].streams[j].stream == n;
        if i == 0 {
          assert here[j] == n;
        } else {
          assert rs[1..][i - 1].streams[j].stream == n;
        }
      }
    }
  }

  /** The designators of `rs`, each once. */
  function CatalogKeys(rs: seq<Instrument>): (keys: seq<string>)
    ensures NoDup(keys)
    ensures forall k :: k in keys <==> Listed(rs, k)
  {
    var keys := Dedup(Designators(rs));
    forall k ensures k in keys <==> Listed(rs, k) {
      if Listed(rs, k) {
        var i :| 0 <= i < |rs| && rs[i].referenceDesignator == k;
        assert Designators(rs)[i] == k;
      }
      if k in Designators(rs) {
        var i :| 0 <= i < |rs| && Designators(rs)[i] == k;
        assert rs[i].referenceDesignator == k;
      }
    }
    keys
  }

  /** `ref_des = self._toc.keys(); ref_des.sort()` */
  function InstrumentIndex(rs: seq<Instrument>): (r: seq<string>)
    ensures StrictlySorted(r)
    ensures forall k :: k in r <==> Listed(rs, k)
  {
    var keys := CatalogKeys(rs);
    var r := Sort(keys);
    forall k ensures k in r <==> k in keys {
      assert k in r <==> k in multiset(r);
      assert k in keys <==> k in multiset(keys);
    }
    PermutationNoDup(r, keys);
    r
  }

  function FirstTokens(keys: seq<string>): (firsts: seq<string>)
    ensures forall a :: a in firsts <==> exists k :: k in keys && FirstToken(k) == a
  {
    var firsts := seq(|keys|, i requires 0 <= i < |keys| => FirstToken(keys[i]));
    forall a ensures a in firsts <==> exists k :: k in keys && FirstToken(k) == a {
      if a in firsts {
        var i :| 0 <= i < |keys| && firsts[i] == a;
        assert keys[i] in keys;
      }
      if exists k :: k in keys && FirstToken(k) == a {
        var k :| k in keys && FirstToken(k) == a;
        var i :| 0 <= i < |keys| && keys[i] == k;
        assert firsts[i] == a;
      }
    }
    firsts
  }

  /** `{t.split('-')[0]: True for t in keys}.keys()`, sorted: the distinct
      first tokens of the catalog keys. */
  function ArrayIndex(rs: seq<Instrument>): (r: seq<string>)
    ensures StrictlySorted(r)
    ensures forall a :: a in r <==> exists k :: Listed(rs, k) && FirstToken(k) == a
  {
    SortedSet(FirstTokens(CatalogKeys(rs)))
  }

  /** The sorted distinct `particleKey`s of every record. */
  function ParameterIndex(rs: seq<Instrument>): (r: seq<string>)
    ensures StrictlySorted(r)
    ensures forall p :: p in r <==>
      exists i, j :: 0 <= i < |rs| && 0 <= j < |rs[i].parameters| && rs[i].parameters[j].particleKey == p
  {
    var keys := ParameterKeys(rs);
    var collected := CollectParameters(keys);
    CollectParametersIsDedup(keys);
    var r := Sort(collected);
    PermutationNoDup(r, collected);
    forall p ensures p in r <==>
      exists i, j :: 0 <= i < |rs| && 0 <= j < |rs[i].parameters| && rs[i].parameters[j].particleKey == p
    {
      assert p in r <==> p in multiset(collected);
      ParameterKeysMembership(rs, p);
    }
    r
  }

  /** The sorted stream names as the loop leaves them: every name of every
      record once, except the very first name, which appears twice. */
  function StreamIndex(rs: seq<Instrument>): (r: seq<string>)
    ensures Sorted(r)
    ensures forall n :: n in r <==>
      exists i, j :: 0 <= i < |rs| && 0 <= j < |rs[i].streams| && rs[i].streams[j].stream == n
    ensures |StreamNames(rs)| > 0 ==> multiset(r)[StreamNames(rs)[0]] == 2
    ensures forall n :: n in r && (|StreamNames(rs)| == 0 || n != StreamNames(rs)[0]) ==> multiset(r)[n] == 1
  {
    var names := StreamNames(rs);
    var collected := CollectStreamNames(names);
    CollectStreamNamesRepeatsFirst(names);
    var r := Sort(collected);
    forall n ensures n in r <==>
      exists i, j :: 0 <= i < |rs| && 0 <= j < |rs[i].streams| && rs[i].streams[j].stream == n
    {
      assert n in r <==> n in multiset(collected);
      StreamNamesMembership(rs, n);
    }
    if |names| > 0 then
      forall n ensures multiset(r)[n] == (if n == names[0] then 1 else 0) + (if n in names then 1 else 0) {
        NoDupMultiset(Dedup(names), n);
        assert multiset([names[0]] + Dedup(names)) == multiset{names[0]} + multiset(Dedup(names));
      }
      r
    else
      r
  }

  /** `fetch_toc`: the port and URL are overwritten first; a failed request
      leaves everything else as it was. A decoded list replaces the catalog
      (the last record of every designator wins) and rebuilds every index
      from it: `instruments` is the sorted key list, `arrays` the sorted
      distinct first tokens of the keys, `parameters` the sorted distinct keys
      of every record (overwritten duplicates included), `streams` every
      stream name sorted, the first one seen twice. */
  function FetchToc(c: Client, response: TocResponse): (c': Client)
    requires c.baseUrl.Some?
    ensures c'.port == DefaultPort
    ensures c'.url == Some(ServiceUrl(c.baseUrl.value, DefaultPort) + "/toc")
    ensures c'.baseUrl == c.baseUrl && c'.timeout == c.timeout && c'.validate == c.validate
    ensures response.FetchFailed? ==>
      c'.toc == c.toc && c'.instruments == c.instruments && c'.arrays == c.arrays
      && c'.parameters == c.parameters && c'.streams == c.streams
    ensures response.Decoded? ==> var rs := response.records;
      && (forall k :: k in c'.toc <==> Listed(rs, k))
      && (forall i :: 0 <= i < |rs| && LastWithDesignator(rs, i) ==> c'.toc[rs[i].referenceDesignator] == rs[i])
      && StrictlySorted(c'.instruments) && (forall k :: k in c'.instruments <==> k in c'.toc)
  {
    var c1 := c.(port := DefaultPort, url := Some(ServiceUrl(c.baseUrl.value, DefaultPort) + "/toc"));
    match response
    case FetchFailed => c1
    case Decoded(rs) =>
      c1.(toc := TocMap(rs),
          instruments := InstrumentIndex(rs),
          arrays := ArrayIndex(rs),
          parameters := ParameterIndex(rs),
          streams := StreamIndex(rs))
  }

  /** After a decoded fetch, `arrays` is the sorted distinct first tokens of
      the catalog keys. */
  lemma FetchTocArrays(c: Client, rs: seq<Instrument>)
    requires c.baseUrl.Some?
    ensures var c' := FetchToc(c, Decoded(rs));
      StrictlySorted(c'.arrays) && (forall a :: a in c'.arrays <==> exists k :: k in c'.toc && FirstToken(k) == a)
  {
  }

  /** After a decoded fetch, `parameters` is the sorted distinct parameter
      keys of every record, overwritten duplicates included. */
  lemma FetchTocParameters(c: Client, rs: seq<Instrument>)
    requires c.baseUrl.Some?
    ensures var c' := FetchToc(c, Decoded(rs));
      && StrictlySorted(c'.parameters)
      && (forall p :: p in c'.parameters <==>
            exists i, j :: 0 <= i < |rs| && 0 <= j < |rs[i].parameters| && rs[i].parameters[j].particleKey == p)
  {
  }

  /** After a decoded fetch, `streams` is every stream name, sorted, each once
      except the very first one seen, which is listed twice. */
  lemma FetchTocStreams(c: Client, rs: seq<Instrument>)
    requires c.baseUrl.Some?
    ensures var c' := FetchToc(c, Decoded(rs));
      && Sorted(c'.streams)
      && (forall n :: n in c'.streams <==>
            exists i, j :: 0 <= i < |rs| && 0 <= j < |rs[i].streams| && rs[i].streams[j].stream == n)
      && (|StreamNames(rs)| > 0 ==> multiset(c'.streams)[StreamNames(rs)[0]] == 2)
      && (forall n :: n in c'.streams && (|StreamNames(rs)| == 0 || n != StreamNames(rs)[0]) ==> multiset(c'.streams)[n] == 1)
  {
  }

  /** A fetch keeps a valid client valid, whether it fails or succeeds. */
  lemma FetchTocPreservesValid(c: Client, response: TocResponse)
    requires Valid(c) && c.baseUrl.Some?
    ensures Valid(FetchToc(c, response))
  {
  }

  // ---------------------------------------------------------------------------
  // Searches
  // ---------------------------------------------------------------------------

  /** `search_instruments`: the instruments whose designator contains `target`,
      in catalog order; nothing while the catalog is empty. */
  function SearchInstruments(c: Client, target: string): (r: seq<string>)
    ensures |c.toc| == 0 ==> r == []
    ensures |c.toc| > 0 ==> forall x :: x in r <==> x in c.instruments && Contains(x, target)
    ensures Valid(c) ==> StrictlySorted(r) && forall x :: x in r <==> x in c.toc && Contains(x, target)
  {
    if |c.toc| == 0 then []
    else
      var r := Filter(c.instruments, x => Contains(x, target));
      FilterSubset(c.instruments, x => Contains(x, target));
      assert Valid(c) ==> StrictlySorted(r) by {
        if Valid(c) {
          FilterPreservesOrder(c.instruments, x => Contains(x, target));
        }
      }
      r
  }

  /** The empty target is contained in every designator, so it lists them all. */
  lemma SearchEmptyTargetListsAll(c: Client)
    requires Valid(c) && |c.toc| > 0
    ensures SearchInstruments(c, "") == c.instruments
  {
    forall x ensures x in SearchInstruments(c, "") <==> x in c.instruments {
      EmptyPatternFound(x);
    }
    StrictlySortedUnique(SearchInstruments(c, ""), c.instruments);
  }

  /** `search_instruments(target, metadata=True)`: the catalog records of the
      matching instruments, in the same order. */
  function SearchInstrumentRecords(c: Client, target: string): (r: seq<Instrument>)
    requires Valid(c)
    ensures |r| == |SearchInstruments(c, target)|
    ensures forall i :: 0 <= i < |r| ==> r[i].referenceDesignator == SearchInstruments(c, target)[i]
    ensures forall i :: 0 <= i < |r| ==> Contains(r[i].referenceDesignator, target) && r[i] in c.toc.Values
  {
    var names := SearchInstruments(c, target);
    assert forall i :: 0 <= i < |names| ==> names[i] in names;
    seq(|names|, i requires 0 <= i < |names| => c.toc[names[i]])
  }

  /** `search_arrays`: the array names containing `target`, sorted again. */
  function SearchArrays(c: Client, target: string): (r: seq<string>)
    ensures |c.toc| == 0 ==> r == []
    ensures |c.toc| > 0 ==> forall a :: a in r <==> a in c.arrays && Contains(a, target)
    ensures Valid(c) ==> StrictlySorted(r)
  {
    if |c.toc| == 0 then []
    else
      var f := Filter(c.arrays, a => Contains(a, target));
      FilterSubset(c.arrays, a => Contains(a, target));
      var r := Sort(f);
      forall a ensures a in r <==> a in f {
        assert a in r <==> a in multiset(r);
        assert a in f <==> a in multiset(f);
      }
      assert Valid(c) ==> StrictlySorted(r) by {
        if Valid(c) {
          FilterPreservesOrder(c.arrays, a => Contains(a, target));
          PermutationNoDup(r, f);
        }
      }
      r
  }

  /** The re-sort in `search_arrays` changes nothing: the filtered list is
      already in order. */
  lemma SearchArraysKeepsCatalogOrder(c: Client, target: string)
    requires Valid(c) && |c.toc| > 0
    ensures SearchArrays(c, target) == Filter(c.arrays, a => Contains(a, target))
  {
    FilterPreservesOrder(c.arrays, a => Contains(a, target));
    SortSorted(Filter(c.arrays, a => Contains(a, target)));
  }

  /** The `sensor` fields of the streams of `record` whose name contains `target`. */
  function MatchingSensors(record: Instrument, target: string): seq<string> {
    var hits := Filter(record.streams, (s: Stream) => Contains(s.stream, target));
    seq(|hits|, i requires 0 <= i < |hits| => hits[i].sensor)
  }

  /** A catalog stream: its record key, and the stream itself. */
  ghost predicate ProducesStream(toc: map<string, Instrument>, k: string, s: Stream) {
    k in toc && s in toc[k].streams
  }

  /** The sensors collected while walking the catalog keys in `order`. */
  function CollectSensors(toc: map<string, Instrument>, order: seq<string>, target: string): (r: seq<string>)
    requires forall k :: k in order ==> k in toc
    ensures forall x :: x in r <==> exists k, s :: k in order && ProducesStream(toc, k, s) && Contains(s.stream, target) && s.sensor == x
    decreases |order|
  {
    if |order| == 0 then []
    else
      var init := order[..|order| - 1];
      var k := order[|order| - 1];
      var rest := CollectSensors(toc, init, target);
      var here := MatchingSensors(toc[k], target);
      var hits := Filter(toc[k].streams, (s: Stream) => Contains(s.stream, target));
      FilterSubset(toc[k].streams, (s: Stream) => Contains(s.stream, target));
      forall x ensures x in rest + here <==> exists k', s :: k' in order && ProducesStream(toc, k', s) && Contains(s.stream, target) && s.sensor == x {
        if x in here {
          var i :| 0 <= i < |hits| && hits[i].sensor == x;
          assert hits[i] in hits;
          assert ProducesStream(toc, k, hits[i]);
        }
        if exists k', s :: k' in order && ProducesStream(toc, k', s) && Contains(s.stream, target) && s.sensor == x {
          var k', s :| k' in order && ProducesStream(toc, k', s) && Contains(s.stream, target) && s.sensor == x;
          if k' != k {
            assert k' in init;
          } else {
            assert s in hits;
            var i :| 0 <= i < |hits| && hits[i] == s;
            assert here[i] == x;
          }
        }
      }
      rest + here
  }

  /** `stream_to_instrument`: walking the catalog keys in dictionary order
      `order`, the distinct `sensor` fields of all streams whose name contains
      `target`, sorted. */
  function StreamToInstrument(c: Client, target: string, order: seq<string>): (r: seq<string>)
    requires NoDup(order) && forall k :: k in order <==> k in c.toc
    ensures |c.toc| == 0 ==> r == []
    ensures StrictlySorted(r)
    ensures forall x :: x in r <==> exists k, s :: ProducesStream(c.toc, k, s) && Contains(s.stream, target) && s.sensor == x
  {
    if |c.toc| == 0 then []
    else
      var found := Dedup(CollectSensors(c.toc, order, target));
      var r := Sort(found);
      forall x ensures x in r <==> exists k, s :: ProducesStream(c.toc, k, s) && Contains(s.stream, target) && s.sensor == x {
        assert x in r <==> x in multiset(r);
        assert x in found <==> x in multiset(found);
        if exists k, s :: ProducesStream(c.toc, k, s) && Contains(s.stream, target) && s.sensor == x {
          var k, s :| ProducesStream(c.toc, k, s) && Contains(s.stream, target) && s.sensor == x;
          assert k in order;
        }
      }
      PermutationNoDup(r, found);
      r
  }

  /** The result of `stream_to_instrument` does not depend on the order in
      which the dictionary hands out its keys. */
  lemma StreamToInstrumentOrderIndependent(c: Client, target: string, o1: seq<string>, o2: seq<string>)
    requires NoDup(o1) && forall k :: k in o1 <==> k in c.toc
    requires NoDup(o2) && forall k :: k in o2 <==> k in c.toc
    ensures StreamToInstrument(c, target, o1) == StreamToInstrument(c, target, o2)
  {
    StrictlySortedUnique(StreamToInstrument(c, target, o1), StreamToInstrument(c, target, o2));
  }

  /** `instrument_to_streams`: the stream lists of the matching instruments,
      concatenated in search order. */
  function InstrumentToStreams(c: Client, target: string): (r: seq<Stream>)
    requires Valid(c)
    ensures forall s :: s in r <==> exists k :: k in SearchInstruments(c, target) && ProducesStream(c.toc, k, s)
    ensures |r| == StreamCount(c.toc, SearchInstruments(c, target))
  {
    var found := SearchInstruments(c, target);
    ConcatStreams(c.toc, found)
  }

  /** Total number of streams of the instruments `keys`, repeats included. */
  function StreamCount(toc: map<string, Instrument>, keys: seq<string>): nat
    requires forall k :: k in keys ==> k in toc
    decreases |keys|
  {
    if |keys| == 0 then 0 else |toc[keys[0]].streams| + StreamCount(toc, keys[1..])
  }

  /** The stream lists of `keys`, one after another. */
  function ConcatStreams(toc: map<string, Instrument>, keys: seq<string>): (r: seq<Stream>)
    requires forall k :: k in keys ==> k in toc
    ensures forall s :: s in r <==> exists k :: k in keys && ProducesStream(toc, k, s)
    ensures |r| == StreamCount(toc, keys)
    decreases |keys|
  {
    if |keys| == 0 then []
    else
      var rest := ConcatStreams(toc, keys[1..]);
      var r := toc[keys[0]].streams + rest;
      forall s ensures s in r <==> exists k :: k in keys && ProducesStream(toc, k, s) {
        if s in toc[keys[0]].streams {
          assert ProducesStream(toc, keys[0], s);
        }
        if exists k :: k in keys && ProducesStream(toc, k, s) {
          var k :| k in keys && ProducesStream(toc, k, s);
          if k != keys[0] {
            assert k in keys[1..];
          }
        }
        if s in rest {
          var k :| k in keys[1..] && ProducesStream(toc, k, s);
          assert k in keys;
        }
      }
      r
  }

  /** The streams of two runs of instruments are the streams of each, one
      after the other: nothing is re-ordered, merged or dropped. */
  lemma {:induction false} ConcatStreamsAppend(toc: map<string, Instrument>, a: seq<string>, b: seq<string>)
    requires forall k :: k in a ==> k in toc
    requires forall k :: k in b ==> k in toc
    ensures forall k :: k in a + b ==> k in toc
    ensures ConcatStreams(toc, a + b) == ConcatStreams(toc, a) + ConcatStreams(toc, b)
    decreases |a|
  {
    if |a| == 0 {
      assert a + b == b;
    } else {
      assert (a + b)[1..] == a[1..] + b;
      assert (a + b)[0] == a[0];
      ConcatStreamsAppend(toc, a[1..], b);
    }
  }

  /** In the result of `instrument_to_streams`, the `i`-th instrument found
      contributes its whole stream list, verbatim, right after the streams
      of the instruments found before it. */
  lemma InstrumentToStreamsBlock(c: Client, target: string, i: nat)
    requires Valid(c) && i < |SearchInstruments(c, target)|
    ensures var found := SearchInstruments(c, target);
      var r := InstrumentToStreams(c, target);
      var at := StreamCount(c.toc, found[..i]);
      && at + |c.toc[found[i]].streams| <= |r|
      && r[at..at + |c.toc[found[i]].streams|] == c.toc[found[i]].streams
  {
    var found := SearchInstruments(c, target);
    var before, here, after := found[..i], [found[i]], found[i + 1..];
    assert found == before + here + after;
    ConcatStreamsAppend(c.toc, before, here);
    ConcatStreamsAppend(c.toc, before + here, after);
    assert ConcatStreams(c.toc, here) == c.toc[found[i]].streams;
  }

  /** `get_instrument_metadata`: the catalog restricted to the designators
      that contain `target`. */
  function GetInstrumentMetadata(c: Client, target: string): (m: map<string, Instrument>)
    requires Valid(c)
    ensures forall k :: k in m <==> (|c.toc| > 0 && k in c.toc && Contains(k, target))
    ensures forall k :: k in m ==> m[k] == c.toc[k]
  {
    var found := SearchInstruments(c, target);
    map k | k in found :: c.toc[k]
  }
}

=== FILE: Designator.dfy ===
/**
 The reference-designator check of `UFrame.validate_reference_designator`:
 an unanchored search for `\w{8,}-\w{5,}-\w{2,}-\w{9,}`.

 `RegexMatch` states what the pattern means, by the positions of its three
 hyphens; `ValidateReferenceDesignator` decides it by scanning word runs.
 */
module Designator {
  import opened Text

  /** The pattern matches a window of `s` whose hyphens sit at `h1 < h2 < h3`:
      eight word characters end at `h1`, the two middle tokens are word
      characters only (at least five and two of them), and nine word
      characters follow `h3`. */
  predicate MatchesWithHyphensAt(s: string, h1: int, h2: int, h3: int) {
    && 8 <= h1 && h1 + 6 <= h2 && h2 + 3 <= h3 && h3 + 10 <= |s|
    && s[h1] == '-' && s[h2] == '-' && s[h3] == '-'
    && AllWord(s[h1 - 8..h1])
    && AllWord(s[h1 + 1..h2])
    && AllWord(s[h2 + 1..h3])
    && AllWord(s[h3 + 1..h3 + 10])
  }

  /** `re.search(r'\w{8,}\-\w{5,}\-\w{2,}\-\w{9,}', s)` finds a match. */
  ghost predicate RegexMatch(s: string) {
    exists h1, h2, h3 :: MatchesWithHyphensAt(s, h1, h2, h3)
  }

  /** Length of the longest run of word characters starting at `i`. */
  function WordRun(s: string, i: nat): (n: nat)
    requires i <= |s|
    ensures i + n <= |s|
    decreases |s| - i
  {
    if i < |s| && IsWordChar(s[i]) then 1 + WordRun(s, i + 1) else 0
  }

  /** The run is made of word characters and ends at a non-word character
      or at the end. */
  lemma {:induction false} WordRunBounds(s: string, i: nat)
    requires i <= |s|
    ensures AllWord(s[i..i + WordRun(s, i)])
    ensures i + WordRun(s, i) == |s| || !IsWordChar(s[i + WordRun(s, i)])
    decreases |s| - i
  {
    if i < |s| && IsWordChar(s[i]) {
      WordRunBounds(s, i + 1);
      var n := WordRun(s, i + 1);
      assert s[i..i + 1 + n] == [s[i]] + s[i + 1..i + 1 + n];
    }
  }

  lemma {:induction false} WordRunExact(s: string, i: nat, j: nat)
    requires i <= j <= |s| && AllWord(s[i..j])
    requires j == |s| || !IsWordChar(s[j])
    ensures WordRun(s, i) == j - i
    decreases j - i
  {
    if i < j {
      assert s[i] == s[i..j][0];
      assert s[i + 1..j] == s[i..j][1..];
      WordRunExact(s, i + 1, j);
    }
  }

  lemma {:induction false} WordRunAtLeast(s: string, i: nat, k: nat)
    requires i + k <= |s| && AllWord(s[i..i + k])
    ensures WordRun(s, i) >= k
    decreases k
  {
    if k > 0 {
      assert s[i] == s[i..i + k][0];
      assert s[i + 1..i + k] == s[i..i + k][1..];
      WordRunAtLeast(s, i + 1, k - 1);
    }
  }

  /** Position just past the run of word characters that follows `h`: where
      the next hyphen must be. */
  function RunEnd(s: string, h: nat): nat
    requires h < |s|
  {
    h + 1 + WordRun(s, h + 1)
  }

  /** The match whose first hyphen is at `h1`: the later hyphens are forced,
      because `\w` cannot cross a hyphen. */
  predicate MatchAt(s: string, h1: nat)
    requires h1 < |s|
  {
    && 8 <= h1 && s[h1] == '-' && AllWord(s[h1 - 8..h1])
    && h1 + 6 <= RunEnd(s, h1) && RunEnd(s, h1) < |s| && s[RunEnd(s, h1)] == '-'
    && RunEnd(s, h1) + 3 <= RunEnd(s, RunEnd(s, h1)) && RunEnd(s, RunEnd(s, h1)) < |s|
    && s[RunEnd(s, RunEnd(s, h1))] == '-'
    && WordRun(s, RunEnd(s, RunEnd(s, h1)) + 1) >= 9
  }

  lemma MatchAtSound(s: string, h1: nat)
    requires h1 < |s| && MatchAt(s, h1)
    ensures RegexMatch(s)
  {
    var h2 := RunEnd(s, h1);
    var h3 := RunEnd(s, h2);
    var n := WordRun(s, h3 + 1);
    WordRunBounds(s, h1 + 1);
    WordRunBounds(s, h2 + 1);
    WordRunBounds(s, h3 + 1);
    assert s[h3 + 1..h3 + 10] == s[h3 + 1..h3 + 1 + n][..9];
    assert MatchesWithHyphensAt(s, h1, h2, h3);
  }

  lemma MatchAtComplete(s: string, h1: int, h2: int, h3: int)
    requires MatchesWithHyphensAt(s, h1, h2, h3)
    ensures MatchAt(s, h1)
  {
    assert !IsWordChar('-');
    WordRunExact(s, h1 + 1, h2);
    WordRunExact(s, h2 + 1, h3);
    WordRunAtLeast(s, h3 + 1, 9);
    assert RunEnd(s, h1) == h2 && RunEnd(s, h2) == h3;
  }

  /** `UFrame.validate_reference_designator`: true exactly when the pattern
      is found somewhere in the string. */
  function ValidateReferenceDesignator(s: string): (b: bool)
    ensures b <==> RegexMatch(s)
  {
    var b := exists h1 | 0 <= h1 < |s| :: MatchAt(s, h1);
    if b then
      var h1 :| 0 <= h1 < |s| && MatchAt(s, h1);
      MatchAtSound(s, h1);
      b
    else
      assert !RegexMatch(s) by {
        if RegexMatch(s) {
          var h1, h2, h3 :| MatchesWithHyphensAt(s, h1, h2, h3);
          MatchAtComplete(s, h1, h2, h3);
        }
      }
      b
  }

  /** A valid designator holds at least three hyphens, so `split('-')` yields
      at least four tokens and `r_tokens[0]` .. `r_tokens[3]` exist. */
  lemma ValidHasFourTokens(s: string)
    requires ValidateReferenceDesignator(s)
    ensures |Split(s, '-')| >= 4
  {
    assert RegexMatch(s);
    var h1, h2, h3 :| MatchesWithHyphensAt(s, h1, h2, h3);
    ThreeSeparators(s, '-', h1, h2, h3);
    SplitCount(s, '-');
  }

  /** The designator `a-b-c-d` built from four hyphen-free tokens. */
  function Designator4(a: string, b: string, c: string, d: string): string {
    a + "-" + b + "-" + c + "-" + d
  }

  /** Splitting `a-b-c-d` on hyphens gives back the four tokens. */
  lemma Designator4Tokens(a: string, b: string, c: string, d: string)
    requires '-' !in a && '-' !in b && '-' !in c && '-' !in d
    ensures Split(Designator4(a, b, c, d), '-') == [a, b, c, d]
  {
    JoinFour(a, b, c, d, "-");
    SplitJoin([a, b, c, d], '-');
  }

  /** The only hyphens of `a-b-c-d` are the three separators. */
  lemma Designator4Hyphens(a: string, b: string, c: string, d: string, k: int)
    requires '-' !in a && '-' !in b && '-' !in c && '-' !in d
    requires 0 <= k < |Designator4(a, b, c, d)| && Designator4(a, b, c, d)[k] == '-'
    ensures k == |a| || k == |a| + 1 + |b| || k == |a| + |b| + |c| + 2
  {
  }

  /** For a fully qualified designator of exactly four word tokens the search
      succeeds exactly when the tokens have at least 8, 5, 2 and 9 characters. */
  lemma FourTokenValidation(a: string, b: string, c: string, d: string)
    requires AllWord(a) && AllWord(b) && AllWord(c) && AllWord(d)
    ensures ValidateReferenceDesignator(Designator4(a, b, c, d))
        <==> |a| >= 8 && |b| >= 5 && |c| >= 2 && |d| >= 9
  {
    var s := Designator4(a, b, c, d);
    var p1, p2, p3 := |a|, |a| + 1 + |b|, |a| + |b| + |c| + 2;
    assert '-' !in a && '-' !in b && '-' !in c && '-' !in d by {
      assert !IsWordChar('-');
    }
    assert s[..p1] == a;
    assert s[p1 + 1..p2] == b;
    assert s[p2 + 1..p3] == c;
    assert s[p3 + 1..] == d;
    if RegexMatch(s) {
      var h1, h2, h3 :| MatchesWithHyphensAt(s, h1, h2, h3);
      Designator4Hyphens(a, b, c, d, h1);
      Designator4Hyphens(a, b, c, d, h2);
      Designator4Hyphens(a, b, c, d, h3);
    }
    if |a| >= 8 && |b| >= 5 && |c| >= 2 && |d| >= 9 {
      assert s[p1 - 8..p1] == a[|a| - 8..];
      assert s[p3 + 1..p3 + 10] == d[..9];
      assert MatchesWithHyphensAt(s, p1, p2, p3);
    }
  }

  lemma SliceOfSlice(s: string, k: nat, t: string, i: nat, j: nat)
    requires k + |t| <= |s| && s[k..k + |t|] == t && i <= j <= |t|
    ensures s[k + i..k + j] == t[i..j]
  {
    forall m | 0 <= m < j - i ensures s[k + i..k + j][m] == t[i..j][m] {
      assert s[k + i + m] == s[k..k + |t|][i + m];
    }
  }

  lemma MatchShift(p: string, t: string, q: string, h1: int, h2: int, h3: int)
    requires MatchesWithHyphensAt(t, h1, h2, h3)
    ensures MatchesWithHyphensAt(p + t + q, |p| + h1, |p| + h2, |p| + h3)
  {
    var s := p + t + q;
    var k := |p|;
    assert s[k..k + |t|] == t;
    SliceOfSlice(s, k, t, h1 - 8, h1);
    SliceOfSlice(s, k, t, h1 + 1, h2);
    SliceOfSlice(s, k, t, h2 + 1, h3);
    SliceOfSlice(s, k, t, h3 + 1, h3 + 10);
  }

  lemma RegexMatchShift(p: string, t: string, q: string)
    requires RegexMatch(t)
    ensures RegexMatch(p + t + q)
  {
    var h1, h2, h3 :| MatchesWithHyphensAt(t, h1, h2, h3);
    MatchShift(p, t, q, h1, h2, h3);
  }

  /** The search is unanchored: text before or after a valid designator does
      not make it invalid, so `XX-GI01SUMO-RII01-02-FLORTD000` passes although
      its first `split('-')` token is `XX`. */
  lemma UnanchoredSearch(p: string, t: string, q: string)
    requires ValidateReferenceDesignator(t)
    ensures ValidateReferenceDesignator(p + t + q)
  {
    RegexMatchShift(p, t, q);
  }
}

=== FILE: Events.dfy ===
/**
 Grouping of instrument deployment events by array subsite, the structure
 the web front end draws its deployment tree from: every deployment of a
 fully qualified instrument becomes a child record under the subsite that
 hosts it.
 */
module Events {
  import opened Text
  import opened Order
  import opened Designator

  /** The `referenceDesignator` object of a deployment event. `vocab` is the
      optional vocabulary entry; `None` stands for JSON null. */
  datatype RefDes = RefDes(subsite: string, node: string, sensor: string,
                           vocab: Option<map<string, string>>)

  /** A deployment event. Dates are milliseconds since the epoch, `None`
      standing for null. */
  datatype Event = Event(refDes: RefDes, startDate: Option<int>, endDate: Option<int>,
                         deploymentNumber: int)

  /** One child of a subsite group: the copied deployment keys, the
      designator, description, class code and formatted dates. */
  datatype Child = Child(
    endDate: Option<int>, startDate: Option<int>, deploymentNumber: int,
    refdes: string, instrument: string, sensor: string, classCode: string,
    startDateTs: Option<string>, endDateTs: Option<string>)

  /** A subsite group: the array code, the subsite name and its children. */
  datatype Subsite = Subsite(array: string, name: string, children: seq<Child>)

  /** `time.strftime('%Y-%m-%dT%H:%M:%S', time.gmtime(seconds))`, which the
      model leaves to the caller. */
  type Formatter = int -> string

  // ---------------------------------------------------------------------------
  // One event
  // ---------------------------------------------------------------------------

  /** An event of a fully qualified designator: subsite, node and sensor are
      all non-empty. */
  predicate Kept(e: Event) {
    e.refDes.subsite != "" && e.refDes.node != "" && e.refDes.sensor != ""
  }

  /** The comprehension that keeps instrument deployments only. */
  function Instruments(events: seq<Event>): seq<Event> {
    Filter(events, Kept)
  }

  /** Python truthiness of the vocabulary: present and non-empty. */
  predicate VocabGiven(r: RefDes) {
    r.vocab.Some? && |r.vocab.value| > 0
  }

  /** What building a child needs: a hyphen in the sensor (its second token
      is read) and an `instrument` entry in a non-empty vocabulary. */
  predicate Convertible(e: Event) {
    '-' in e.refDes.sensor && (VocabGiven(e.refDes) ==> "instrument" in e.refDes.vocab.value)
  }

  /** Python 2 integer division by 1000, which rounds towards minus infinity. */
  function Seconds(ms: int): (s: int)
    ensures s * 1000 <= ms < s * 1000 + 1000
  {
    ms / 1000
  }

  /** A date field rendered for display: null when the field is null or
      zero, else the formatted whole seconds. */
  function Timestamp(ms: Option<int>, format: Formatter): (r: Option<string>)
    ensures r.None? <==> ms.None? || ms.value == 0
    ensures r.Some? ==> exists s :: s * 1000 <= ms.value < s * 1000 + 1000 && r.value == format(s)
  {
    if ms.None? || ms.value == 0 then None
    else
      var s := Seconds(ms.value);
      assert s * 1000 <= ms.value < s * 1000 + 1000 && format(s) == format(s);
      Some(format(s))
  }

  /** The first `n` characters, or all of them when there are fewer. */
  function Take(s: string, n: nat): (r: string)
    ensures |r| <= n && StartsWith(s, r)
    ensures |r| == n || r == s
  {
    if |s| <= n then s else s[..n]
  }

  /** The child record built for one kept event. */
  function ToChild(e: Event, format: Formatter): (c: Child)
    requires Convertible(e)
    ensures c.startDate == e.startDate && c.endDate == e.endDate
    ensures c.deploymentNumber == e.deploymentNumber
    ensures c.sensor == e.refDes.sensor
    ensures c.refdes == e.refDes.subsite + "-" + e.refDes.node + "-" + e.refDes.sensor
    ensures c.instrument == if VocabGiven(e.refDes) then e.refDes.vocab.value["instrument"] else "No Description"
    ensures |Split(e.refDes.sensor, '-')| >= 2 && c.classCode == Take(Split(e.refDes.sensor, '-')[1], 5)
    ensures |c.classCode| <= 5 && '-' !in c.classCode
    ensures c.startDateTs == Timestamp(e.startDate, format)
    ensures c.endDateTs == Timestamp(e.endDate, format)
  {
    var r := e.refDes;
    var tokens := Split(r.sensor, '-');
    SplitCount(r.sensor, '-');
    CountCharZero(r.sensor, '-');
    Child(e.endDate, e.startDate, e.deploymentNumber,
          r.subsite + "-" + r.node + "-" + r.sensor,
          if VocabGiven(r) then r.vocab.value["instrument"] else "No Description",
          r.sensor, Take(tokens[1], 5),
          Timestamp(e.startDate, format), Timestamp(e.endDate, format))
  }

  /** The usual sensor `pp-qqqqq...`: the designator has the four tokens a
      reference designator has, and the class code is the start of the
      sensor's second token. */
  lemma ChildOfTwoPartSensor(e: Event, format: Formatter, p: string, q: string)
    requires e.refDes.sensor == p + "-" + q
    requires '-' !in p && '-' !in q && '-' !in e.refDes.subsite && '-' !in e.refDes.node
    requires Convertible(e)
    ensures var c := ToChild(e, format);
      c.classCode == Take(q, 5)
      && c.refdes == Designator4(e.refDes.subsite, e.refDes.node, p, q)
      && Split(c.refdes, '-') == [e.refDes.subsite, e.refDes.node, p, q]
  {
    var s, n := e.refDes.subsite, e.refDes.node;
    JoinTwo(p, q, "-");
    SplitJoin([p, q], '-');
    assert s + "-" + n + "-" + (p + "-" + q) == Designator4(s, n, p, q);
    Designator4Tokens(s, n, p, q);
  }

  // ---------------------------------------------------------------------------
  // The grouping loop
  // ---------------------------------------------------------------------------

  /** `[s['name'] for s in subsites]`. */
  function Names(subsites: seq<Subsite>): (r: seq<string>)
    ensures |r| == |subsites| && forall i :: 0 <= i < |r| ==> r[i] == subsites[i].name
  {
    seq(|subsites|, i requires 0 <= i < |subsites| => subsites[i].name)
  }

  /** One iteration of the loop: open a group for a new subsite, then
      append the event's child to the group of its subsite. */
  function AddEvent(subsites: seq<Subsite>, e: Event, format: Formatter): seq<Subsite>
    requires Convertible(e)
  {
    var name := e.refDes.subsite;
    var withGroup := if name !in Names(subsites) then subsites + [Subsite(Take(name, 2), name, [])]
                  else subsites;
    assert name in Names(withGroup) by {
      assert Names(withGroup)[|Names(withGroup)| - 1] == name || name in Names(subsites);
      if name in Names(subsites) {
        var k :| 0 <= k < |subsites| && subsites[k].name == name;
        assert Names(withGroup)[k] == name;
      }
    }
    var i := IndexOf(Names(withGroup), name);
    withGroup[i := withGroup[i].(children := withGroup[i].children + [ToChild(e, format)])]
  }

  /** The loop over the kept events, in order. */
  function Grouped(kept: seq<Event>, format: Formatter): seq<Subsite>
    requires forall k :: 0 <= k < |kept| ==> Convertible(kept[k])
    decreases |kept|
  {
    if |kept| == 0 then []
    else AddEvent(Grouped(kept[..|kept| - 1], format), kept[|kept| - 1], format)
  }

  /** `group_instrument_deployment_events_by_subsite`. */
  function GroupBySubsite(events: seq<Event>, format: Formatter): seq<Subsite>
    requires forall k :: 0 <= k < |Instruments(events)| ==> Convertible(Instruments(events)[k])
  {
    Grouped(Instruments(events), format)
  }

  // ---------------------------------------------------------------------------
  // What the grouping means
  // ---------------------------------------------------------------------------

  /** The subsite of every event, in order. */
  function SubsitesOf(kept: seq<Event>): (r: seq<string>)
    ensures |r| == |kept| && forall k :: 0 <= k < |r| ==> r[k] == kept[k].refDes.subsite
  {
    seq(|kept|, k requires 0 <= k < |kept| => kept[k].refDes.subsite)
  }

  /** The children of subsite `name`: one per event of that subsite, in
      input order. */
  function ChildrenOf(kept: seq<Event>, name: string, format: Formatter): seq<Child>
    requires forall k :: 0 <= k < |kept| ==> Convertible(kept[k])
    decreases |kept|
  {
    if |kept| == 0 then []
    else
      var e := kept[|kept| - 1];
      ChildrenOf(kept[..|kept| - 1], name, format)
        + (if e.refDes.subsite == name then [ToChild(e, format)] else [])
  }

  /** The grouping described subsite by subsite: one group per distinct
      subsite in order of first appearance, its array code the subsite's
      first two characters, its children those of its own events. */
  function Reference(kept: seq<Event>, format: Formatter): seq<Subsite>
    requires forall k :: 0 <= k < |kept| ==> Convertible(kept[k])
  {
    var names := Dedup(SubsitesOf(kept));
    seq(|names|, i requires 0 <= i < |names| =>
      Subsite(Take(names[i], 2), names[i], ChildrenOf(kept, names[i], format)))
  }

  /** The reference after one more event: a new subsite is added at the
      end, and the event's child is appended to its subsite's children. */
  lemma {:induction false} ReferenceSnoc(init: seq<Event>, e: Event, format: Formatter)
    requires forall k :: 0 <= k < |init| ==> Convertible(init[k])
    requires Convertible(e)
    ensures var kept := init + [e];
      var d := Dedup(SubsitesOf(init));
      Dedup(SubsitesOf(kept)) == (if e.refDes.subsite in d then d else d + [e.refDes.subsite])
      && forall m :: ChildrenOf(kept, m, format)
           == ChildrenOf(init, m, format) + (if e.refDes.subsite == m then [ToChild(e, format)] else [])
  {
    var kept := init + [e];
    assert kept[..|kept| - 1] == init;
    assert SubsitesOf(kept)[..|kept| - 1] == SubsitesOf(init);
  }

  /** The groups of the reference carry its names in order. */
  lemma NamesOfReference(kept: seq<Event>, format: Formatter)
    requires forall k :: 0 <= k < |kept| ==> Convertible(kept[k])
    ensures Names(Reference(kept, format)) == Dedup(SubsitesOf(kept))
  {
  }

  /** One loop iteration on the reference of the earlier events gives the
      reference of the events so far, for a subsite seen before. */
  lemma {:induction false} AddEventSeen(init: seq<Event>, e: Event, format: Formatter)
    requires forall k :: 0 <= k < |init| ==> Convertible(init[k])
    requires Convertible(e)
    requires e.refDes.subsite in Dedup(SubsitesOf(init))
    ensures AddEvent(Reference(init, format), e, format) == Reference(init + [e], format)
  {
    var g := Reference(init, format);
    var d := Dedup(SubsitesOf(init));
    var name := e.refDes.subsite;
    NamesOfReference(init, format);
    ReferenceSnoc(init, e, format);
    NoDupIndex(d, name);
    var i := IndexOf(Names(g), name);
    var r := Reference(init + [e], format);
    var a := AddEvent(g, e, format);
    assert a == g[i := g[i].(children := g[i].children + [ToChild(e, format)])];
    assert |a| == |r|;
    forall j | 0 <= j < |d| ensures a[j] == r[j] {
      assert r[j] == Subsite(Take(d[j], 2), d[j], ChildrenOf(init + [e], d[j], format));
    }
  }

  /** A subsite without events has no children. */
  lemma {:induction false} ChildrenOfAbsent(kept: seq<Event>, name: string, format: Formatter)
    requires forall k :: 0 <= k < |kept| ==> Convertible(kept[k])
    requires name !in SubsitesOf(kept)
    ensures ChildrenOf(kept, name, format) == []
    decreases |kept|
  {
    if |kept| > 0 {
      var init := kept[..|kept| - 1];
      assert SubsitesOf(kept)[|kept| - 1] == kept[|kept| - 1].refDes.subsite;
      assert name !in SubsitesOf(init) by {
        assert forall k :: 0 <= k < |init| ==> SubsitesOf(init)[k] == SubsitesOf(kept)[k];
      }
      ChildrenOfAbsent(init, name, format);
    }
  }

  /** The same for a subsite not seen before. */
  lemma {:induction false} AddEventNew(init: seq<Event>, e: Event, format: Formatter)
    requires forall k :: 0 <= k < |init| ==> Convertible(init[k])
    requires Convertible(e)
    requires e.refDes.subsite !in Dedup(SubsitesOf(init))
    ensures AddEvent(Reference(init, format), e, format) == Reference(init + [e], format)
  {
    NamesOfReference(init, format);
    AddEventOpensGroup(Reference(init, format), e, format);
    ReferenceOpensGroup(init, e, format);
  }

  /** In the reference, an event of a new subsite adds one group at the
      end, holding just its child; the earlier groups stay as they were. */
  lemma ReferenceOpensGroup(init: seq<Event>, e: Event, format: Formatter)
    requires forall k :: 0 <= k < |init| ==> Convertible(init[k])
    requires Convertible(e)
    requires e.refDes.subsite !in Dedup(SubsitesOf(init))
    ensures Reference(init + [e], format)
      == Reference(init, format) + [Subsite(Take(e.refDes.subsite, 2), e.refDes.subsite, [ToChild(e, format)])]
  {
    var d := Dedup(SubsitesOf(init));
    var name := e.refDes.subsite;
    var c := ToChild(e, format);
    var a := Reference(init, format) + [Subsite(Take(name, 2), name, [c])];
    ReferenceSnoc(init, e, format);
    ChildrenOfAbsent(init, name, format);
    var r := Reference(init + [e], format);
    var d' := Dedup(SubsitesOf(init + [e]));
    assert d' == d + [name];
    assert |r| == |a|;
    forall j | 0 <= j < |r| ensures r[j] == a[j] {
      if j < |d| {
        assert d'[j] == d[j] && d[j] != name;
        assert ChildrenOf(init + [e], d[j], format) == ChildrenOf(init, d[j], format);
      } else {
        assert ChildrenOf(init + [e], name, format) == [] + [c];
      }
    }
  }

  /** An event of a subsite without a group opens a new group at the end,
      holding just its child. */
  lemma AddEventOpensGroup(g: seq<Subsite>, e: Event, format: Formatter)
    requires Convertible(e) && e.refDes.subsite !in Names(g)
    ensures AddEvent(g, e, format) == g + [Subsite(Take(e.refDes.subsite, 2), e.refDes.subsite, [ToChild(e, format)])]
  {
    var name := e.refDes.subsite;
    var withGroup := g + [Subsite(Take(name, 2), name, [])];
    assert Names(withGroup) == Names(g) + [name];
    IndexOfSnoc(Names(g), name, name);
    assert withGroup[|g|].children + [ToChild(e, format)] == [ToChild(e, format)];
  }

  /** The loop computes the reference grouping. */
  lemma {:induction false} GroupedIsReference(kept: seq<Event>, format: Formatter)
    requires forall k :: 0 <= k < |kept| ==> Convertible(kept[k])
    ensures Grouped(kept, format) == Reference(kept, format)
    decreases |kept|
  {
    if |kept| > 0 {
      var init := kept[..|kept| - 1];
      var e := kept[|kept| - 1];
      assert kept == init + [e];
      GroupedIsReference(init, format);
      if e.refDes.subsite in Dedup(SubsitesOf(init)) {
        AddEventSeen(init, e, format);
      } else {
        AddEventNew(init, e, format);
      }
    }
  }

  /** Number of children over all groups. */
  function ChildCount(subsites: seq<Subsite>): nat
    decreases |subsites|
  {
    if |subsites| == 0 then 0 else |subsites[0].children| + ChildCount(subsites[1..])
  }

  /** The child count grows with each appended child. */
  lemma {:induction false} ChildCountAppend(subsites: seq<Subsite>, i: nat, c: Child)
    requires i < |subsites|
    ensures ChildCount(subsites[i := subsites[i].(children := subsites[i].children + [c])])
         == ChildCount(subsites) + 1
    decreases |subsites|
  {
    var u := subsites[i := subsites[i].(children := subsites[i].children + [c])];
    if i > 0 {
      ChildCountAppend(subsites[1..], i - 1, c);
      assert u[1..] == subsites[1..][i - 1 := subsites[i].(children := subsites[i].children + [c])];
    } else {
      assert u[1..] == subsites[1..];
    }
  }

  /** A new empty group leaves the child count unchanged. */
  lemma {:induction false} ChildCountEmptyGroup(subsites: seq<Subsite>, s: Subsite)
    requires s.children == []
    ensures ChildCount(subsites + [s]) == ChildCount(subsites)
    decreases |subsites|
  {
    if |subsites| > 0 {
      assert (subsites + [s])[1..] == subsites[1..] + [s];
      ChildCountEmptyGroup(subsites[1..], s);
    } else {
      assert ([s])[1..] == [];
    }
  }

  /** Every kept event becomes exactly one child. */
  lemma {:induction false} EveryEventPlaced(kept: seq<Event>, format: Formatter)
    requires forall k :: 0 <= k < |kept| ==> Convertible(kept[k])
    ensures ChildCount(Grouped(kept, format)) == |kept|
    decreases |kept|
  {
    if |kept| > 0 {
      var init := kept[..|kept| - 1];
      var e := kept[|kept| - 1];
      var g := Grouped(init, format);
      EveryEventPlaced(init, format);
      var name := e.refDes.subsite;
      var withGroup := if name !in Names(g) then g + [Subsite(Take(name, 2), name, [])] else g;
      if name !in Names(g) {
        ChildCountEmptyGroup(g, Subsite(Take(name, 2), name, []));
      }
      assert name in Names(withGroup) by {
        if name in Names(g) {
          var k :| 0 <= k < |Names(g)| && Names(g)[k] == name;
          assert Names(withGroup)[k] == name;
        } else {
          assert Names(withGroup)[|g|] == name;
        }
      }
      ChildCountAppend(withGroup, IndexOf(Names(withGroup), name), ToChild(e, format));
    }
  }

  /** The subsites of the kept events are those of the fully qualified
      events among all of them. */
  lemma KeptSubsites(events: seq<Event>, n: string)
    ensures n in SubsitesOf(Instruments(events))
        <==> exists e :: e in events && Kept(e) && e.refDes.subsite == n
  {
    var kept := Instruments(events);
    FilterSubset(events, Kept);
    if n in SubsitesOf(kept) {
      var k :| 0 <= k < |kept| && SubsitesOf(kept)[k] == n;
      assert kept[k] in kept;
    }
    if exists e :: e in events && Kept(e) && e.refDes.subsite == n {
      var e :| e in events && Kept(e) && e.refDes.subsite == n;
      var k :| 0 <= k < |kept| && kept[k] == e;
      assert SubsitesOf(kept)[k] == n;
    }
  }

  /** The groups of the whole function: distinct subsite names, exactly the
      subsites of the instrument events, with every instrument event placed
      once. */
  lemma GroupBySubsiteShape(events: seq<Event>, format: Formatter)
    requires forall k :: 0 <= k < |Instruments(events)| ==> Convertible(Instruments(events)[k])
    ensures var r := GroupBySubsite(events, format);
      NoDup(Names(r))
      && (forall n :: n in Names(r) <==> exists e :: e in events && Kept(e) && e.refDes.subsite == n)
      && ChildCount(r) == |Instruments(events)|
  {
    var kept := Instruments(events);
    GroupedIsReference(kept, format);
    NamesOfReference(kept, format);
    EveryEventPlaced(kept, format);
    forall n ensures n in Names(GroupBySubsite(events, format))
        <==> exists e :: e in events && Kept(e) && e.refDes.subsite == n {
      KeptSubsites(events, n);
    }
  }
}

=== FILE: Json.dfy ===
/**
 Decoded JSON values, as `json.load` hands them to the scripts.
 */
module Json {

  datatype Json =
    | JNull
    | JBool(b: bool)
    | JNumber(n: int)
    | JString(s: string)
    | JArray(items: seq<Json>)
    | JObject(fields: map<string, Json>)
}

=== FILE: Order.dfy ===
/**
 Python's ordering of strings (lexicographic by character code), `list.sort()`
 on lists of strings, and the "append unless already present" de-duplication
 loop the client writes by hand.
 */
module Order {

  /** Python `a <= b` on strings. */
  predicate Le(a: string, b: string)
    decreases |a|
  {
    |a| == 0 || (|b| > 0 && (a[0] < b[0] || (a[0] == b[0] && Le(a[1..], b[1..]))))
  }

  lemma {:induction false} LeReflexive(a: string)
    ensures Le(a, a)
    decreases |a|
  {
    if |a| > 0 {
      LeReflexive(a[1..]);
    }
  }

  lemma {:induction false} LeAntisymmetric(a: string, b: string)
    requires Le(a, b) && Le(b, a)
    ensures a == b
    decreases |a|
  {
    if |a| > 0 {
      LeAntisymmetric(a[1..], b[1..]);
      assert a == [a[0]] + a[1..];
      assert b == [b[0]] + b[1..];
    }
  }

  lemma {:induction false} LeTransitive(a: string, b: string, c: string)
    requires Le(a, b) && Le(b, c)
    ensures Le(a, c)
    decreases |a|
  {
    if |a| > 0 && a[0] == b[0] && b[0] == c[0] {
      LeTransitive(a[1..], b[1..], c[1..]);
    }
  }

  lemma {:induction false} LeTotal(a: string, b: string)
    ensures Le(a, b) || Le(b, a)
    decreases |a|
  {
    if |a| > 0 && |b| > 0 && a[0] == b[0] {
      LeTotal(a[1..], b[1..]);
    }
  }

  predicate Sorted(xs: seq<string>) {
    forall i, j :: 0 <= i < j < |xs| ==> Le(xs[i], xs[j])
  }

  /** Sorted without repetitions: the shape of every index list the client keeps. */
  predicate StrictlySorted(xs: seq<string>) {
    Sorted(xs) && NoDup(xs)
  }

  predicate NoDup<T(==)>(xs: seq<T>) {
    forall i, j :: 0 <= i < j < |xs| ==> xs[i] != xs[j]
  }

  // ---------------------------------------------------------------------------
  // `list.sort()`
  // ---------------------------------------------------------------------------

  function Insert(x: string, xs: seq<string>): (r: seq<string>)
    requires Sorted(xs)
    ensures Sorted(r)
    ensures multiset(r) == multiset(xs) + multiset{x}
    decreases |xs|
  {
    if |xs| == 0 then [x]
    else if Le(x, xs[0]) then
      assert forall j :: 0 < j < |xs| ==> Le(x, xs[j]) by {
        forall j | 0 < j < |xs| ensures Le(x, xs[j]) {
          LeTransitive(x, xs[0], xs[j]);
        }
      }
      [x] + xs
    else
      var t := Insert(x, xs[1..]);
      assert xs == [xs[0]] + xs[1..];
      LeTotal(x, xs[0]);
      assert forall j :: 0 <= j < |t| ==> Le(xs[0], t[j]) by {
        forall j | 0 <= j < |t| ensures Le(xs[0], t[j]) {
          assert t[j] in multiset(xs[1..]) + multiset{x};
          if t[j] != x {
            assert t[j] in xs[1..];
          }
        }
      }
      [xs[0]] + t
  }

  /** Python `list.sort()` on strings: an ordered permutation of the input. */
  function Sort(xs: seq<string>): (r: seq<string>)
    ensures Sorted(r)
    ensures multiset(r) == multiset(xs)
    decreases |xs|
  {
    if |xs| == 0 then []
    else
      assert xs == [xs[0]] + xs[1..];
      Insert(xs[0], Sort(xs[1..]))
  }

  /** Two ordered lists with the same elements (counted with multiplicity) are
      equal: the result of sorting does not depend on the input order. */
  lemma {:induction false} SortedPermutationsEqual(a: seq<string>, b: seq<string>)
    requires Sorted(a) && Sorted(b)
    requires multiset(a) == multiset(b)
    ensures a == b
    decreases |a|
  {
    if |a| > 0 {
      assert |b| > 0 by {
        assert |multiset(b)| == |multiset(a)| == |a|;
      }
      var i := MemberIndex(b, a[0]);
      var j := MemberIndex(a, b[0]);
      SortedHeadLeast(b, i);
      SortedHeadLeast(a, j);
      LeAntisymmetric(a[0], b[0]);
      TailMultiset(a);
      TailMultiset(b);
      SortedTail(a);
      SortedTail(b);
      SortedPermutationsEqual(a[1..], b[1..]);
      assert a == [a[0]] + a[1..];
      assert b == [b[0]] + b[1..];
    }
  }

  /** A position holding an element that the list counts at least once. */
  lemma MemberIndex(a: seq<string>, x: string) returns (i: nat)
    requires x in multiset(a)
    ensures i < |a| && a[i] == x
  {
    assert x in a;
    i :| 0 <= i < |a| && a[i] == x;
  }

  /** The tail of an ordered list is ordered. */
  lemma SortedTail(a: seq<string>)
    requires Sorted(a) && |a| > 0
    ensures Sorted(a[1..])
  {
    forall i, j | 0 <= i < j < |a[1..]| ensures Le(a[1..][i], a[1..][j]) {
      assert a[1..][i] == a[i + 1] && a[1..][j] == a[j + 1];
    }
  }

  /** The head of an ordered list is its least element. */
  lemma SortedHeadLeast(a: seq<string>, k: nat)
    requires Sorted(a) && k < |a|
    ensures Le(a[0], a[k])
  {
    if k == 0 {
      LeReflexive(a[0]);
    }
  }

  /** The tail holds the elements of the list less its head. */
  lemma TailMultiset<T>(a: seq<T>)
    requires |a| > 0
    ensures multiset(a[1..]) == multiset(a) - multiset{a[0]}
  {
    assert a == [a[0]] + a[1..];
  }

  /** Sorting a list that is already in order leaves it unchanged. */
  lemma SortSorted(xs: seq<string>)
    requires Sorted(xs)
    ensures Sort(xs) == xs
  {
    SortedPermutationsEqual(Sort(xs), xs);
  }

  /** Two ordered lists, every element of the first at most every element of
      the second, concatenate to an ordered list. */
  lemma SortedConcat(a: seq<string>, b: seq<string>)
    requires Sorted(a) && Sorted(b)
    requires forall i, j :: 0 <= i < |a| && 0 <= j < |b| ==> Le(a[i], b[j])
    ensures Sorted(a + b)
  {
    var r := a + b;
    forall i, j | 0 <= i < j < |r| ensures Le(r[i], r[j]) {
      if j < |a| {
        assert r[i] == a[i] && r[j] == a[j];
      } else if i < |a| {
        assert r[i] == a[i] && r[j] == b[j - |a|];
      } else {
        assert r[i] == b[i - |a|] && r[j] == b[j - |a|];
      }
    }
  }

  // ---------------------------------------------------------------------------
  // The hand-written "skip if already present, else append" loop
  // ---------------------------------------------------------------------------

  /** Keeps the first occurrence of every element, in order of first appearance. */
  function Dedup(xs: seq<string>): (r: seq<string>)
    ensures NoDup(r)
    ensures forall x :: x in r <==> x in xs
    decreases |xs|
  {
    if |xs| == 0 then []
    else
      var d := Dedup(xs[..|xs| - 1]);
      assert xs == xs[..|xs| - 1] + [xs[|xs| - 1]];
      if xs[|xs| - 1] in d then d else d + [xs[|xs| - 1]]
  }

  /** `list.index`: the first position holding `x`. */
  function IndexOf(xs: seq<string>, x: string): (i: nat)
    requires x in xs
    ensures i < |xs| && xs[i] == x
    ensures forall j :: 0 <= j < i ==> xs[j] != x
  {
    if xs[0] == x then 0 else 1 + IndexOf(xs[1..], x)
  }

  /** Appending an element moves no first position, and a new element is
      first found at the end. */
  lemma IndexOfSnoc(init: seq<string>, y: string, x: string)
    requires x in init || x == y
    ensures x in init ==> IndexOf(init + [y], x) == IndexOf(init, x)
    ensures x !in init ==> IndexOf(init + [y], x) == |init|
  {
    var xs := init + [y];
    var i := IndexOf(xs, x);
    if x in init {
      var k := IndexOf(init, x);
      assert xs[k] == x;
    } else {
      assert forall j :: 0 <= j < |init| ==> xs[j] != x;
    }
  }

  /** `Dedup` lists the elements in order of first appearance: an element
      listed earlier first occurs earlier in the input. */
  lemma {:induction false} DedupFirstAppearance(xs: seq<string>)
    ensures forall i, j :: 0 <= i < j < |Dedup(xs)| ==> IndexOf(xs, Dedup(xs)[i]) < IndexOf(xs, Dedup(xs)[j])
    decreases |xs|
  {
    if |xs| > 0 {
      var init, last := xs[..|xs| - 1], xs[|xs| - 1];
      assert xs == init + [last];
      DedupFirstAppearance(init);
      var d, r := Dedup(init), Dedup(xs);
      forall x | x in d ensures IndexOf(xs, x) == IndexOf(init, x) && IndexOf(init, x) < |init| {
        IndexOfSnoc(init, last, x);
      }
      if last !in d {
        assert r == d + [last];
        IndexOfSnoc(init, last, last);
        forall i, j | 0 <= i < j < |r| ensures IndexOf(xs, r[i]) < IndexOf(xs, r[j]) {
          assert r[i] == d[i] && r[i] in d;
          if j < |d| {
            assert r[j] == d[j] && r[j] in d;
          }
        }
      } else {
        assert r == d;
        forall i, j | 0 <= i < j < |r| ensures IndexOf(xs, r[i]) < IndexOf(xs, r[j]) {
          assert r[i] in d && r[j] in d;
        }
      }
    }
  }

  /** In a list without duplicates, `list.index` finds the only position. */
  lemma NoDupIndex(xs: seq<string>, x: string)
    requires NoDup(xs) && x in xs
    ensures forall j :: 0 <= j < |xs| ==> (xs[j] == x <==> j == IndexOf(xs, x))
  {
  }

  /** A duplicate-free list counts every element once. */
  lemma {:induction false} NoDupMultiset<T>(xs: seq<T>, x: T)
    requires NoDup(xs)
    ensures multiset(xs)[x] == if x in xs then 1 else 0
    decreases |xs|
  {
    if |xs| > 0 {
      assert xs == [xs[0]] + xs[1..];
      NoDupMultiset(xs[1..], x);
    }
  }

  /** An element at two positions is counted at least twice. */
  lemma RepeatCounted<T>(r: seq<T>, i: nat, j: nat)
    requires i < j < |r| && r[i] == r[j]
    ensures multiset(r)[r[i]] >= 2
  {
    assert r == r[..i] + [r[i]] + r[i + 1..j] + [r[j]] + r[j + 1..];
  }

  /** A permutation of a duplicate-free list is duplicate-free. */
  lemma PermutationNoDup(r: seq<string>, d: seq<string>)
    requires NoDup(d) && multiset(r) == multiset(d)
    ensures NoDup(r)
  {
    forall i, j | 0 <= i < j < |r| ensures r[i] != r[j] {
      if r[i] == r[j] {
        NoDupMultiset(d, r[i]);
        RepeatCounted(r, i, j);
      }
    }
  }

  /** Sorted de-duplicated copy of a list: Python `sorted(set(xs))`. */
  function SortedSet(xs: seq<string>): (r: seq<string>)
    ensures StrictlySorted(r)
    ensures forall x :: x in r <==> x in xs
  {
    var d := Dedup(xs);
    var r := Sort(d);
    assert forall x :: x in r <==> x in d by {
      forall x ensures x in r <==> x in d {
        assert x in r <==> x in multiset(r);
        assert x in d <==> x in multiset(d);
      }
    }
    PermutationNoDup(r, d);
    r
  }

  /** An ordered duplicate-free list is determined by its set of elements. */
  lemma {:induction false} StrictlySortedUnique(a: seq<string>, b: seq<string>)
    requires StrictlySorted(a) && StrictlySorted(b)
    requires forall x :: x in a <==> x in b
    ensures a == b
  {
    forall x ensures multiset(a)[x] == multiset(b)[x] {
      NoDupMultiset(a, x);
      NoDupMultiset(b, x);
    }
    assert multiset(a) == multiset(b);
    SortedPermutationsEqual(a, b);
  }

  /** Keeping the elements of an ordered list that satisfy a test keeps it ordered. */
  lemma {:induction false} FilterPreservesOrder(xs: seq<string>, keep: string -> bool)
    requires StrictlySorted(xs)
    ensures StrictlySorted(Filter(xs, keep))
    decreases |xs|
  {
    if |xs| > 0 {
      FilterPreservesOrder(xs[1..], keep);
      var f := Filter(xs[1..], keep);
      FilterSubset(xs[1..], keep);
      forall k | 0 <= k < |f| ensures Le(xs[0], f[k]) && xs[0] != f[k] {
        assert f[k] in xs[1..];
        var m :| 0 <= m < |xs[1..]| && xs[1..][m] == f[k];
        assert xs[m + 1] == f[k];
      }
      if keep(xs[0]) {
        assert Filter(xs, keep) == [xs[0]] + f;
      } else {
        assert Filter(xs, keep) == f;
      }
    }
  }

  /** List comprehension `[x for x in xs if keep(x)]`. */
  function Filter<T>(xs: seq<T>, keep: T -> bool): (r: seq<T>)
    decreases |xs|
  {
    if |xs| == 0 then []
    else (if keep(xs[0]) then [xs[0]] else []) + Filter(xs[1..], keep)
  }

  /** The comprehension keeps exactly the elements that pass the test. */
  lemma {:induction false} FilterSubset<T>(xs: seq<T>, keep: T -> bool)
    ensures forall y :: y in Filter(xs, keep) <==> y in xs && keep(y)
    ensures |Filter(xs, keep)| <= |xs|
    decreases |xs|
  {
    if |xs| > 0 {
      FilterSubset(xs[1..], keep);
      assert xs == [xs[0]] + xs[1..];
    }
  }

  /** A list whose every element passes the test comes through unchanged. */
  lemma {:induction false} FilterKeepsAll<T>(xs: seq<T>, keep: T -> bool)
    requires forall k :: 0 <= k < |xs| ==> keep(xs[k])
    ensures Filter(xs, keep) == xs
    decreases |xs|
  {
    if |xs| > 0 {
      FilterKeepsAll(xs[1..], keep);
      assert xs == [xs[0]] + xs[1..];
    }
  }
}

=== FILE: Query.dfy ===
/**
 `UFrame.instrument_to_query`: the data-request URLs for every stream of every
 instrument whose designator contains a search string.

 Times are abstract: parsing a time string, subtracting a `relativedelta`
 and formatting a time are calls into `dateutil` and `datetime`, supplied by
 the caller as a `Clock`.
 */
module Query {
  import opened Text
  import opened Order
  import opened Designator
  import opened Catalog

  /** A point in time, ordered as `datetime` values are. */
  type Time = int

  /** The date library as the query builder uses it. `parse` is `None` where
      `dateutil.parser.parse` raises `ValueError`; `minus(t, unit, amount)` is
      `t - relativedelta(**{unit: amount})`; `format` is
      `strftime('%Y-%m-%dT%H:%M:%S.%fZ')`. */
  datatype Clock = Clock(
    parse: string -> Option<Time>,
    minus: (Time, string, int) -> Time,
    format: Time -> string)

  /** The keyword arguments of `instrument_to_query`. An absent `telemetry`,
      `time_delta_type`, `end_ts`, `user` or `email` is `""` and an absent
      `time_delta_value` is `0` (the source only tests them for truth);
      `begin_ts` keeps `None` apart from `""`, because a given `end_ts` makes
      the source parse `begin_ts` whatever it is. The `annotations` argument
      is never read. */
  datatype QueryOptions = QueryOptions(
    refDes: string,
    telemetry: string,
    deltaType: string,
    deltaValue: int,
    beginTs: Option<string>,
    endTs: string,
    timeCheck: bool,
    execDpa: bool,
    applicationType: string,
    provenance: bool,
    limit: int,
    user: string,
    email: string)

  /** The defaults of the signature, for a given search string. */
  function DefaultOptions(refDes: string): QueryOptions {
    QueryOptions(refDes, "", "", 0, None, "", true, true, "netcdf", true, -1, "", "")
  }

  /** `_valid_relativedeltatypes` */
  const RelativeDeltaUnits: seq<string> := ["years", "months", "weeks", "days", "hours", "minutes", "seconds"]

  /** `time_delta_type and time_delta_value` */
  predicate DeltaRequested(o: QueryOptions) {
    o.deltaType != "" && o.deltaValue != 0
  }

  /** `begin_ts` is truthy. */
  predicate BeginGiven(o: QueryOptions) {
    o.beginTs.Some? && o.beginTs.value != ""
  }

  /** What `parser.parse(None)` would need: a given `end_ts` comes with a
      `begin_ts` to parse (the source raises `AttributeError` otherwise). */
  predicate WellFormed(o: QueryOptions) {
    o.endTs != "" ==> o.beginTs.Some?
  }

  /** The explicit bounds `begin_dt` and `end_dt` after parsing. */
  datatype Bounds = Bounds(begin: Option<Time>, end: Option<Time>)

  /** Parsing of the explicit bounds; `None` stands for the early return after
      a `ValueError`. A given `end_ts` is answered by parsing `begin_ts` again,
      so the text of `end_ts` is never read. */
  function ParseBounds(o: QueryOptions, clock: Clock): (b: Option<Bounds>)
    requires WellFormed(o)
    ensures b.Some? <==> (BeginGiven(o) || o.endTs != "" ==> clock.parse(o.beginTs.value).Some?)
    ensures b.Some? ==> (b.value.begin.Some? <==> BeginGiven(o)) && (b.value.end.Some? <==> o.endTs != "")
    ensures b.Some? && b.value.begin.Some? ==> b.value.begin == clock.parse(o.beginTs.value)
    ensures b.Some? && b.value.end.Some? ==> b.value.end == clock.parse(o.beginTs.value)
  {
    var begin := if BeginGiven(o) then clock.parse(o.beginTs.value) else None;
    if BeginGiven(o) && begin.None? then None
    else
      var end := if o.endTs != "" then clock.parse(o.beginTs.value) else None;
      if o.endTs != "" && end.None? then None
      else Some(Bounds(begin, end))
  }

  /** The query gets past the early returns that follow the search: the delta
      unit is accepted and the explicit bounds parse. */
  predicate Proceeds(o: QueryOptions, clock: Clock)
    requires WellFormed(o)
  {
    !(DeltaRequested(o) && o.deltaType !in RelativeDeltaUnits) && ParseBounds(o, clock).Some?
  }

  /** The `(dt0, dt1)` pair for a stream that begins at `streamBegin` and ends
      at `streamEnd`, as it is formatted into the URL. */
  function RequestWindow(o: QueryOptions, bounds: Bounds, streamBegin: Time, streamEnd: Time, clock: Clock): (Time, Time) {
    if DeltaRequested(o) then (clock.minus(streamEnd, o.deltaType, o.deltaValue), streamEnd)
    else
      (if bounds.begin.Some? then bounds.begin.value else streamBegin,
       if bounds.end.Some? then bounds.end.value else streamEnd)
  }

  /** The `time_check` block: an end after the stream's end is pulled back to
      it; a start before the stream's beginning is reported but not moved. */
  function TimeCheck(w: (Time, Time), streamBegin: Time, streamEnd: Time): (v: (Time, Time))
    ensures v.0 == w.0
    ensures v.1 <= streamEnd && v.1 <= w.1
    ensures w.1 <= streamEnd ==> v.1 == w.1
    ensures w.1 > streamEnd ==> v.1 == streamEnd
  {
    if w.1 > streamEnd then (w.0, streamEnd) else w
  }

  /** `str(b).lower()` */
  function BoolText(b: bool): string {
    if b then "true" else "false"
  }

  /** `t0/t1/t2-t3/method/stream`: the part of a data request between the
      service URL and the `?`. */
  function RequestPath(tokens: seq<string>, methodName: string, streamName: string): string
    requires |tokens| >= 4
  {
    tokens[0] + "/" + tokens[1] + "/" + tokens[2] + "-" + tokens[3] + "/" + methodName + "/" + streamName
  }

  /** The query string, `&user=` and `&email=` only when given. */
  function QueryString(ts0: string, ts1: string, o: QueryOptions): string {
    "beginDT=" + ts0 + "&endDT=" + ts1
    + "&format=application/" + o.applicationType
    + "&limit=" + IntToString(o.limit)
    + "&execDPA=" + BoolText(o.execDpa)
    + "&include_provenance=" + BoolText(o.provenance)
    + (if o.user != "" then "&user=" + o.user else "")
    + (if o.email != "" then "&email=" + o.email else "")
  }

  /** One data-request URL. */
  function DataUrl(service: string, tokens: seq<string>, methodName: string, streamName: string, ts0: string, ts1: string, o: QueryOptions): string
    requires |tokens| >= 4
  {
    service + "/" + RequestPath(tokens, methodName, streamName) + "?" + QueryString(ts0, ts1, o)
  }

  /** `telemetry and stream['method'].find(telemetry) == -1` fails. */
  predicate TelemetryMatches(telemetry: string, methodName: string) {
    telemetry == "" || Find(methodName, telemetry) != -1
  }

  /** One stream of one instrument that the query asks for. */
  datatype Target = Target(designator: string, stream: Stream)

  /** The telemetry test as a predicate on streams. */
  function KeepsStream(telemetry: string): Stream -> bool {
    (s: Stream) => TelemetryMatches(telemetry, s.methodName)
  }

  /** The streams of instrument `k` that pass the telemetry test, in order:
      one target per kept stream entry, in the order of the stream list. */
  function StreamTargets(k: string, streams: seq<Stream>, telemetry: string): (r: seq<Target>)
    ensures forall t :: t in r <==> t.designator == k && t.stream in streams && TelemetryMatches(telemetry, t.stream.methodName)
    ensures var kept := Filter(streams, KeepsStream(telemetry));
      |r| == |kept| && forall i :: 0 <= i < |r| ==> r[i] == Target(k, kept[i])
    decreases |streams|
  {
    if |streams| == 0 then []
    else
      var rest := StreamTargets(k, streams[1..], telemetry);
      var head := if TelemetryMatches(telemetry, streams[0].methodName) then [Target(k, streams[0])] else [];
      var r := head + rest;
      assert forall s :: s in streams <==> s == streams[0] || s in streams[1..];
      var keep := KeepsStream(telemetry);
      assert Filter(streams, keep) == (if keep(streams[0]) then [streams[0]] else []) + Filter(streams[1..], keep);
      if keep(streams[0]) then
        TargetsCons(k, streams[0], Filter(streams[1..], keep), rest);
        r
      else
        assert r == rest;
        r
  }

  /** Prepending a kept stream to a list of streams and its target to their
      targets keeps the targets one per kept stream, in order. */
  lemma TargetsCons(k: string, s: Stream, kept: seq<Stream>, rest: seq<Target>)
    requires |rest| == |kept| && forall i :: 0 <= i < |rest| ==> rest[i] == Target(k, kept[i])
    ensures var r, kept' := [Target(k, s)] + rest, [s] + kept;
      |r| == |kept'| && forall i :: 0 <= i < |r| ==> r[i] == Target(k, kept'[i])
  {
    var r, kept' := [Target(k, s)] + rest, [s] + kept;
    forall i | 0 < i < |r| ensures r[i] == Target(k, kept'[i]) {
      assert r[i] == rest[i - 1] && kept'[i] == kept[i - 1];
    }
  }

  /** The targets of one instrument: none when its designator fails
      validation, else its streams that pass the telemetry test. */
  function InstrumentTargets(toc: map<string, Instrument>, k: string, telemetry: string): (r: seq<Target>)
    requires k in toc
    ensures forall t :: t in r <==>
      t.designator == k && ValidateReferenceDesignator(k) && t.stream in toc[k].streams && TelemetryMatches(telemetry, t.stream.methodName)
    ensures forall i :: 0 <= i < |r| ==> r[i].designator == k
    ensures !ValidateReferenceDesignator(k) ==> r == []
    ensures ValidateReferenceDesignator(k) ==> var kept := Filter(toc[k].streams, KeepsStream(telemetry));
      |r| == |kept| && forall i :: 0 <= i < |r| ==> r[i] == Target(k, kept[i])
  {
    var r := if ValidateReferenceDesignator(k) then StreamTargets(k, toc[k].streams, telemetry) else [];
    assert forall i :: 0 <= i < |r| ==> r[i] in r;
    r
  }

  /** The instruments of `insts` whose designator passes validation, each
      followed by its matching streams. */
  function TargetsOf(toc: map<string, Instrument>, insts: seq<string>, telemetry: string): (r: seq<Target>)
    requires forall k :: k in insts ==> k in toc
    ensures forall t :: t in r <==>
      && t.designator in insts && ValidateReferenceDesignator(t.designator)
      && t.stream in toc[t.designator].streams && TelemetryMatches(telemetry, t.stream.methodName)
    ensures forall i :: 0 <= i < |r| ==> r[i].designator in insts
    decreases |insts|
  {
    if |insts| == 0 then []
    else
      var k := insts[0];
      var here := InstrumentTargets(toc, k, telemetry);
      var rest := TargetsOf(toc, insts[1..], telemetry);
      assert forall x :: x in insts <==> x == k || x in insts[1..];
      forall i | 0 <= i < |here + rest| ensures (here + rest)[i].designator in insts {
        if i < |here| {
        } else {
          assert rest[i - |here|].designator in insts[1..];
        }
      }
      here + rest
  }

  /** The head and tail of a concatenation whose left part is not empty. */
  lemma ConsAppend<T>(a: seq<T>, b: seq<T>)
    requires |a| > 0
    ensures (a + b)[0] == a[0] && (a + b)[1..] == a[1..] + b
  {
  }

  /** Concatenation is associative. */
  lemma AppendAssoc<T>(x: seq<T>, y: seq<T>, z: seq<T>)
    ensures x + (y + z) == (x + y) + z
  {
  }

  /** A list's targets are its first instrument's targets, then the rest's. */
  lemma TargetsOfCons(toc: map<string, Instrument>, insts: seq<string>, telemetry: string)
    requires forall k :: k in insts ==> k in toc
    requires |insts| > 0
    ensures forall k :: k in insts[1..] ==> k in toc
    ensures TargetsOf(toc, insts, telemetry) == InstrumentTargets(toc, insts[0], telemetry) + TargetsOf(toc, insts[1..], telemetry)
  {
  }

  /** The targets of two runs of instruments are the targets of each, one
      after the other: nothing is re-ordered, merged or dropped. */
  lemma {:induction false} TargetsOfAppend(toc: map<string, Instrument>, a: seq<string>, b: seq<string>, telemetry: string)
    requires forall k :: k in a ==> k in toc
    requires forall k :: k in b ==> k in toc
    ensures forall k :: k in a + b ==> k in toc
    ensures TargetsOf(toc, a + b, telemetry) == TargetsOf(toc, a, telemetry) + TargetsOf(toc, b, telemetry)
    decreases |a|
  {
    if |a| == 0 {
      assert a + b == b;
    } else {
      ConsAppend(a, b);
      TargetsOfAppend(toc, a[1..], b, telemetry);
      TargetsOfCons(toc, a + b, telemetry);
      TargetsOfCons(toc, a, telemetry);
      AppendAssoc(InstrumentTargets(toc, a[0], telemetry), TargetsOf(toc, a[1..], telemetry), TargetsOf(toc, b, telemetry));
    }
  }

  /** Instrument `i` of the list contributes its own targets as one block,
      between the targets of the instruments before it and those after it. */
  lemma TargetsOfBlock(toc: map<string, Instrument>, insts: seq<string>, telemetry: string, i: nat)
    requires forall k :: k in insts ==> k in toc
    requires i < |insts|
    ensures forall k :: k in insts[..i] ==> k in toc
    ensures forall k :: k in insts[i + 1..] ==> k in toc
    ensures TargetsOf(toc, insts, telemetry)
      == TargetsOf(toc, insts[..i], telemetry) + InstrumentTargets(toc, insts[i], telemetry) + TargetsOf(toc, insts[i + 1..], telemetry)
  {
    var before, here, after := insts[..i], [insts[i]], insts[i + 1..];
    assert insts == before + here + after;
    TargetsOfAppend(toc, before, here, telemetry);
    TargetsOfAppend(toc, before + here, after, telemetry);
    assert here[1..] == [];
    assert TargetsOf(toc, here, telemetry) == InstrumentTargets(toc, insts[i], telemetry);
  }

  /** The designator of every target, in order. */
  function DesignatorsOf(r: seq<Target>): (ds: seq<string>)
    ensures |ds| == |r| && forall i :: 0 <= i < |r| ==> ds[i] == r[i].designator
  {
    seq(|r|, i requires 0 <= i < |r| => r[i].designator)
  }

  lemma DesignatorsOfConcat(a: seq<Target>, b: seq<Target>)
    ensures DesignatorsOf(a + b) == DesignatorsOf(a) + DesignatorsOf(b)
  {
    assert forall i :: 0 <= i < |a + b| ==> DesignatorsOf(a + b)[i] == (DesignatorsOf(a) + DesignatorsOf(b))[i];
  }

  lemma SameDesignatorSorted(r: seq<Target>, k: string)
    requires forall i :: 0 <= i < |r| ==> r[i].designator == k
    ensures Sorted(DesignatorsOf(r))
    ensures forall i :: 0 <= i < |r| ==> DesignatorsOf(r)[i] == k
  {
    LeReflexive(k);
  }

  /** The targets after the first instrument of a sorted list carry
      designators no smaller than it. */
  lemma LaterDesignators(toc: map<string, Instrument>, insts: seq<string>, telemetry: string)
    requires forall k :: k in insts ==> k in toc
    requires Sorted(insts) && |insts| > 0
    ensures var dr := DesignatorsOf(TargetsOf(toc, insts[1..], telemetry));
      forall j :: 0 <= j < |dr| ==> Le(insts[0], dr[j])
  {
    var rest := TargetsOf(toc, insts[1..], telemetry);
    var dr := DesignatorsOf(rest);
    forall j | 0 <= j < |dr| ensures Le(insts[0], dr[j]) {
      assert rest[j].designator in insts[1..];
      var m :| 0 <= m < |insts[1..]| && insts[1..][m] == rest[j].designator;
      assert insts[m + 1] == dr[j];
    }
  }

  /** In a sorted instrument list the targets come grouped by designator, in order. */
  lemma {:induction false} TargetsOfOrdered(toc: map<string, Instrument>, insts: seq<string>, telemetry: string)
    requires forall k :: k in insts ==> k in toc
    requires Sorted(insts)
    ensures Sorted(DesignatorsOf(TargetsOf(toc, insts, telemetry)))
    decreases |insts|
  {
    if |insts| > 0 {
      var k := insts[0];
      var here := InstrumentTargets(toc, k, telemetry);
      var rest := TargetsOf(toc, insts[1..], telemetry);
      assert Sorted(insts[1..]) by {
        forall i, j | 0 <= i < j < |insts[1..]| ensures Le(insts[1..][i], insts[1..][j]) {
          assert insts[1..][i] == insts[i + 1] && insts[1..][j] == insts[j + 1];
        }
      }
      TargetsOfOrdered(toc, insts[1..], telemetry);
      assert TargetsOf(toc, insts, telemetry) == here + rest;
      var dh, dr := DesignatorsOf(here), DesignatorsOf(rest);
      DesignatorsOfConcat(here, rest);
      SameDesignatorSorted(here, k);
      LaterDesignators(toc, insts, telemetry);
      SortedConcat(dh, dr);
    }
  }

  /** Everything the query visits, in visiting order: the searched
      instruments that pass validation, and for each its streams that pass
      the telemetry test. */
  function QueryTargets(c: Client, o: QueryOptions): (r: seq<Target>)
    requires Valid(c)
    ensures forall t :: t in r <==>
      && t.designator in c.toc && Contains(t.designator, o.refDes) && ValidateReferenceDesignator(t.designator)
      && t.stream in c.toc[t.designator].streams && TelemetryMatches(o.telemetry, t.stream.methodName)
    ensures Sorted(DesignatorsOf(r))
  {
    var insts := SearchInstruments(c, o.refDes);
    assert StrictlySorted(insts);
    assert forall k :: k in insts <==> k in c.toc && Contains(k, o.refDes);
    TargetsOfOrdered(c.toc, insts, o.telemetry);
    TargetsOf(c.toc, insts, o.telemetry)
  }

  /** The query visits the `i`-th found instrument as one block, between the
      targets of the instruments found before it and those found after it.
      The block is what `InstrumentTargets` states: empty when the designator
      fails validation, else one target per stream entry that passes the
      telemetry test, in stream-list order. */
  lemma QueryTargetsBlock(c: Client, o: QueryOptions, i: nat)
    requires Valid(c) && i < |SearchInstruments(c, o.refDes)|
    ensures var found := SearchInstruments(c, o.refDes);
      && (forall k :: k in found ==> k in c.toc)
      && QueryTargets(c, o)
        == TargetsOf(c.toc, found[..i], o.telemetry) + InstrumentTargets(c.toc, found[i], o.telemetry)
           + TargetsOf(c.toc, found[i + 1..], o.telemetry)
  {
    var found := SearchInstruments(c, o.refDes);
    assert QueryTargets(c, o) == TargetsOf(c.toc, found, o.telemetry);
    TargetsOfBlock(c.toc, found, o.telemetry, i);
  }

  /** What the source needs of the catalog to avoid an uncaught `ValueError`:
      the begin and end times of every visited stream parse. */
  ghost predicate StreamTimesParse(c: Client, o: QueryOptions, clock: Clock)
    requires Valid(c) && WellFormed(o)
  {
    Proceeds(o, clock) ==>
      forall t :: t in QueryTargets(c, o) ==>
        clock.parse(t.stream.beginTime).Some? && clock.parse(t.stream.endTime).Some?
  }

  /** The URL for one target. */
  function TargetUrl(base: string, t: Target, o: QueryOptions, bounds: Bounds, clock: Clock): string
    requires ValidateReferenceDesignator(t.designator)
    requires clock.parse(t.stream.beginTime).Some? && clock.parse(t.stream.endTime).Some?
  {
    ValidHasFourTokens(t.designator);
    var pass := PassOf(o, bounds, clock.parse(t.stream.beginTime).value, clock.parse(t.stream.endTime).value, clock);
    DataUrl(ServiceUrl(base, DefaultPort), Split(t.designator, '-'), t.stream.methodName, t.stream.stream,
            clock.format(pass.formatted.0), clock.format(pass.formatted.1), o)
  }

  /** One stream's pass through the loop body: the window as it is formatted
      into the URL, and `(dt0, dt1)` as the `time_check` block leaves them. */
  datatype Pass = Pass(formatted: (Time, Time), checked: (Time, Time))

  /** The window is formatted first; `time_check` then adjusts the pair,
      which nothing reads afterwards. */
  function PassOf(o: QueryOptions, bounds: Bounds, streamBegin: Time, streamEnd: Time, clock: Clock): (p: Pass)
    ensures p.formatted == RequestWindow(o, bounds, streamBegin, streamEnd, clock)
    ensures p.checked.0 == p.formatted.0
    ensures o.timeCheck && p.formatted.1 > streamEnd ==> p.checked.1 == streamEnd
    ensures !(o.timeCheck && p.formatted.1 > streamEnd) ==> p.checked.1 == p.formatted.1
  {
    var w := RequestWindow(o, bounds, streamBegin, streamEnd, clock);
    Pass(w, if o.timeCheck then TimeCheck(w, streamBegin, streamEnd) else w)
  }

  /** The quirk of `time_check`: when the window runs past the stream's end
      the loop pulls `dt1` back to it, yet the URL still carries the end it
      was formatted with. */
  lemma ClampedEndNotFormatted(base: string, t: Target, o: QueryOptions, bounds: Bounds, clock: Clock)
    requires ValidateReferenceDesignator(t.designator)
    requires clock.parse(t.stream.beginTime).Some? && clock.parse(t.stream.endTime).Some?
    requires var sb, se := clock.parse(t.stream.beginTime).value, clock.parse(t.stream.endTime).value;
      o.timeCheck && RequestWindow(o, bounds, sb, se, clock).1 > se
    ensures var sb, se := clock.parse(t.stream.beginTime).value, clock.parse(t.stream.endTime).value;
      var w := RequestWindow(o, bounds, sb, se, clock);
      && |Split(t.designator, '-')| >= 4
      && PassOf(o, bounds, sb, se, clock).checked == (w.0, se)
      && TargetUrl(base, t, o, bounds, clock)
         == DataUrl(ServiceUrl(base, DefaultPort), Split(t.designator, '-'), t.stream.methodName, t.stream.stream,
                    clock.format(w.0), clock.format(w.1), o)
  {
    ValidHasFourTokens(t.designator);
  }

  /** `instrument_to_query`: the client as the call leaves it (port and
      service URL forced once the search finds something), and one URL per
      target, in visiting order; none at all after an early return. */
  function InstrumentToQuery(c: Client, o: QueryOptions, clock: Clock): (res: (Client, seq<string>))
    requires Valid(c) && WellFormed(o)
    requires StreamTimesParse(c, o, clock)
    ensures Valid(res.0)
    ensures |SearchInstruments(c, o.refDes)| == 0 ==> res == (c, [])
    ensures |SearchInstruments(c, o.refDes)| > 0 ==>
      res.0 == c.(port := DefaultPort, url := Some(ServiceUrl(c.baseUrl.value, DefaultPort)))
    ensures !Proceeds(o, clock) ==> res.1 == []
    ensures Proceeds(o, clock) ==>
      var ts := QueryTargets(c, o);
      && |res.1| == |ts|
      && forall i :: 0 <= i < |ts| ==>
           res.1[i] == TargetUrl(c.baseUrl.value, ts[i], o, ParseBounds(o, clock).value, clock)
  {
    var insts := SearchInstruments(c, o.refDes);
    if |insts| == 0 then (c, [])
    else
      var c' := c.(port := DefaultPort, url := Some(ServiceUrl(c.baseUrl.value, DefaultPort)));
      if DeltaRequested(o) && o.deltaType !in RelativeDeltaUnits then (c', [])
      else
        match ParseBounds(o, clock)
        case None => (c', [])
        case Some(bounds) =>
          var ts := QueryTargets(c, o);
          (c', TargetUrls(c.baseUrl.value, ts, o, bounds, clock))
  }

  /** One URL per target, in order. */
  function TargetUrls(base: string, ts: seq<Target>, o: QueryOptions, bounds: Bounds, clock: Clock): (r: seq<string>)
    requires forall t :: t in ts ==> ValidateReferenceDesignator(t.designator)
    requires forall t :: t in ts ==> clock.parse(t.stream.beginTime).Some? && clock.parse(t.stream.endTime).Some?
    ensures |r| == |ts| && forall i :: 0 <= i < |ts| ==> r[i] == TargetUrl(base, ts[i], o, bounds, clock)
  {
    seq(|ts|, i requires 0 <= i < |ts| =>
      assert ts[i] in ts;
      TargetUrl(base, ts[i], o, bounds, clock))
  }

  /** The two option sets agree on everything but the explicit bounds and
      `time_check`. */
  predicate SameRequest(o1: QueryOptions, o2: QueryOptions) {
    && o1.refDes == o2.refDes && o1.telemetry == o2.telemetry
    && o1.deltaType == o2.deltaType && o1.deltaValue == o2.deltaValue
    && o1.execDpa == o2.execDpa && o1.applicationType == o2.applicationType
    && o1.provenance == o2.provenance && o1.limit == o2.limit
    && o1.user == o2.user && o1.email == o2.email
  }

  /** Two option sets that ask for the same request, pass the early returns
      alike and pick the same window for every stream give the same URLs. */
  lemma SameWindowsSameUrls(c: Client, o1: QueryOptions, o2: QueryOptions, clock: Clock)
    requires Valid(c) && WellFormed(o1) && WellFormed(o2)
    requires StreamTimesParse(c, o1, clock) && StreamTimesParse(c, o2, clock)
    requires SameRequest(o1, o2) && (Proceeds(o1, clock) <==> Proceeds(o2, clock))
    requires Proceeds(o1, clock) ==> forall sb, se ::
      RequestWindow(o1, ParseBounds(o1, clock).value, sb, se, clock) == RequestWindow(o2, ParseBounds(o2, clock).value, sb, se, clock)
    ensures InstrumentToQuery(c, o1, clock) == InstrumentToQuery(c, o2, clock)
  {
    var r1, r2 := InstrumentToQuery(c, o1, clock), InstrumentToQuery(c, o2, clock);
    if Proceeds(o1, clock) {
      var ts := QueryTargets(c, o1);
      assert QueryTargets(c, o2) == ts;
      assert forall x, y :: QueryString(x, y, o1) == QueryString(x, y, o2);
      var b1, b2 := ParseBounds(o1, clock).value, ParseBounds(o2, clock).value;
      forall i | 0 <= i < |ts| ensures r1.1[i] == r2.1[i] {
        var t := ts[i];
        assert t in ts;
        var sb, se := clock.parse(t.stream.beginTime).value, clock.parse(t.stream.endTime).value;
        assert RequestWindow(o1, b1, sb, se, clock) == RequestWindow(o2, b2, sb, se, clock);
        assert r1.1[i] == TargetUrl(c.baseUrl.value, t, o1, b1, clock);
        assert r2.1[i] == TargetUrl(c.baseUrl.value, t, o2, b2, clock);
      }
      assert r1.1 == r2.1;
    }
  }

  /** With a relative delta requested, the explicit bounds only matter
      through whether they parse: any two settings that both parse give the
      same URLs. */
  lemma DeltaOverridesExplicitBounds(c: Client, o: QueryOptions, clock: Clock, beginTs: Option<string>, endTs: string)
    requires Valid(c) && WellFormed(o) && StreamTimesParse(c, o, clock)
    requires var o2 := o.(beginTs := beginTs, endTs := endTs);
      WellFormed(o2) && StreamTimesParse(c, o2, clock) && ParseBounds(o2, clock).Some?
    requires DeltaRequested(o) && ParseBounds(o, clock).Some?
    ensures InstrumentToQuery(c, o, clock) == InstrumentToQuery(c, o.(beginTs := beginTs, endTs := endTs), clock)
  {
    SameWindowsSameUrls(c, o, o.(beginTs := beginTs, endTs := endTs), clock);
  }

  /** A given `end_ts` is never parsed: replacing its text by any other
      non-empty text changes nothing. */
  lemma EndTextIgnored(c: Client, o: QueryOptions, clock: Clock, endTs: string)
    requires Valid(c) && WellFormed(o) && StreamTimesParse(c, o, clock)
    requires o.endTs != "" && endTs != ""
    ensures var o2 := o.(endTs := endTs);
      WellFormed(o2) && StreamTimesParse(c, o2, clock)
      && InstrumentToQuery(c, o, clock) == InstrumentToQuery(c, o2, clock)
  {
    var o2 := o.(endTs := endTs);
    assert ParseBounds(o2, clock) == ParseBounds(o, clock);
    assert QueryTargets(c, o2) == QueryTargets(c, o);
    SameWindowsSameUrls(c, o, o2, clock);
  }

  /** `time_check` runs after the URL strings are formatted, so it never
      changes the result. */
  lemma TimeCheckIgnored(c: Client, o: QueryOptions, clock: Clock, timeCheck: bool)
    requires Valid(c) && WellFormed(o) && StreamTimesParse(c, o, clock)
    ensures var o2 := o.(timeCheck := timeCheck);
      WellFormed(o2) && StreamTimesParse(c, o2, clock)
      && InstrumentToQuery(c, o, clock) == InstrumentToQuery(c, o2, clock)
  {
    var o2 := o.(timeCheck := timeCheck);
    assert ParseBounds(o2, clock) == ParseBounds(o, clock);
    assert QueryTargets(c, o2) == QueryTargets(c, o);
    SameWindowsSameUrls(c, o, o2, clock);
  }

  /** Without a delta, explicit `begin_ts` and `end_ts` give every URL the
      same `beginDT` and `endDT`: both are the parsed `begin_ts`. */
  lemma ExplicitWindowCollapses(c: Client, o: QueryOptions, clock: Clock, i: int)
    requires Valid(c) && WellFormed(o) && StreamTimesParse(c, o, clock)
    requires !DeltaRequested(o) && BeginGiven(o) && o.endTs != "" && Proceeds(o, clock)
    requires 0 <= i < |InstrumentToQuery(c, o, clock).1|
    ensures var t := QueryTargets(c, o)[i];
      var ts := clock.format(clock.parse(o.beginTs.value).value);
      && ValidateReferenceDesignator(t.designator) && |Split(t.designator, '-')| >= 4
      && InstrumentToQuery(c, o, clock).1[i]
         == DataUrl(ServiceUrl(c.baseUrl.value, DefaultPort), Split(t.designator, '-'),
                    t.stream.methodName, t.stream.stream, ts, ts, o)
  {
    var t := QueryTargets(c, o)[i];
    assert t in QueryTargets(c, o);
    ValidHasFourTokens(t.designator);
  }
}

=== FILE: RequestList.dfy ===
/**
 `send_async_requests.py`: the preprocessing of its `main` before each request
 is sent. Lines are stripped, `#` lines are skipped, the UFrame base URL
 `scheme://host` is cut from each request by
 `(http|ftp|https)://([\w_-]+(?:(?:\.[\w_-]+)+))(...)?`, and a client is
 created only when there is none yet or its base URL differs.

 Sending the request, the response files and their time-stamped names are
 left to the caller; `os.path.isfile`, `os.path.isdir`, reading the list file
 and `os.path.realpath(os.curdir)` arrive as values.
 */
module RequestList {
  import opened Text

  // ---------------------------------------------------------------------------
  // `http_regex.match(url)` and `'://'.join(match.groups()[:2])`
  // ---------------------------------------------------------------------------

  /** A character of `[\w_-]`. */
  predicate IsHostChar(c: char) {
    IsWordChar(c) || c == '-'
  }

  /** `(http|ftp|https)://` at the start of `s`: the scheme it names. */
  function Scheme(s: string): (r: Option<string>)
    ensures r.Some? <==> StartsWith(s, "http://") || StartsWith(s, "ftp://") || StartsWith(s, "https://")
    ensures r.Some? ==> (r.value == "http" || r.value == "ftp" || r.value == "https") && StartsWith(s, r.value + "://")
  {
    if StartsWith(s, "http://") then Some("http")
    else if StartsWith(s, "ftp://") then Some("ftp")
    else if StartsWith(s, "https://") then Some("https")
    else None
  }

  /** Length of the longest run of host characters starting at `i`. */
  function HostRun(s: string, i: nat): (n: nat)
    requires i <= |s|
    ensures i + n <= |s| && forall k :: i <= k < i + n ==> IsHostChar(s[k])
    ensures i + n == |s| || !IsHostChar(s[i + n])
    decreases |s| - i
  {
    if i < |s| && IsHostChar(s[i]) then 1 + HostRun(s, i + 1) else 0
  }

  /** A `.` inside a host, between two host characters. */
  predicate InnerDot(s: string, k: int)
    requires 0 <= k < |s|
  {
    s[k] == '.' && 0 < k && k + 1 < |s| && IsHostChar(s[k - 1]) && IsHostChar(s[k + 1])
  }

  /** The text at `e` would let the host go on: a host character, or a `.`
      followed by one. */
  predicate Extends(s: string, e: int)
    requires 0 <= e
  {
    e < |s| && (IsHostChar(s[e]) || (s[e] == '.' && e + 1 < |s| && IsHostChar(s[e + 1])))
  }

  /** `s[i..e]` matches `[\w_-]+(?:\.[\w_-]+)+`: host characters and inner
      dots, starting and ending with a host character, with at least one dot. */
  ghost predicate HostSpan(s: string, i: int, e: int) {
    && 0 <= i < e <= |s|
    && IsHostChar(s[i]) && IsHostChar(s[e - 1])
    && (forall k :: i <= k < e ==> IsHostChar(s[k]) || InnerDot(s, k))
    && (exists k :: i <= k < e && s[k] == '.')
  }

  /** Some host matches at `i`. */
  ghost predicate HasHost(s: string, i: int) {
    exists e :: HostSpan(s, i, e)
  }

  /** Greedy `(?:\.[\w_-]+)+` from `j`, the end of a maximal run of host
      characters: where the last `.label` ends. */
  function LabelsEnd(s: string, j: nat): (e: nat)
    requires 0 < j <= |s| && IsHostChar(s[j - 1]) && (j == |s| || !IsHostChar(s[j]))
    ensures j <= e <= |s| && IsHostChar(s[e - 1]) && !Extends(s, e)
    ensures forall k :: j <= k < e ==> IsHostChar(s[k]) || InnerDot(s, k)
    ensures e > j ==> s[j] == '.'
    decreases |s| - j
  {
    if j < |s| && s[j] == '.' && j + 1 < |s| && IsHostChar(s[j + 1]) then
      var n := HostRun(s, j + 1);
      var e := LabelsEnd(s, j + 1 + n);
      assert InnerDot(s, j);
      e
    else j
  }

  /** The host group of a match whose `://` ends at `i`. */
  function HostAt(s: string, i: nat): (r: Option<string>)
    requires i <= |s|
    ensures r.Some? ==> HostSpan(s, i, i + |r.value|) && s[i..i + |r.value|] == r.value && !Extends(s, i + |r.value|)
  {
    var n := HostRun(s, i);
    if n == 0 then None
    else
      var e := LabelsEnd(s, i + n);
      if e == i + n then None
      else
        assert s[i + n] == '.';
        Some(s[i..e])
  }

  /** The greedy host is the longest: no host match at `i` runs past it, and
      there is none at all when `HostAt` finds nothing. */
  lemma HostAtLongest(s: string, i: nat, e': int)
    requires i <= |s| && HostSpan(s, i, e')
    ensures HostAt(s, i).Some? && e' <= i + |HostAt(s, i).value|
  {
    var n := HostRun(s, i);
    assert n > 0;
    var e := LabelsEnd(s, i + n);
  }

  /** `'://'.join(http_regex.match(url).groups()[:2])`, or `None` when the
      expression does not match. */
  function BaseUrl(url: string): (r: Option<string>)
    ensures r.Some? ==> Scheme(url).Some? && StartsWith(url, r.value)
    ensures r.Some? ==> var sc := Scheme(url).value;
      && StartsWith(r.value, sc + "://")
      && HostSpan(url, |sc| + 3, |r.value|) && !Extends(url, |r.value|)
  {
    match Scheme(url)
    case None => None
    case Some(sc) =>
      match HostAt(url, |sc| + 3)
      case None => None
      case Some(h) =>
        var r := sc + "://" + h;
        assert url[..|sc| + 3] == sc + "://";
        assert url[..|r|] == r;
        assert r[..|sc| + 3] == sc + "://";
        Some(r)
  }

  /** The expression fails exactly when the URL has no scheme or no dotted
      host after it: `http://localhost:8080/...` is rejected. */
  lemma BaseUrlNoneExactly(url: string)
    ensures BaseUrl(url).None? <==> Scheme(url).None? || !HasHost(url, |Scheme(url).value| + 3)
  {
    if Scheme(url).Some? {
      var i := |Scheme(url).value| + 3;
      if HasHost(url, i) {
        var e :| HostSpan(url, i, e);
        HostAtLongest(url, i, e);
      }
    }
  }

  /** The extracted base URL drops the port and path: it ends at the first
      character that cannot continue the host. */
  lemma BaseUrlStopsAtHost(url: string)
    requires BaseUrl(url).Some?
    ensures !Extends(url, |BaseUrl(url).value|)
  {
  }

  // ---------------------------------------------------------------------------
  // The request loop
  // ---------------------------------------------------------------------------

  /** One line of the list, read: a comment, a URL the expression rejects,
      or a request with its base URL. */
  datatype Line =
    | CommentLine
    | Unparsed(url: string)
    | Request(url: string, base: string)

  /** `url = url.strip()`, the `#` test and the base-URL match. */
  function ReadLine(line: string): (r: Line)
    ensures r.CommentLine? <==> StartsWith(Strip(line), "#")
    ensures r.Unparsed? <==> !StartsWith(Strip(line), "#") && BaseUrl(Strip(line)).None?
    ensures !r.CommentLine? ==> r.url == Strip(line)
    ensures r.Request? ==> Some(r.base) == BaseUrl(Strip(line))
  {
    var url := Strip(line);
    if StartsWith(url, "#") then CommentLine
    else match BaseUrl(url)
      case None => Unparsed(url)
      case Some(base) => Request(url, base)
  }

  /** What the loop does with one line. `newClient` records that a new client
      was created for the request. `Send` stands for the call to
      `send_async_requests` and the handling of its response, which are
      taken to return normally so that the loop goes on to the next line. */
  datatype Step =
    | Skipped
    | Reported(url: string)
    | Send(url: string, base: string, newClient: bool)

  /** One line, with the client of base URL `current` (`None`: no client
      yet): a request gets a new client unless the current one has the same
      base URL. */
  function StepOf(l: Line, current: Option<string>): (s: Step)
    ensures s.Send? <==> l.Request?
    ensures s.Send? ==> s.url == l.url && s.base == l.base && (s.newClient <==> current != Some(l.base))
  {
    match l
    case CommentLine => Skipped
    case Unparsed(url) => Reported(url)
    case Request(url, base) => Send(url, base, current != Some(base))
  }

  /** Base URL of the client after the given steps, starting from `initial`. */
  function LastBase(steps: seq<Step>, initial: Option<string>): Option<string>
    decreases |steps|
  {
    if |steps| == 0 then initial
    else if steps[|steps| - 1].Send? then Some(steps[|steps| - 1].base)
    else LastBase(steps[..|steps| - 1], initial)
  }

  /** `for url in request_urls: ...` over the read lines. */
  function RunLines(lines: seq<Line>, current: Option<string>): (steps: seq<Step>)
    ensures |steps| == |lines|
    decreases |lines|
  {
    if |lines| == 0 then []
    else
      var first := StepOf(lines[0], current);
      [first] + RunLines(lines[1..], if first.Send? then Some(first.base) else current)
  }

  /** Prepending one step: the later steps see the base it leaves behind. */
  lemma {:induction false} LastBaseCons(first: Step, rest: seq<Step>, initial: Option<string>)
    ensures LastBase([first] + rest, initial)
         == LastBase(rest, if first.Send? then Some(first.base) else initial)
    decreases |rest|
  {
    if |rest| > 0 {
      var all := [first] + rest;
      assert all[..|all| - 1] == [first] + rest[..|rest| - 1];
      LastBaseCons(first, rest[..|rest| - 1], initial);
    }
  }

  /** Each line is handled with the client the earlier lines left behind. */
  lemma {:induction false} RunLinesSteps(lines: seq<Line>, current: Option<string>)
    ensures var steps := RunLines(lines, current);
      forall k :: 0 <= k < |lines| ==> steps[k] == StepOf(lines[k], LastBase(steps[..k], current))
    decreases |lines|
  {
    if |lines| > 0 {
      var steps := RunLines(lines, current);
      var first := StepOf(lines[0], current);
      var next := if first.Send? then Some(first.base) else current;
      var rest := RunLines(lines[1..], next);
      assert steps == [first] + rest;
      RunLinesSteps(lines[1..], next);
      forall k | 0 <= k < |lines|
        ensures steps[k] == StepOf(lines[k], LastBase(steps[..k], current))
      {
        if k == 0 {
          assert steps[..0] == [];
        } else {
          assert LastBase(steps[..k], current) == LastBase(rest[..k - 1], next) by {
            LastBaseCons(first, rest[..k - 1], current);
            assert steps[..k] == [first] + rest[..k - 1];
          }
          assert steps[k] == rest[k - 1] && lines[1..][k - 1] == lines[k];
        }
      }
    }
  }

  /** Number of clients created by the steps. */
  function Created(steps: seq<Step>): nat
    decreases |steps|
  {
    if |steps| == 0 then 0
    else (if steps[0].Send? && steps[0].newClient then 1 else 0) + Created(steps[1..])
  }

  /** Requests that all name the same base URL share one client: from no
      client, exactly one is created when anything is sent. */
  lemma {:induction false} SameBaseOneClient(lines: seq<Line>, base: string, current: Option<string>)
    requires forall k :: 0 <= k < |lines| && lines[k].Request? ==> lines[k].base == base
    requires current.None? || current == Some(base)
    ensures var steps := RunLines(lines, current);
      Created(steps) == if current.None? && exists k :: 0 <= k < |lines| && lines[k].Request? then 1 else 0
    decreases |lines|
  {
    var steps := RunLines(lines, current);
    if |lines| > 0 {
      var first := steps[0];
      var next := if first.Send? then Some(first.base) else current;
      assert steps[1..] == RunLines(lines[1..], next);
      SameBaseOneClient(lines[1..], base, next);
      assert (exists k :: 0 <= k < |lines| && lines[k].Request?)
         <==> lines[0].Request? || (exists k :: 0 <= k < |lines[1..]| && lines[1..][k].Request?) by {
        forall k | 1 <= k < |lines| ensures lines[k] == lines[1..][k - 1] { }
      }
    }
  }

  /** Every line of the list, read. */
  function ReadLines(lines: seq<string>): (r: seq<Line>)
    ensures |r| == |lines| && forall k :: 0 <= k < |lines| ==> r[k] == ReadLine(lines[k])
  {
    seq(|lines|, k requires 0 <= k < |lines| => ReadLine(lines[k]))
  }

  // ---------------------------------------------------------------------------
  // `main`
  // ---------------------------------------------------------------------------

  /** The list file as the caller found it: not a file, unreadable, or its
      lines (`readlines` keeps the line breaks; `strip` removes them). */
  datatype ListFile = NotAFile | ReadFailed | Lines(lines: seq<string>)

  /** The command line: positional URLs, `-f`, `-d` and `-t`. */
  datatype Arguments = Arguments(urls: seq<string>, file: string, destination: string, timeout: int)

  datatype Run = Run(exitCode: int, steps: seq<Step>)

  /** The request list: the positional URLs, or the lines of the file when
      none are given and a file is named; `None` when the file cannot be
      used. */
  function RequestUrls(args: Arguments, listFile: ListFile): (r: Option<seq<string>>)
    ensures args.urls != [] ==> r == Some(args.urls)
    ensures args.urls == [] && args.file == "" ==> r == Some([])
    ensures args.urls == [] && args.file != "" ==>
      (r.None? <==> !listFile.Lines?) && (listFile.Lines? ==> r == Some(listFile.lines))
  {
    if args.urls == [] && args.file != "" then
      match listFile
      case NotAFile => None
      case ReadFailed => None
      case Lines(ls) => Some(ls)
    else Some(args.urls)
  }

  /** `main(args)`: exit code 1 with nothing sent when the list cannot be read
      or is empty, or the destination is not a directory; otherwise every
      line is handled in order, starting without a client. */
  function SendRequests(args: Arguments, listFile: ListFile, isDir: string -> bool, currentDir: string): (r: Run)
    ensures var dest := if args.destination != "" then args.destination else currentDir;
      r.exitCode == 1 <==>
        || RequestUrls(args, listFile).None? || RequestUrls(args, listFile) == Some([])
        || !isDir(dest)
    ensures r.exitCode != 1 ==> r.exitCode == 0 && r.steps == RunLines(ReadLines(RequestUrls(args, listFile).value), None)
    ensures r.exitCode == 1 ==> r.steps == []
  {
    match RequestUrls(args, listFile)
    case None => Run(1, [])
    case Some(urls) =>
      if urls == [] then Run(1, [])
      else
        var dest := if args.destination != "" then args.destination else currentDir;
        if !isDir(dest) then Run(1, [])
        else Run(0, RunLines(ReadLines(urls), None))
  }

  /** Positional URLs take precedence: the list file is then never looked at. */
  lemma PositionalFirst(args: Arguments, f1: ListFile, f2: ListFile, isDir: string -> bool, currentDir: string)
    requires args.urls != []
    ensures SendRequests(args, f1, isDir, currentDir) == SendRequests(args, f2, isDir, currentDir)
  {
  }
}

=== FILE: RoundTrip.dfy ===
/**
 The request URLs `instrument_to_query` builds are read back by the parser of
 `send_async_request`: the designator, method and stream come back out.
 */
module RoundTrip {
  import opened Text
  import opened Designator
  import opened Catalog
  import opened Query
  import opened AsyncRequest

  /** The query string of a request holds no `?` and no line break when the
      strings spliced into it hold none. */
  lemma {:induction false} QueryStringPlain(ts0: string, ts1: string, o: QueryOptions)
    requires Plain(ts0) && Plain(ts1) && Plain(o.applicationType) && Plain(o.user) && Plain(o.email)
    ensures Plain(QueryString(ts0, ts1, o))
  {
    IntTextPlain(o.limit);
    var x := "beginDT=";
    assert Plain(x);
    PlainConcat(x, ts0); x := x + ts0;
    assert Plain("&endDT=");
    PlainConcat(x, "&endDT="); x := x + "&endDT=";
    PlainConcat(x, ts1); x := x + ts1;
    assert Plain("&format=application/");
    PlainConcat(x, "&format=application/"); x := x + "&format=application/";
    PlainConcat(x, o.applicationType); x := x + o.applicationType;
    assert Plain("&limit=");
    PlainConcat(x, "&limit="); x := x + "&limit=";
    PlainConcat(x, IntToString(o.limit)); x := x + IntToString(o.limit);
    assert Plain("&execDPA=");
    PlainConcat(x, "&execDPA="); x := x + "&execDPA=";
    assert Plain(BoolText(o.execDpa));
    PlainConcat(x, BoolText(o.execDpa)); x := x + BoolText(o.execDpa);
    assert Plain("&include_provenance=");
    PlainConcat(x, "&include_provenance="); x := x + "&include_provenance=";
    assert Plain(BoolText(o.provenance));
    PlainConcat(x, BoolText(o.provenance)); x := x + BoolText(o.provenance);
    var user := if o.user != "" then "&user=" + o.user else "";
    assert Plain("&user=");
    if o.user != "" { PlainConcat("&user=", o.user); }
    PlainConcat(x, user); x := x + user;
    var email := if o.email != "" then "&email=" + o.email else "";
    assert Plain("&email=");
    if o.email != "" { PlainConcat("&email=", o.email); }
    PlainConcat(x, email); x := x + email;
    assert x == QueryString(ts0, ts1, o);
  }

  lemma ConcatAssoc(a: string, b: string, c: string)
    ensures a + (b + c) == a + b + c
  {
  }

  lemma DesignatorJoin(tokens: seq<string>)
    requires |tokens| == 4
    ensures Join(tokens, "-") == tokens[0] + "-" + tokens[1] + "-" + tokens[2] + "-" + tokens[3]
  {
    assert tokens == [tokens[0], tokens[1], tokens[2], tokens[3]];
    JoinFour(tokens[0], tokens[1], tokens[2], tokens[3], "-");
  }

  lemma LeadingThreeJoin(a: string, b: string, c: string, d: string, e: string, sep: string)
    ensures Join([a, b, c, d, e][..3], sep) == a + sep + b + sep + c
  {
    assert [a, b, c, d, e][..3] == [a, b, c];
    JoinThree(a, b, c, sep);
  }

  /** `a/b/c-d/method/stream` is the `/` join of its five pieces. */
  lemma RequestPathTokens(tokens: seq<string>, methodName: string, streamName: string)
    requires |tokens| == 4
    requires forall k :: 0 <= k < 4 ==> '/' !in tokens[k]
    requires '/' !in methodName && '/' !in streamName
    ensures Split(RequestPath(tokens, methodName, streamName), '/')
         == [tokens[0], tokens[1], tokens[2] + "-" + tokens[3], methodName, streamName]
  {
    var ts := [tokens[0], tokens[1], tokens[2] + "-" + tokens[3], methodName, streamName];
    JoinFive(ts[0], ts[1], ts[2], ts[3], ts[4], "/");
    assert Join(ts, "/") == RequestPath(tokens, methodName, streamName);
    SplitJoin(ts, '/');
  }

  lemma CharNotInConcat(a: string, b: string, c: char)
    requires c !in a && c !in b
    ensures c !in a + b
  {
  }

  /** A character that is no separator and occurs in no piece does not
      occur in the request path. */
  lemma {:induction false} RequestPathAvoids(tokens: seq<string>, methodName: string, streamName: string, c: char)
    requires |tokens| >= 4 && c != '/' && c != '-'
    requires forall k :: 0 <= k < 4 ==> c !in tokens[k]
    requires c !in methodName && c !in streamName
    ensures c !in RequestPath(tokens, methodName, streamName)
  {
    var x := tokens[0];
    assert c !in tokens[0] && c !in tokens[1] && c !in tokens[2] && c !in tokens[3];
    CharNotInConcat(x, "/", c); x := x + "/";
    CharNotInConcat(x, tokens[1], c); x := x + tokens[1];
    CharNotInConcat(x, "/", c); x := x + "/";
    CharNotInConcat(x, tokens[2], c); x := x + tokens[2];
    CharNotInConcat(x, "-", c); x := x + "-";
    CharNotInConcat(x, tokens[3], c); x := x + tokens[3];
    CharNotInConcat(x, "/", c); x := x + "/";
    CharNotInConcat(x, methodName, c); x := x + methodName;
    CharNotInConcat(x, "/", c); x := x + "/";
    CharNotInConcat(x, streamName, c); x := x + streamName;
    assert x == RequestPath(tokens, methodName, streamName);
  }

  /** `instrument_to_query`'s URL is `base:12576/sensor/inv/path?query`. */
  lemma DataUrlLayout(base: string, tokens: seq<string>, methodName: string, streamName: string,
                      ts0: string, ts1: string, o: QueryOptions)
    requires |tokens| >= 4
    ensures DataUrl(ServiceUrl(base, DefaultPort), tokens, methodName, streamName, ts0, ts1, o)
         == (base + ":" + IntToString(DefaultPort)) + SensorInv + RequestPath(tokens, methodName, streamName)
            + "?" + QueryString(ts0, ts1, o)
  {
  }

  /** The service prefix keeps the base's scheme and adds no line break. */
  lemma ServicePrefix(base: string)
    requires StartsWith(base, "http://") || StartsWith(base, "https://")
    requires '\n' !in base
    ensures var pre := base + ":" + IntToString(DefaultPort);
      (StartsWith(pre, "http://") || StartsWith(pre, "https://")) && '\n' !in pre
  {
    var pre := base + ":" + IntToString(DefaultPort);
    IntTextPlain(DefaultPort);
    assert pre[..|base|] == base;
    if StartsWith(base, "https://") {
      assert pre[..8] == base[..8];
    } else {
      assert pre[..7] == base[..7];
    }
  }

  /** Joining the first three path tokens with `-` restores the designator
      `a-b-c-d`; joining all five gives the stream key. */
  lemma PathTokensJoin(tokens: seq<string>, methodName: string, streamName: string)
    requires |tokens| == 4
    ensures var ts := [tokens[0], tokens[1], tokens[2] + "-" + tokens[3], methodName, streamName];
      && Join(ts[..3], "-") == Join(tokens, "-")
      && Join(ts, "-") == Join(tokens, "-") + "-" + methodName + "-" + streamName
  {
    var t0, t1, t2, t3 := tokens[0], tokens[1], tokens[2], tokens[3];
    DesignatorJoin(tokens);
    JoinFive(t0, t1, t2 + "-" + t3, methodName, streamName, "-");
    LeadingThreeJoin(t0, t1, t2 + "-" + t3, methodName, streamName, "-");
    var u := t0 + "-" + t1 + "-";
    ConcatAssoc(u, t2 + "-", t3);
    ConcatAssoc(u, t2, "-");
  }

  /** The expression captures exactly the request path of such a URL. */
  lemma QueryUrlCapture(base: string, tokens: seq<string>, methodName: string, streamName: string,
                        ts0: string, ts1: string, o: QueryOptions)
    requires StartsWith(base, "http://") || StartsWith(base, "https://")
    requires '\n' !in base
    requires |tokens| == 4 && forall k :: 0 <= k < 4 ==> '\n' !in tokens[k]
    requires '\n' !in methodName && '\n' !in streamName
    requires Plain(ts0) && Plain(ts1) && Plain(o.applicationType) && Plain(o.user) && Plain(o.email)
    requires !Contains("/" + RequestPath(tokens, methodName, streamName), SensorInv)
    ensures CapturedPath(DataUrl(ServiceUrl(base, DefaultPort), tokens, methodName, streamName, ts0, ts1, o))
         == Some(RequestPath(tokens, methodName, streamName))
  {
    var pre := base + ":" + IntToString(DefaultPort);
    var path := RequestPath(tokens, methodName, streamName);
    var query := QueryString(ts0, ts1, o);
    QueryStringPlain(ts0, ts1, o);
    ServicePrefix(base);
    RequestPathAvoids(tokens, methodName, streamName, '\n');
    DataUrlLayout(base, tokens, methodName, streamName, ts0, ts1, o);
    CaptureOfLayout(pre, path, query);
  }

  /** Round trip: a URL built by `instrument_to_query` from an `http(s)`
      base, a designator of exactly four tokens and a method and stream name
      without `/`, with no line break anywhere, no `?` in the query string
      and no second `/sensor/inv/` in the path, parses back to the same
      designator, method and stream. */
  lemma QueryUrlParses(base: string, tokens: seq<string>, methodName: string, streamName: string,
                       ts0: string, ts1: string, o: QueryOptions)
    requires StartsWith(base, "http://") || StartsWith(base, "https://")
    requires '\n' !in base
    requires |tokens| == 4 && forall k :: 0 <= k < 4 ==> '/' !in tokens[k] && '\n' !in tokens[k]
    requires '/' !in methodName && '/' !in streamName && '\n' !in methodName && '\n' !in streamName
    requires Plain(ts0) && Plain(ts1) && Plain(o.applicationType) && Plain(o.user) && Plain(o.email)
    requires !Contains("/" + RequestPath(tokens, methodName, streamName), SensorInv)
    ensures var r := ParseRequest(DataUrl(ServiceUrl(base, DefaultPort), tokens, methodName, streamName, ts0, ts1, o));
      && r.reason.None?
      && r.referenceDesignator == Some(Join(tokens, "-"))
      && r.stream == Some(Join(tokens, "-") + "-" + methodName + "-" + streamName)
      && r.instrument == Some(InstrumentFields(tokens[0], tokens[1], tokens[2] + "-" + tokens[3], methodName, streamName))
  {
    QueryUrlCapture(base, tokens, methodName, streamName, ts0, ts1, o);
    RequestPathTokens(tokens, methodName, streamName);
    PathTokensJoin(tokens, methodName, streamName);
  }

  /** The tokens of a designator without `/` or line break carry neither,
      and joining them restores the designator. */
  lemma DesignatorTokens(d: string)
    requires '/' !in d && '\n' !in d
    ensures var tokens := Split(d, '-');
      && (forall k :: 0 <= k < |tokens| ==> '/' !in tokens[k] && '\n' !in tokens[k])
      && Join(tokens, "-") == d
  {
    SplitTokensAvoid(d, '-', '/');
    SplitTokensAvoid(d, '-', '\n');
    JoinSplit(d, '-');
  }

  /** Each URL `instrument_to_query` emits for a target whose designator
      has exactly four tokens reads back as that designator and stream, as
      long as the base, the names and the two rendered times of its window
      stay within one line and hold no stray `/sensor/inv/` or `?`. */
  lemma TargetUrlParses(base: string, t: Target, o: QueryOptions, bounds: Bounds, clock: Clock)
    requires ValidateReferenceDesignator(t.designator)
    requires clock.parse(t.stream.beginTime).Some? && clock.parse(t.stream.endTime).Some?
    requires StartsWith(base, "http://") || StartsWith(base, "https://")
    requires '\n' !in base && '/' !in t.designator && '\n' !in t.designator
    requires |Split(t.designator, '-')| == 4
    requires '/' !in t.stream.methodName && '/' !in t.stream.stream
    requires '\n' !in t.stream.methodName && '\n' !in t.stream.stream
    requires var w := RequestWindow(o, bounds, clock.parse(t.stream.beginTime).value, clock.parse(t.stream.endTime).value, clock);
      Plain(clock.format(w.0)) && Plain(clock.format(w.1))
    requires Plain(o.applicationType) && Plain(o.user) && Plain(o.email)
    requires !Contains("/" + RequestPath(Split(t.designator, '-'), t.stream.methodName, t.stream.stream), SensorInv)
    ensures var r := ParseRequest(TargetUrl(base, t, o, bounds, clock));
      && r.reason.None?
      && r.referenceDesignator == Some(t.designator)
      && r.stream == Some(t.designator + "-" + t.stream.methodName + "-" + t.stream.stream)
      && r.instrument.Some?
      && r.instrument.value.telemetry == t.stream.methodName && r.instrument.value.stream == t.stream.stream
  {
    var tokens := Split(t.designator, '-');
    DesignatorTokens(t.designator);
    var w := RequestWindow(o, bounds, clock.parse(t.stream.beginTime).value, clock.parse(t.stream.endTime).value, clock);
    var ts0, ts1 := clock.format(w.0), clock.format(w.1);
    var url := DataUrl(ServiceUrl(base, DefaultPort), tokens, t.stream.methodName, t.stream.stream, ts0, ts1, o);
    assert TargetUrl(base, t, o, bounds, clock) == url;
    QueryUrlParses(base, tokens, t.stream.methodName, t.stream.stream, ts0, ts1, o);
    var d := Join(tokens, "-");
    assert ParseRequest(url).stream == Some(d + "-" + t.stream.methodName + "-" + t.stream.stream);
    assert d == t.designator;
  }
}

=== FILE: Text.dfy ===
/**
 String helpers shared by every part of the model. Python strings are modelled
 as `string` (a `seq<char>`); the operations here follow the semantics of the
 Python built-ins the client uses: `str.find`, `str.split`, `str.join`,
 `str.strip`, `str.startswith` and `'{:d}'.format`.
 */
module Text {

  datatype Option<T> = None | Some(value: T)

  /** `\w` of a Python 2 byte-string pattern without the UNICODE flag. */
  predicate IsWordChar(c: char) {
    ('a' <= c <= 'z') || ('A' <= c <= 'Z') || ('0' <= c <= '9') || c == '_'
  }

  predicate AllWord(s: string) {
    forall i :: 0 <= i < |s| ==> IsWordChar(s[i])
  }

  /** The characters Python 2 `str.strip()` removes. */
  predicate IsSpace(c: char) {
    c == ' ' || c == '\t' || c == '\n' || c == '\r' || c as int == 11 || c as int == 12
  }

  predicate AllSpace(s: string) {
    forall i :: 0 <= i < |s| ==> IsSpace(s[i])
  }

  predicate StartsWith(s: string, prefix: string) {
    |prefix| <= |s| && s[..|prefix|] == prefix
  }

  // ---------------------------------------------------------------------------
  // Substring search (`str.find`)
  // ---------------------------------------------------------------------------

  predicate OccursAt(s: string, pat: string, i: int) {
    0 <= i && i + |pat| <= |s| && s[i..i + |pat|] == pat
  }

  /** `pat` is a substring of `s`, i.e. `s.find(pat) >= 0`. */
  predicate Contains(s: string, pat: string) {
    exists i | 0 <= i <= |s| :: OccursAt(s, pat, i)
  }

  function FindFrom(s: string, pat: string, i: nat): (r: int)
    requires i <= |s|
    ensures r == -1 || (i <= r && OccursAt(s, pat, r))
    ensures r == -1 ==> forall j :: i <= j ==> !OccursAt(s, pat, j)
    ensures r >= 0 ==> forall j :: i <= j < r ==> !OccursAt(s, pat, j)
    decreases |s| - i
  {
    if i + |pat| > |s| then -1
    else if s[i..i + |pat|] == pat then i
    else if i == |s| then -1
    else FindFrom(s, pat, i + 1)
  }

  /** Python `s.find(pat)`: the first index where `pat` occurs, or -1. */
  function Find(s: string, pat: string): (r: int)
    ensures r == -1 <==> !Contains(s, pat)
    ensures r >= 0 ==> OccursAt(s, pat, r) && forall j :: 0 <= j < r ==> !OccursAt(s, pat, j)
  {
    FindFrom(s, pat, 0)
  }

  /** The empty pattern occurs in every string, so `s.find('') == 0`. */
  lemma EmptyPatternFound(s: string)
    ensures Contains(s, "")
  {
    assert OccursAt(s, "", 0);
  }

  /** A substring that is found inside a piece is found inside any string
      that has the piece at some offset. */
  lemma ContainsShift(s: string, t: string, k: nat, pat: string)
    requires k + |t| <= |s| && s[k..k + |t|] == t
    requires Contains(t, pat)
    ensures Contains(s, pat)
  {
    var i :| 0 <= i <= |t| && OccursAt(t, pat, i);
    assert forall m :: 0 <= m < |t| ==> s[k + m] == t[m];
    assert s[k + i..k + i + |pat|] == t[i..i + |pat|];
    assert OccursAt(s, pat, k + i);
  }

  // ---------------------------------------------------------------------------
  // `str.split(c)` and `c.join(tokens)` on a single-character separator
  // ---------------------------------------------------------------------------

  /** Python `s.split(c)`: never empty; consecutive separators give empty tokens. */
  function Split(s: string, c: char): (r: seq<string>)
    ensures |r| >= 1
    ensures forall k :: 0 <= k < |r| ==> c !in r[k]
    decreases |s|
  {
    if |s| == 0 then [""]
    else
      var rest := Split(s[1..], c);
      if s[0] == c then [""] + rest
      else [[s[0]] + rest[0]] + rest[1..]
  }

  /** Python `sep.join(ts)`. */
  function Join(ts: seq<string>, sep: string): string
    decreases |ts|
  {
    if |ts| == 0 then ""
    else if |ts| == 1 then ts[0]
    else ts[0] + sep + Join(ts[1..], sep)
  }

  /** Joins of short lists, spelled out. */
  lemma JoinTwo(a: string, b: string, sep: string)
    ensures Join([a, b], sep) == a + sep + b
  {
    assert [a, b][1..] == [b];
  }

  lemma JoinThree(a: string, b: string, c: string, sep: string)
    ensures Join([a, b, c], sep) == a + sep + b + sep + c
  {
    assert [a, b, c][1..] == [b, c];
    JoinTwo(b, c, sep);
  }

  lemma JoinFour(a: string, b: string, c: string, d: string, sep: string)
    ensures Join([a, b, c, d], sep) == a + sep + b + sep + c + sep + d
  {
    assert [a, b, c, d][1..] == [b, c, d];
    JoinThree(b, c, d, sep);
  }

  lemma JoinFive(a: string, b: string, c: string, d: string, e: string, sep: string)
    ensures Join([a, b, c, d, e], sep) == a + sep + b + sep + c + sep + d + sep + e
  {
    assert [a, b, c, d, e][1..] == [b, c, d, e];
    JoinFour(b, c, d, e, sep);
  }

  /** The tokens of a split are made of the string's characters: a
      character absent from `s` is absent from every token. */
  lemma {:induction false} SplitTokensAvoid(s: string, c: char, d: char)
    requires d !in s
    ensures forall k :: 0 <= k < |Split(s, c)| ==> d !in Split(s, c)[k]
    decreases |s|
  {
    if |s| > 0 {
      assert forall m :: 0 <= m < |s[1..]| ==> s[1..][m] == s[m + 1];
      SplitTokensAvoid(s[1..], c, d);
      var rest := Split(s[1..], c);
      if s[0] != c {
        assert Split(s, c) == [[s[0]] + rest[0]] + rest[1..];
        assert d !in [s[0]] + rest[0];
        forall k | 1 <= k < |Split(s, c)| ensures d !in Split(s, c)[k] {
          assert Split(s, c)[k] == rest[k];
        }
      }
    }
  }

  /** Number of occurrences of the character `c` in `s`. */
  function CountChar(s: string, c: char): nat
    decreases |s|
  {
    if |s| == 0 then 0 else (if s[0] == c then 1 else 0) + CountChar(s[1..], c)
  }

  /** A character is counted zero times exactly when it does not occur. */
  lemma {:induction false} CountCharZero(s: string, c: char)
    ensures CountChar(s, c) == 0 <==> c !in s
    decreases |s|
  {
    if |s| > 0 {
      assert s == [s[0]] + s[1..];
      CountCharZero(s[1..], c);
    }
  }

  /** Splitting and re-joining gives back the original string. */
  lemma {:induction false} JoinSplit(s: string, c: char)
    ensures Join(Split(s, c), [c]) == s
    decreases |s|
  {
    if |s| == 0 {
    } else {
      var rest := Split(s[1..], c);
      JoinSplit(s[1..], c);
      if s[0] == c {
        assert Split(s, c) == [""] + rest;
      } else {
        var r := Split(s, c);
        assert r == [[s[0]] + rest[0]] + rest[1..];
        if |rest| == 1 {
          assert r == [[s[0]] + rest[0]];
        } else {
          assert r[1..] == rest[1..];
          assert Join(rest, [c]) == rest[0] + [c] + Join(rest[1..], [c]);
        }
      }
    }
  }

  /** Joining separator-free tokens and splitting again gives back the tokens. */
  lemma {:induction false} SplitJoin(ts: seq<string>, c: char)
    requires |ts| >= 1
    requires forall k :: 0 <= k < |ts| ==> c !in ts[k]
    ensures Split(Join(ts, [c]), c) == ts
    decreases |ts|, |ts[0]|
  {
    if |ts[0]| == 0 {
      if |ts| == 1 {
      } else {
        SplitJoin(ts[1..], c);
        var j := Join(ts, [c]);
        assert j == [c] + Join(ts[1..], [c]);
        assert j[1..] == Join(ts[1..], [c]);
        assert [""] + ts[1..] == ts;
      }
    } else {
      var ts' := [ts[0][1..]] + ts[1..];
      forall k | 0 <= k < |ts'| ensures c !in ts'[k] {
        if k == 0 {
          assert forall m :: 0 <= m < |ts[0][1..]| ==> ts[0][1..][m] == ts[0][m + 1];
        }
      }
      SplitJoin(ts', c);
      var j := Join(ts, [c]);
      if |ts| == 1 {
        assert j == ts[0];
        assert j[1..] == Join(ts', [c]);
      } else {
        assert ts'[1..] == ts[1..];
        assert j == ts[0] + [c] + Join(ts[1..], [c]);
        assert j[1..] == ts[0][1..] + [c] + Join(ts[1..], [c]);
        assert j[1..] == Join(ts', [c]);
      }
      assert j[0] == ts[0][0] && j[0] != c;
      var rest := Split(j[1..], c);
      assert rest == ts';
      assert [j[0]] + rest[0] == ts[0];
      assert rest[1..] == ts[1..];
      assert Split(j, c) == [[j[0]] + rest[0]] + rest[1..];
    }
  }

  /** Every separator starts a new token: `len(s.split(c)) == s.count(c) + 1`. */
  lemma {:induction false} SplitCount(s: string, c: char)
    ensures |Split(s, c)| == CountChar(s, c) + 1
    decreases |s|
  {
    if |s| > 0 {
      SplitCount(s[1..], c);
    }
  }

  /** A separator at position `i` adds one to the count of the part after it. */
  lemma {:induction false} CountSplitAt(s: string, c: char, i: nat)
    requires i < |s| && s[i] == c
    ensures CountChar(s, c) == CountChar(s[..i], c) + 1 + CountChar(s[i + 1..], c)
    decreases i
  {
    if i == 0 {
      assert s[1..] == s[i + 1..];
    } else {
      CountSplitAt(s[1..], c, i - 1);
      assert s[1..][..i - 1] == s[..i][1..];
      assert s[1..][i - 1 + 1..] == s[i + 1..];
    }
  }

  /** Three separators at distinct positions are counted. */
  lemma ThreeSeparators(s: string, c: char, h1: nat, h2: nat, h3: nat)
    requires h1 < h2 < h3 < |s| && s[h1] == c && s[h2] == c && s[h3] == c
    ensures CountChar(s, c) >= 3
  {
    CountSplitAt(s, c, h1);
    var t1 := s[h1 + 1..];
    assert t1[h2 - h1 - 1] == c;
    CountSplitAt(t1, c, h2 - h1 - 1);
    var t2 := t1[h2 - h1..];
    assert t2[h3 - h2 - 1] == s[h3];
    CountSplitAt(t2, c, h3 - h2 - 1);
  }

  // ---------------------------------------------------------------------------
  // `str.strip()`
  // ---------------------------------------------------------------------------

  function StripLeft(s: string): (r: string)
    ensures |r| <= |s| && r == s[|s| - |r|..]
    ensures AllSpace(s[..|s| - |r|])
    ensures r == [] || !IsSpace(r[0])
    decreases |s|
  {
    if |s| > 0 && IsSpace(s[0]) then
      var r := StripLeft(s[1..]);
      assert s[1..][..|s| - 1 - |r|] == s[1..|s| - |r|];
      assert s[..|s| - |r|] == [s[0]] + s[1..|s| - |r|];
      r
    else s
  }

  function StripRight(s: string): (r: string)
    ensures |r| <= |s| && r == s[..|r|]
    ensures AllSpace(s[|r|..])
    ensures r == [] || !IsSpace(r[|r| - 1])
    decreases |s|
  {
    if |s| > 0 && IsSpace(s[|s| - 1]) then
      var r := StripRight(s[..|s| - 1]);
      assert s[..|s| - 1][|r|..] == s[|r|..|s| - 1];
      assert s[|r|..] == s[|r|..|s| - 1] + [s[|s| - 1]];
      r
    else s
  }

  /** Python `s.strip()`: drop leading and trailing whitespace. */
  function Strip(s: string): (r: string)
    ensures exists i, j :: 0 <= i <= j <= |s| && r == s[i..j] && AllSpace(s[..i]) && AllSpace(s[j..])
    ensures r == [] || (!IsSpace(r[0]) && !IsSpace(r[|r| - 1]))
  {
    var l := StripLeft(s);
    var r := StripRight(l);
    var i := |s| - |l|;
    assert r == s[i..i + |r|];
    assert s[i + |r|..] == l[|r|..];
    r
  }

  /** Stripping twice is stripping once. */
  lemma StripIdempotent(s: string)
    ensures Strip(Strip(s)) == Strip(s)
  {
    var t := Strip(s);
    if |t| > 0 {
      assert StripLeft(t) == t;
      assert StripRight(t) == t;
    }
  }

  // ---------------------------------------------------------------------------
  // `'{:d}'.format(n)`
  // ---------------------------------------------------------------------------

  predicate IsDigit(c: char) { '0' <= c <= '9' }

  predicate AllDigits(s: string) {
    forall i :: 0 <= i < |s| ==> IsDigit(s[i])
  }

  function DigitChar(d: nat): (c: char)
    requires d < 10
    ensures IsDigit(c) && c as int - '0' as int == d
  {
    ('0' as int + d) as char
  }

  /** Decimal digits of a natural number, most significant first, no leading zeros. */
  function NatToString(n: nat): string
    decreases n
  {
    if n < 10 then [DigitChar(n)] else NatToString(n / 10) + [DigitChar(n % 10)]
  }

  /** The value a string of decimal digits denotes (Python `int(s)` on digits). */
  function DigitsValue(s: string): nat
    requires AllDigits(s)
  {
    if |s| == 0 then 0
    else DigitsValue(s[..|s| - 1]) * 10 + (s[|s| - 1] as int - '0' as int)
  }

  /** The decimal rendering is digits only, has no leading zero, and reads back as `n`. */
  lemma {:induction false} NatToStringRoundTrip(n: nat)
    ensures |NatToString(n)| >= 1 && AllDigits(NatToString(n))
    ensures NatToString(n)[0] == '0' ==> n == 0
    ensures DigitsValue(NatToString(n)) == n
    decreases n
  {
    if n >= 10 {
      NatToStringRoundTrip(n / 10);
      var s := NatToString(n);
      assert s[..|s| - 1] == NatToString(n / 10);
    }
  }

  /** Python `'{:d}'.format(i)`. */
  function IntToString(i: int): string {
    if i < 0 then "-" + NatToString(-i) else NatToString(i)
  }

  /** `'{:d}'` never produces `/`, `?` or a line break, and distinct integers
      are rendered differently. */
  lemma IntToStringShape(i: int, j: int)
    ensures forall k :: 0 <= k < |IntToString(i)| ==> IntToString(i)[k] == '-' || IsDigit(IntToString(i)[k])
    ensures IntToString(i) == IntToString(j) ==> i == j
  {
    IntToStringChars(i);
    if IntToString(i) == IntToString(j) {
      IntToStringInjective(i, j);
    }
  }

  /** The rendering is a minus sign for negatives, then digits. */
  lemma IntToStringChars(i: int)
    ensures |IntToString(i)| >= 1
    ensures IntToString(i)[0] == '-' <==> i < 0
    ensures forall k :: 0 <= k < |IntToString(i)| ==> IntToString(i)[k] == '-' || IsDigit(IntToString(i)[k])
  {
    var n := if i < 0 then -i else i;
    NatToStringRoundTrip(n);
    var d := NatToString(n);
    assert IsDigit(d[0]);
    if i < 0 {
      assert IntToString(i) == "-" + d;
      forall k | 1 <= k < |IntToString(i)| ensures IsDigit(IntToString(i)[k]) {
        assert IntToString(i)[k] == d[k - 1];
      }
    }
  }

  lemma IntToStringInjective(i: int, j: int)
    requires IntToString(i) == IntToString(j)
    ensures i == j
  {
    IntToStringChars(i);
    IntToStringChars(j);
    var m := if i < 0 then -i else i;
    var n := if j < 0 then -j else j;
    NatToStringRoundTrip(m);
    NatToStringRoundTrip(n);
    if i < 0 {
      assert NatToString(m) == IntToString(i)[1..];
      assert NatToString(n) == IntToString(j)[1..];
    }
  }
}
